=== FILE: README.md ===
# Xcodeproj project object graph, in Dafny

A model of the core of Xcodeproj's `Project`: the object graph behind an
`.xcodeproj` document and the operations on it.

- **Identifier registry.** Every project hands out 24-character upper-case
  hexadecimal identifiers (UUIDs). It records each one it ever generated,
  whether or not the object still exists (`Uuids`).
- **Objects by UUID.** A heap of nodes holds the objects. Each node has an
  `isa` kind and an ordered attribute list of strings, to-one references and
  to-many reference lists (`Graph`).
  - An object is registered exactly when it is reachable from the root
    object. The `objects_by_uuid` table is computed from reachability, not
    kept by hand (`Projects.Objects`, `Projects.ObjectsByUuid`).
  - A new object therefore stays out of the table until something refers
    to it.
- **New projects.** A project created from scratch holds seven objects: the
  root, the main group, the products and frameworks groups, and the
  configuration list with its Debug and Release configurations (`Scratch`).
- **Helpers.** Display names, groups, lookup by kind, `new_group` and
  `add_build_configuration` (`Builders`).
- **Removal.** Removing an object also removes the link objects
  (container-item proxies, reference proxies, target dependencies, project
  reference entries) that exist only to point at it, transitively. Every
  reference to anything removed is then dropped (`Removal`).
- **Sorting.** `sort` orders the children of groups, the project's targets
  and the configuration list's configurations by display name (`Sorting`).
- **Differ.** The differ compares two tree-shaped hashes and returns
  nothing when they agree (`Differ`). Otherwise it returns a minimal tree of
  differences, with the two sides under two labels (`project_1` and
  `project_2` for `project_diff`).
- **Predictable UUIDs.** `predictabilize_uuids` renames every registered
  object to the MD5 digest of the path that first reaches it from the root
  (`Renaming`, `Predictable`). Two projects made by the same steps, such as
  creating a project and adding a build configuration, come out the same
  (`Steps`, `Configured`).
  - Later holders of a repeated digest get a numbered suffix.
  - The root's path is empty, so the root always becomes
    `D41D8CD98F00B204E9800998ECF8427E`, the digest of empty input (RFC 1321,
    appendix A.5).
- **Escaping.** Saving writes every non-ASCII character of a text value as
  the decimal character reference `&#n;` of XML 1.0, section 4.1
  (`Escaping`, `Decimal`).

The repository's file of executable expectations,
`spec/project_spec.rb`, is the source of this model. The library files it
exercises are not part of this model. Where the expectations leave a
behaviour open, the model makes a choice of its own:

- Lists are compared by membership: the expectation at
  spec/project_spec.rb:392-396 files the appended group directly under
  `project_2`.
  - Elements only in the first list go under the first label.
  - Elements only in the second go under the second.
- Display names are ordered by code point, case-sensitively (`TextLe`).
- The sort is stable: objects with equal display names keep their order
  (`Sorting.SortStable`). No expectation sorts equal names.
- A repeated digest is told apart by appending `-` and its position in
  discovery order. The expectations never produce a repeated digest.
- Removing an object also removes the container-item proxies, reference
  proxies, target dependencies and project reference entries that point at
  it. The expectation at lines 173-190 shows only the proxy chain of one
  subproject.
- Removing an object drops every reference to it from every surviving
  object, not only from the object's parent.
- Generation of random identifiers is replaced by a deterministic choice:
  the first unrecorded one in counting order. The property the tests rely on
  is kept: a new identifier collides with nothing generated before.
- "Registered" is defined as reachable from the root.
- Each entry of the root's `projectReferences` list is modelled as an
  object of its own, of kind `ProjectReference`, whose links to the
  subproject are ordinary references. In the document such an entry is a
  dictionary inside the root, with no identifier. So, for a project with subprojects,
  the model registers, names and renames one object per entry that the
  library does not: its object count and identifier set are larger by the
  number of entries.

## Model

| member | source | states |
|---|---|---|
| Uuids.GenerateUuid | spec/project_spec.rb:255-257 | a generated identifier is 24 upper-case hex digits, differs from every identifier generated before, and is recorded |
| Uuids.GenerateBatch | spec/project_spec.rb:259-266 | a batch of n identifiers holds n distinct new ones, so the record of generated identifiers grows by exactly n |
| Graph.Reach | spec/project_spec.rb:239-243 | the objects reachable from the root are closed under references and contain the root whenever it exists |
| Graph.ReachLeast | spec/project_spec.rb:233-237 | reachability is the least such set, so an object nothing refers to is never in it |
| Projects.CreateKeepsObjects | spec/project_spec.rb:229-231 | creating an object keeps the project valid, registers nothing, and records the new identifier as generated |
| Projects.DetachedUntilReferenced | spec/project_spec.rb:233-237 | a new file reference whose path is set is not in the objects-by-UUID table, yet its identifier is recorded |
| Projects.RegisteredOnceReferenced | spec/project_spec.rb:239-243 | appending a new object to a registered object's list registers it, and nothing else |
| Schema.FileReferenceDefaults | spec/project_spec.rb:245-253 | a new file reference holds exactly sourceTree SOURCE_ROOT and includeInIndex 1 |
| Schema.NodeFromPlist | spec/project_spec.rb:116-125 | an object read from a document has the document's kind and exactly the document's attributes, each with the document's value |
| Schema.LoadedLacksDefaults | spec/project_spec.rb:116-125 | a file reference read with only its source tree has no includeInIndex, although a new file reference has it set to 1 |
| Scratch.NewProjectObjects | spec/project_spec.rb:43-46 | a new project is valid, has seven registered objects with 24-character identifiers, and its root is in the objects-by-UUID table |
| Scratch.NewProjectMainGroup | spec/project_spec.rb:48-56 | the root's main group exists and is a group, the products group is a registered group among its children, and the frameworks group is a group |
| Scratch.NewProjectConfigurations | spec/project_spec.rb:58-68 | the configuration list holds Debug then Release, defaults to Release and is not visible |
| Scratch.ScratchFrameworks | spec/project_spec.rb:359-364 | the main group's child named Frameworks is the frameworks group |
| Scratch.NewProjectDisplayNames | spec/project_spec.rb:278-289 | the display names of the registered objects are exactly ConfigurationList, Debug, Frameworks, Main Group, Products, Project, Release |
| Scratch.NewProjectGroups | spec/project_spec.rb:296-299 | there are exactly three registered groups, shown as Frameworks, Main Group and Products |
| Scratch.NewProjectGroupOrder | spec/project_spec.rb:306-309 | the groups among the main group's children are Products then Frameworks, in that order |
| Builders.ChildNamed | spec/project_spec.rb:70-72 | the child found by name is the first of the parent's children with that name; when none is found, no child has it |
| Builders.NewGroup | spec/project_spec.rb:467-473 | a new group is a PBXGroup with the given name and no children, appended to the end of its parent's children |
| Builders.NewGroupObjects | spec/project_spec.rb:470-472 | a new group under a registered parent is registered, and nothing else is |
| Builders.AddBuildConfiguration | spec/project_spec.rb:505-508 | a new name is appended to the configuration names; an existing name changes nothing; either way the result is a build configuration with that name |
| Builders.AddBuildConfigurationObjects | spec/project_spec.rb:505-508 | adding a configuration keeps the project valid and registers exactly the returned configuration |
| Builders.AddBuildConfigurationNoDuplicate | spec/project_spec.rb:510-514 | after adding a name, it occurs among the configuration names once if it was new, and as often as before otherwise |
| Builders.AddBuildConfigurationIdempotent | spec/project_spec.rb:516-521 | adding the same name twice gives the same project and returns the same configuration as adding it once |
| Removal.Cascade | spec/project_spec.rb:173-190 | the removed set contains the object, holds only link objects besides it, and holds every link object that points into it |
| Removal.CascadeLeast | spec/project_spec.rb:173-190 | it is the least such set, so nothing else is removed |
| Removal.RootSurvives | spec/project_spec.rb:196 | removing a non-root object never removes the root |
| Removal.RemoveValid | spec/project_spec.rb:194-196 | the project stays valid, and no surviving object refers to a removed one |
| Removal.RemoveObjects | spec/project_spec.rb:197-200 | none of the removed objects stays registered; the root stays registered; a registered object's surviving references stay registered |
| Removal.RemoveTakesLinks | spec/project_spec.rb:177-189 | a proxy pointing at the object, and a link pointing at that proxy, are both gone |
| Removal.RemoveOrphans | spec/project_spec.rb:179-181 | objects reachable only through removed objects, such as the subproject's products group, are no longer registered |
| Removal.RemoveEmptiesSlot | spec/project_spec.rb:197 | a list that held only links to the removed object, such as the root's project references, ends up empty |
| Sorting.SortRefs | spec/project_spec.rb:524-536 | sorting a reference list gives a permutation of it, ordered by display name |
| Sorting.SortRefsSorted | spec/project_spec.rb:532 | a list already in order is left as it is |
| Sorting.SortStable | spec/project_spec.rb:532 | the members that share a display name come out in the order they went in |
| Sorting.SortConfigurations | spec/project_spec.rb:530-535 | the configurations Debug, Release, B, A sort to A, B, Debug, Release |
| Sorting.SortOrders | spec/project_spec.rb:532-535 | after sort every sorted list of every object is ordered by display name and holds the same members as often as before |
| Sorting.SortKeeps | spec/project_spec.rb:532 | sort changes no object's references or keys, and no attribute other than the sorted lists |
| Sorting.SortObjects | spec/project_spec.rb:532 | sort keeps a valid project valid and registers the same objects |
| Sorting.SortKeepsNames | spec/project_spec.rb:532 | sort changes no display name |
| Sorting.SortIdempotent | spec/project_spec.rb:532 | sorting a sorted project changes nothing |
| Differ.Generic | spec/project_spec.rb:109-114 | two values of different shapes differ exactly when they are unequal, and then the delta holds the first value whole under the first label and the second under the second |
| Differ.DiffWhole | spec/project_spec.rb:109-114 | two trees that are not both hashes nor both lists give no delta exactly when equal, and otherwise a hash of the two whole trees under the two labels |
| Differ.ListDelta | spec/project_spec.rb:392-396 | two lists give no delta exactly when each holds every element of the other; otherwise the first label is present exactly when some element is only in the first list, and holds exactly those elements, in the first list's order and each as often as it occurs there; likewise for the second |
| Differ.DiffNoneIffSame | spec/project_spec.rb:109-114 | the diff is empty exactly when the trees agree: hashes key by key, lists as collections, everything else by equality |
| Differ.DiffSelf | spec/project_spec.rb:113 | a tree compared with itself has no diff |
| Differ.DictDeltaKeys | spec/project_spec.rb:392-397 | a hash delta holds exactly the keys whose values disagree: a key on both sides with that pair's own delta, a key on one side only with both values whole, the missing one as null, under the two labels |
| Differ.DiffSymmetric | spec/project_spec.rb:391 | swapping the two trees and their labels gives the same diff |
| Differ.AppendedListDelta | spec/project_spec.rb:393-395 | appending a new element to a list gives a delta holding just that element under the second label |
| Differ.NewChildDelta | spec/project_spec.rb:386-398 | adding a group to the main group's children gives rootObject, mainGroup, children, project_2 and the new group, and nothing else |
| Predictable.Disambiguate | spec/project_spec.rb:417-420 | the identifiers are distinct, each starts with its digest, and a digest is kept as it is exactly when no earlier object has it |
| Predictable.NewNames | spec/project_spec.rb:417-420 | every registered object gets a new identifier, no two the same |
| Predictable.PredictableObjects | spec/project_spec.rb:417-420 | the renamed project is valid, has as many registered objects as before, and every object it keeps is registered |
| Predictable.PredictableRoot | spec/project_spec.rb:434-444 | the root is always renamed to D41D8CD98F00B204E9800998ECF8427E, whatever its old identifier |
| Predictable.PredictableDeterministic | spec/project_spec.rb:451-454 | two projects that differ only in their identifiers come out identical |
| Predictable.NewProjectsPredictable | spec/project_spec.rb:422-432 | two new projects, created with whatever identifiers, come out with the same objects under the same identifiers |
| Steps.AddConfigurationCorresponds | spec/project_spec.rb:423-426 | adding the same build configuration to two projects related by a renaming keeps them related, the two returned configurations corresponding |
| Configured.NewConfiguredProject | spec/project_spec.rb:423-426 | a new project given one more build configuration is valid, and its configurations are Debug, Release and the new name, unless the name is Debug or Release |
| Configured.ConfiguredPredictable | spec/project_spec.rb:422-432 | two projects related by a renaming and given the same build configuration come out with the same objects under the same identifiers |
| Configured.ConfiguredProjectsPredictable | spec/project_spec.rb:422-444 | two new projects given the same build configuration, created with whatever identifiers, come out with the same objects under the same identifiers, the root under D41D8CD98F00B204E9800998ECF8427E |
| Escaping.EscapeAscii | spec/project_spec.rb:210-225 | the saved text is all ASCII, and ASCII text is saved as it is |
| Escaping.EscapeAppend | spec/project_spec.rb:210-225 | text is escaped character by character |
| Escaping.RoundTrip | spec/project_spec.rb:203-208 | reading back the saved form gives the text again, provided it holds no literal `&#` |
| Escaping.RoundTripNeedsNoRef | spec/project_spec.rb:203-208 | without that proviso the round trip fails: a literal `&#233;` is saved unchanged and read back as é |
| Escaping.EscapeJapanese | spec/project_spec.rb:212-222 | わくわく is saved as &#12431;&#12367;&#12431;&#12367; |
| Escaping.EscapeAccent | spec/project_spec.rb:214-225 | Cédric is saved as C&#233;dric |

## Left out

- Reading and writing files, paths, the property-list reader and writer, and
  the foreign-function bridge to Xcode's frameworks. The archive and object
  versions and the `classes` table belong to the document format and are not
  modelled. The model starts from the object graph.
- Loading: `to_hash`, the identifier and object table that `new_from_plist`
  reads from (only the object it builds is modelled, by
  `Schema.NodeFromPlist`), merge-conflict detection, and loading the Xcode
  6.3 and circular-dependency fixtures. The differ is modelled on its own trees, and
  its `id_key` and `to_tree_hash` conversions are left out.
- Referrer lists (`referrers`). Registration is computed from references
  instead, and ownership of the root by the project is implicit.
- Schemes, user schemes, extension-target queries, `pretty_print`, build
  settings, `new_file`, `new_target`, `new_resources_bundle`,
  `new_aggregate_target`, products, native targets and path lookup. These
  are outside the object-graph core.
- The MD5 algorithm. It is a parameter. The model assumes only that it maps
  the empty path to the digest of empty input and always yields 32
  characters.
- Random numbers. Identifier generation is the deterministic
  first-free choice described above.
- Uuids.GenerateBatch: the source draws random identifiers and only promises
  at least 75 new ones out of 100. The model's deterministic generator always
  yields exactly n.
- Predictable.Predictabilize: objects that are not registered are dropped,
  since they have no path from the root to digest.
- Predictable.PredictableDeterministic: the two projects must be related by
  a renaming of the whole heap. Projects loaded twice from one file satisfy
  this, but the premise is stated, not derived from loading.
- Configured.ConfiguredProjectsPredictable: the build configuration type
  (`:debug`) only chooses build settings, which are not modelled. The
  project's file path plays no part in the model.
- Project reference entries as objects of their own: the object counts,
  identifier sets and predictable identifiers of projects with subprojects
  are not the library's, since each entry is one object more.
- Differ.ListDelta: what each label holds is stated for two distinct
  labels. When both labels are equal, the second side overwrites the first,
  as in a hash literal with a repeated key.
- Predictable.Disambiguate: the digest is modelled only by its length. Where
  a suffix goes is modelled. The digest's hex alphabet is not.
- Sorting.SortConfigurations: shows the configuration ordering of the sort
  expectation. The group and target orderings at lines 533-534 follow from
  Sorting.SortOrders; they have no concrete example of their own.
- The step-by-step construction of a new project (`Scratch`). The
  seven-object graph is stated directly, not replayed operation by operation.
- Display names of objects named by path only. The display name here is the
  `name` attribute, else "Main Group" for the main group, else the kind
  without its PBX or XC prefix.

=== FILE: builders.dfy ===
/** The convenience operations built on the object graph: groups, build
    configurations, and the object graph of a project made from scratch. */
module Builders {
  import opened Wrappers
  import opened Uuids
  import opened Graph
  import opened Schema
  import opened Projects

  // ---------------------------------------------------------------------
  // Queries

  /** The `name` attribute of an object, when it has a text one. */
  function NodeName(n: Node): Option<string> {
    match Get(n.attrs, "name")
    case Some(Str(s)) => Some(s)
    case _ => None
  }

  function NameOf(h: Heap, u: Uuid): Option<string> {
    if u in h then NodeName(h[u]) else None
  }

  /** The object a to-one slot of the root points at. */
  function RootRef(p: Project, key: string): Option<Uuid> {
    if p.root in p.heap then RefOf(p.heap[p.root], key) else None
  }

  function MainGroup(p: Project): Option<Uuid> { RootRef(p, "mainGroup") }
  function ProductsGroup(p: Project): Option<Uuid> { RootRef(p, "productRefGroup") }
  function ConfigurationList(p: Project): Option<Uuid> { RootRef(p, "buildConfigurationList") }

  /** The build configurations listed by the root's configuration list. */
  function Configurations(p: Project): seq<Uuid> {
    match ConfigurationList(p)
    case Some(l) => if l in p.heap then RefList(p.heap[l], "buildConfigurations") else []
    case None => []
  }

  /** The names of the build configurations, in list order. */
  function ConfigurationNames(p: Project): (r: seq<Option<string>>)
    ensures |r| == |Configurations(p)|
  {
    var cs := Configurations(p);
    seq(|cs|, i requires 0 <= i < |cs| => NameOf(p.heap, cs[i]))
  }

  /** The first position of us whose object is named name. */
  function FindByName(h: Heap, us: seq<Uuid>, name: string, from: nat): (r: Option<nat>)
    requires from <= |us|
    ensures r.Some? ==> from <= r.value < |us| && NameOf(h, us[r.value]) == Some(name)
    ensures r.Some? ==> forall j :: from <= j < r.value ==> NameOf(h, us[j]) != Some(name)
    ensures r.None? ==> forall j :: from <= j < |us| ==> NameOf(h, us[j]) != Some(name)
    decreases |us| - from
  {
    if from == |us| then None
    else if NameOf(h, us[from]) == Some(name) then Some(from)
    else FindByName(h, us, name, from + 1)
  }

  /** The root has a configuration list holding build configurations only. */
  predicate HasConfigurationList(p: Project) {
    && ConfigurationList(p).Some?
    && ConfigurationList(p).value in p.heap
    && p.heap[ConfigurationList(p).value].kind == ConfigurationListKind
    && ListSlot(p.heap[ConfigurationList(p).value], "buildConfigurations")
    && forall c :: c in Configurations(p) ==> c in p.heap && p.heap[c].kind == BuildConfigurationKind
  }

  /** The kind without its "PBX" or "XC" family prefix. */
  function KindLabel(kind: string): (r: string)
    ensures kind == "PBX" + r || kind == "XC" + r || kind == r
  {
    if |kind| >= 3 && kind[..3] == "PBX" then
      assert kind == kind[..3] + kind[3..];
      kind[3..]
    else if |kind| >= 2 && kind[..2] == "XC" then
      assert kind == kind[..2] + kind[2..];
      kind[2..]
    else kind
  }

  /** The text an object is shown by: its name when it has a non-empty one,
      else "Main Group" for the main group, else its kind label. */
  function DisplayName(p: Project, u: Uuid): string
    requires u in p.heap
  {
    var n := NodeName(p.heap[u]);
    if n.Some? && n.value != "" then n.value
    else if MainGroup(p) == Some(u) then "Main Group"
    else KindLabel(p.heap[u].kind)
  }

  /** The display names of a set of objects. */
  function DisplayNames(p: Project, us: set<Uuid>): set<string> {
    set u | u in us && u in p.heap :: DisplayName(p, u)
  }

  /** The registered objects of the kind. */
  function ListByKind(p: Project, kind: string): (r: set<Uuid>)
    ensures forall u :: u in r <==> u in Objects(p) && p.heap[u].kind == kind
  {
    set u | u in Objects(p) && u in p.heap && p.heap[u].kind == kind
  }

  /** The members of us that are groups, in order. */
  function GroupsAmong(h: Heap, us: seq<Uuid>): (r: seq<Uuid>)
    ensures forall u :: u in r <==> u in us && u in h && h[u].kind == GroupKind
    ensures |r| <= |us|
  {
    if us == [] then []
    else
      var rest := GroupsAmong(h, us[1..]);
      assert forall u :: u in us <==> u == us[0] || u in us[1..];
      if us[0] in h && h[us[0]].kind == GroupKind then [us[0]] + rest else rest
  }

  /** The groups among the main group's children. */
  function Groups(p: Project): seq<Uuid> {
    match MainGroup(p)
    case Some(m) => if m in p.heap then GroupsAmong(p.heap, RefList(p.heap[m], "children")) else []
    case None => []
  }

  /** The display names of a list of objects, in order. */
  function DisplayNameList(p: Project, us: seq<Uuid>): (r: seq<string>)
    requires forall u :: u in us ==> u in p.heap
    ensures |r| == |us|
  {
    seq(|us|, i requires 0 <= i < |us| => DisplayName(p, us[i]))
  }

  /** The first child of parent with the given name. */
  function ChildNamed(p: Project, parent: Uuid, name: string): (r: Option<Uuid>)
    requires parent in p.heap
    ensures r.Some? ==> r.value in RefList(p.heap[parent], "children") && NameOf(p.heap, r.value) == Some(name)
    ensures r.None? ==> forall c :: c in RefList(p.heap[parent], "children") ==> NameOf(p.heap, c) != Some(name)
    ensures r.Some? ==>
      var cs := RefList(p.heap[parent], "children");
      exists i :: 0 <= i < |cs| && cs[i] == r.value && forall j :: 0 <= j < i ==> NameOf(p.heap, cs[j]) != Some(name)
  {
    var cs := RefList(p.heap[parent], "children");
    match FindByName(p.heap, cs, name, 0)
    case Some(i) => Some(cs[i])
    case None => None
  }

  /** The group holding the frameworks: the main group's child so named. */
  function FrameworksGroup(p: Project): Option<Uuid> {
    match MainGroup(p)
    case Some(m) => if m in p.heap then ChildNamed(p, m, "Frameworks") else None
    case None => None
  }

  // ---------------------------------------------------------------------
  // Groups

  /** A new object of the kind whose only addition to its defaults is a name. */
  function NamedNode(kind: string, name: string): Node {
    Node(kind, NewNode(kind).attrs + [Attr("name", Str(name))])
  }

  lemma NamedNodeFacts(kind: string, name: string)
    ensures NamedNode(kind, name).kind == kind
    ensures NamedNode(kind, name) == Node(kind, Put(NewNode(kind).attrs, "name", Str(name)))
    ensures NodeName(NamedNode(kind, name)) == Some(name)
    ensures Targets(NamedNode(kind, name)) == {}
    ensures UniqueKeys(NamedNode(kind, name).attrs)
    ensures forall k :: k != "name" ==> Get(NamedNode(kind, name).attrs, k) == Get(NewNode(kind).attrs, k)
  {
    NewNodeUnnamed(kind);
    PutAbsent(NewNode(kind).attrs, "name", Str(name));
    PutTargets(NewNode(kind).attrs, "name", Str(name));
    PutKeepsUniqueKeys(NewNode(kind).attrs, "name", Str(name));
  }

  /** A group's children list starts empty. */
  lemma NewGroupNodeEmpty(name: string)
    ensures RefList(NamedNode(GroupKind, name), "children") == []
    ensures Get(NamedNode(GroupKind, name).attrs, "children") == Some(Refs([]))
  {
    var a := NewNode(GroupKind).attrs;
    NewNodeUnnamed(GroupKind);
    PutAbsent(a, "name", Str(name));
    assert NamedNode(GroupKind, name).attrs == Put(a, "name", Str(name));
    GroupStartsEmpty();
  }

  lemma GroupStartsEmpty()
    ensures Get(NewNode(GroupKind).attrs, "children") == Some(Refs([]))
  {
    assert NewNode(GroupKind).attrs[0] == Attr("children", Refs([]));
  }

  /** Creates a group with the given name and appends it to parent's
      children. */
  function NewGroup(p: Project, parent: Uuid, name: string): (r: (Project, Uuid))
    requires Recorded(p) && |p.registry.generated| < Space
    requires parent in p.heap && ListSlot(p.heap[parent], "children")
    ensures r.1 in r.0.heap && parent in r.0.heap
    ensures r.0.heap[r.1].kind == GroupKind && NameOf(r.0.heap, r.1) == Some(name)
    ensures RefList(r.0.heap[r.1], "children") == []
    ensures RefList(r.0.heap[parent], "children") == RefList(p.heap[parent], "children") + [r.1]
  {
    NamedNodeFacts(GroupKind, name);
    NewGroupNodeEmpty(name);
    AddChild(p, parent, "children", NamedNode(GroupKind, name))
  }

  /** The group is built as the source builds it: created, appended to the
      parent's children, then named. */
  lemma NewGroupSteps(p: Project, parent: Uuid, name: string)
    requires Recorded(p) && |p.registry.generated| < Space
    requires parent in p.heap && ListSlot(p.heap[parent], "children")
    ensures var created := Create(p, GroupKind);
            var appended := AppendRef(created.0, parent, "children", created.1);
            NewGroup(p, parent, name) == (SetScalar(appended, created.1, "name", Str(name)), created.1)
  {
    NamedNodeFacts(GroupKind, name);
    AddChildSteps(p, parent, "children", GroupKind, name);
    var n := NamedNode(GroupKind, name);
    assert NewGroup(p, parent, name) == AddChild(p, parent, "children", n);
  }

  /** A new group is registered exactly when its parent is, and nothing else
      is. */
  lemma NewGroupObjects(p: Project, parent: Uuid, name: string)
    requires Valid(p) && |p.registry.generated| < Space
    requires parent in p.heap && ListSlot(p.heap[parent], "children")
    ensures var r := NewGroup(p, parent, name);
            && Valid(r.0)
            && (parent in Objects(p) ==> Objects(r.0) == Objects(p) + {r.1})
            && (parent !in Objects(p) ==> Objects(r.0) == Objects(p))
  {
    NamedNodeFacts(GroupKind, name);
    AddChildObjects(p, parent, "children", NamedNode(GroupKind, name));
  }

  // ---------------------------------------------------------------------
  // Build configurations

  /** Returns the build configuration named name, creating it and appending
      it to the root's configuration list when there is none: a missing name
      is appended to the configuration names, a present one changes
      nothing. */
  function AddBuildConfiguration(p: Project, name: string): (r: (Project, Uuid))
    requires Recorded(p) && HasConfigurationList(p) && |p.registry.generated| < Space
    ensures r.1 in r.0.heap && r.0.heap[r.1].kind == BuildConfigurationKind
    ensures NameOf(r.0.heap, r.1) == Some(name)
    ensures Recorded(r.0) && HasConfigurationList(r.0)
    ensures ConfigurationList(r.0) == ConfigurationList(p)
    ensures Some(name) in ConfigurationNames(p) ==> r.0 == p && r.1 in Configurations(p)
    ensures Some(name) !in ConfigurationNames(p) ==>
      && r == AddChild(p, ConfigurationList(p).value, "buildConfigurations", NamedNode(BuildConfigurationKind, name))
      && Configurations(r.0) == Configurations(p) + [r.1]
      && ConfigurationNames(r.0) == ConfigurationNames(p) + [Some(name)]
  {
    var l := ConfigurationList(p).value;
    var cs := Configurations(p);
    match FindByName(p.heap, cs, name, 0)
    case Some(i) =>
      assert ConfigurationNames(p)[i] == Some(name);
      (p, cs[i])
    case None =>
      assert Some(name) !in ConfigurationNames(p) by {
        forall j | 0 <= j < |cs| ensures ConfigurationNames(p)[j] != Some(name) { }
      }
      NamedNodeFacts(BuildConfigurationKind, name);
      var r := AddChild(p, l, "buildConfigurations", NamedNode(BuildConfigurationKind, name));
      AppendedListUnchanged(p, l, r.1, r.0);
      AppendedConfigurations(p, l, r.1, r.0);
      AppendedNames(p, l, r.1, name, r.0);
      r
  }

  lemma AppendedListUnchanged(p: Project, l: Uuid, c: Uuid, p3: Project)
    requires HasConfigurationList(p) && l == ConfigurationList(p).value
    requires p3.root == p.root && p3.heap.Keys == p.heap.Keys + {c}
    requires forall u :: u in p.heap && u != l ==> p3.heap[u] == p.heap[u]
    requires p3.heap[l] == AppendRef(p, l, "buildConfigurations", c).heap[l]
    ensures ConfigurationList(p3) == ConfigurationList(p)
  {
    if p.root == l {
      assert Get(p3.heap[l].attrs, "buildConfigurationList") == Get(p.heap[l].attrs, "buildConfigurationList");
    }
  }

  lemma AppendedConfigurations(p: Project, l: Uuid, c: Uuid, p3: Project)
    requires HasConfigurationList(p) && l == ConfigurationList(p).value
    requires ConfigurationList(p3) == ConfigurationList(p)
    requires p3.heap.Keys == p.heap.Keys + {c} && c !in p.heap
    requires forall u :: u in p.heap && u != l ==> p3.heap[u] == p.heap[u]
    requires p3.heap[l] == AppendRef(p, l, "buildConfigurations", c).heap[l]
    requires p3.heap[c].kind == BuildConfigurationKind
    ensures Configurations(p3) == Configurations(p) + [c]
    ensures HasConfigurationList(p3)
  {
    assert BuildConfigurationKind != ConfigurationListKind;
  }

  lemma AppendedNames(p: Project, l: Uuid, c: Uuid, name: string, p3: Project)
    requires HasConfigurationList(p) && l == ConfigurationList(p).value
    requires forall u :: u in p.heap && u != l ==> u in p3.heap && p3.heap[u] == p.heap[u]
    requires Configurations(p3) == Configurations(p) + [c]
    requires NameOf(p3.heap, c) == Some(name)
    ensures ConfigurationNames(p3) == ConfigurationNames(p) + [Some(name)]
  {
    var cs := Configurations(p);
    assert BuildConfigurationKind != ConfigurationListKind;
    forall j | 0 <= j < |cs| ensures NameOf(p3.heap, cs[j]) == NameOf(p.heap, cs[j]) {
      assert cs[j] in cs;
    }
  }

  /** Adding a configuration keeps the project valid; the configuration is
      registered, and so is nothing else. */
  lemma AddBuildConfigurationObjects(p: Project, name: string)
    requires Valid(p) && HasConfigurationList(p) && |p.registry.generated| < Space
    ensures var r := AddBuildConfiguration(p, name);
            && Valid(r.0)
            && Objects(r.0) == Objects(p) + {r.1}
  {
    var l := ConfigurationList(p).value;
    ConfigurationsRegistered(p);
    if Some(name) !in ConfigurationNames(p) {
      NamedNodeFacts(BuildConfigurationKind, name);
      AddChildObjects(p, l, "buildConfigurations", NamedNode(BuildConfigurationKind, name));
    }
  }

  /** The configuration list and every configuration it holds are
      registered. */
  lemma ConfigurationsRegistered(p: Project)
    requires Valid(p) && HasConfigurationList(p)
    ensures ConfigurationList(p).value in Objects(p)
    ensures forall c :: c in Configurations(p) ==> c in Objects(p)
  {
    var l := ConfigurationList(p).value;
    GetTargets(p.heap[p.root].attrs, "buildConfigurationList");
    assert l in Targets(p.heap[p.root]);
    GetTargets(p.heap[l].attrs, "buildConfigurations");
    assert forall c :: c in Configurations(p) ==> c in Targets(p.heap[l]);
  }

  /** The creating branch builds the configuration as the source does:
      created, named, then appended to the list. */
  lemma AddBuildConfigurationSteps(p: Project, name: string)
    requires Recorded(p) && HasConfigurationList(p) && |p.registry.generated| < Space
    requires Some(name) !in ConfigurationNames(p)
    ensures var l := ConfigurationList(p).value;
            var created := Create(p, BuildConfigurationKind);
            var named := SetScalar(created.0, created.1, "name", Str(name));
            AddBuildConfiguration(p, name) == (AppendRef(named, l, "buildConfigurations", created.1), created.1)
  {
    NamedNodeFacts(BuildConfigurationKind, name);
    AddChildSteps(p, ConfigurationList(p).value, "buildConfigurations", BuildConfigurationKind, name);
    var n := NamedNode(BuildConfigurationKind, name);
    assert AddBuildConfiguration(p, name) == AddChild(p, ConfigurationList(p).value, "buildConfigurations", n);
  }

  /** Adding the same name twice is the same as adding it once, and returns
      the same configuration. */
  lemma AddBuildConfigurationIdempotent(p: Project, name: string)
    requires Recorded(p) && HasConfigurationList(p) && |p.registry.generated| + 1 < Space
    ensures var once := AddBuildConfiguration(p, name);
            |once.0.registry.generated| < Space
            && AddBuildConfiguration(once.0, name) == once
  {
    var once := AddBuildConfiguration(p, name);
    if Some(name) !in ConfigurationNames(p) {
      var cs := Configurations(p);
      var names := ConfigurationNames(once.0);
      assert names == ConfigurationNames(p) + [Some(name)];
      var i := FindByName(once.0.heap, Configurations(once.0), name, 0);
      assert i.Some? && i.value == |cs| by {
        assert names[|cs|] == Some(name);
        forall j | 0 <= j < |cs| ensures names[j] != Some(name) {
          assert names[j] == ConfigurationNames(p)[j];
        }
      }
    }
  }

  /** However often a name is added, exactly one configuration carries it,
      unless the list already held duplicates. */
  lemma AddBuildConfigurationNoDuplicate(p: Project, name: string)
    requires Recorded(p) && HasConfigurationList(p) && |p.registry.generated| < Space
    ensures var r := AddBuildConfiguration(p, name);
            multiset(ConfigurationNames(r.0))[Some(name)]
              == if Some(name) in ConfigurationNames(p) then multiset(ConfigurationNames(p))[Some(name)] else 1
  {
  }
}

=== FILE: configured.dfy ===
/** Projects made by the same steps receive the same deterministic
    identifiers: a new project, given one more build configuration, is
    renamed to the same objects whatever identifiers creation drew. */
module Configured {
  import opened Wrappers
  import opened Graph
  import opened Uuids
  import opened Projects
  import opened Renaming
  import opened Builders
  import opened Scratch
  import opened Steps
  import opened Predictable

  /** A project made from scratch and then given the build configuration
      `name`: a third configuration, unless the name is Debug or Release. */
  function NewConfiguredProject(reg: Registry, name: string): (p: Project)
    requires |reg.generated| + 8 <= Space
    ensures Valid(p)
    ensures ConfigurationNames(p) ==
      if name == "Debug" || name == "Release" then [Some("Debug"), Some("Release")]
      else [Some("Debug"), Some("Release"), Some(name)]
  {
    NewProjectReady(reg);
    ConfiguredNames(NewProject(reg), name);
    WithConfiguration(NewProject(reg), name)
  }

  /** The project after adding the build configuration `name`: still
      valid, holding one object more or the same objects. */
  function WithConfiguration(p: Project, name: string): (r: Project)
    requires Valid(p) && HasConfigurationList(p) && |p.registry.generated| < Space
    ensures Valid(r) && HasConfigurationList(r)
    ensures Objects(p) <= Objects(r) && |Objects(r) - Objects(p)| <= 1
  {
    AddBuildConfigurationObjects(p, name);
    AddBuildConfiguration(p, name).0
  }

  /** A new project can take one more object, and its configurations are
      Debug and Release. */
  lemma NewProjectReady(reg: Registry)
    requires |reg.generated| + 8 <= Space
    ensures Valid(NewProject(reg)) && HasConfigurationList(NewProject(reg))
    ensures |NewProject(reg).registry.generated| < Space
    ensures ConfigurationNames(NewProject(reg)) == [Some("Debug"), Some("Release")]
  {
    var ids := ScratchIdsOf(reg);
    NewProjectObjects(reg);
    NewProjectConfigurations(reg);
  }

  lemma ConfiguredNames(p: Project, name: string)
    requires Valid(p) && HasConfigurationList(p) && |p.registry.generated| < Space
    requires ConfigurationNames(p) == [Some("Debug"), Some("Release")]
    ensures Valid(AddBuildConfiguration(p, name).0)
    ensures ConfigurationNames(AddBuildConfiguration(p, name).0) ==
      if name == "Debug" || name == "Release" then [Some("Debug"), Some("Release")]
      else [Some("Debug"), Some("Release"), Some(name)]
  {
    AddBuildConfigurationObjects(p, name);
  }

  /** Two new projects correspond through the pairing of their identifiers. */
  lemma NewProjectsCorrespond(reg1: Registry, reg2: Registry)
    requires |reg1.generated| + 7 <= Space && |reg2.generated| + 7 <= Space
    ensures Corresponds(Pairing(ScratchIdsOf(reg1), ScratchIdsOf(reg2)), NewProject(reg1), NewProject(reg2))
  {
    var ids1 := ScratchIdsOf(reg1);
    var ids2 := ScratchIdsOf(reg2);
    ScratchRenames(ids1, ids2);
  }

  /** Corresponding projects given the same build configuration receive the
      same identifiers. */
  lemma ConfiguredPredictable(md5: Path -> string, g: Renamer, p1: Project, p2: Project, name: string)
    requires Valid(p1) && Valid(p2) && Corresponds(g, p1, p2) && IsPathDigest(md5)
    requires HasConfigurationList(p1) && HasConfigurationList(p2)
    requires |p1.registry.generated| < Space && |p2.registry.generated| < Space
    ensures Predictabilize(md5, WithConfiguration(p1, name)).heap
         == Predictabilize(md5, WithConfiguration(p2, name)).heap
  {
    var r1 := AddBuildConfiguration(p1, name);
    var r2 := AddBuildConfiguration(p2, name);
    AddBuildConfigurationObjects(p1, name);
    AddBuildConfigurationObjects(p2, name);
    AddConfigurationCorresponds(g, p1, p2, name);
    PredictableDeterministic(md5, r1.0, r2.0, g[r1.1 := r2.1]);
  }

  /** Two projects made from scratch and given the same build configuration,
      whatever identifiers they were first given, receive the same
      identifiers, the root receiving the digest of empty input. */
  lemma ConfiguredProjectsPredictable(md5: Path -> string, reg1: Registry, reg2: Registry, name: string)
    requires |reg1.generated| + 8 <= Space && |reg2.generated| + 8 <= Space
    requires IsPathDigest(md5)
    ensures Predictabilize(md5, NewConfiguredProject(reg1, name)).heap
         == Predictabilize(md5, NewConfiguredProject(reg2, name)).heap
    ensures Predictabilize(md5, NewConfiguredProject(reg1, name)).root == EmptyDigest
    ensures Predictabilize(md5, NewConfiguredProject(reg2, name)).root == EmptyDigest
  {
    NewProjectReady(reg1);
    NewProjectReady(reg2);
    NewProjectsCorrespond(reg1, reg2);
    var g := Pairing(ScratchIdsOf(reg1), ScratchIdsOf(reg2));
    ConfiguredPredictable(md5, g, NewProject(reg1), NewProject(reg2), name);
    PredictableRoot(md5, NewConfiguredProject(reg1, name));
    PredictableRoot(md5, NewConfiguredProject(reg2, name));
  }
}

=== FILE: counting.dfy ===
/** Counting facts used by the identifier generators: an injective numbering of
    n values that all lie in a set shows that the set has at least n elements. */
module Counting {

  ghost predicate InjectiveBelow<T(!new)>(f: nat -> T, n: nat) {
    forall i: nat, j: nat :: i < n && j < n && f(i) == f(j) ==> i == j
  }

  ghost function Image<T>(f: nat -> T, n: nat): set<T> {
    set i: nat | i < n :: f(i)
  }

  lemma {:induction false} ImageSize<T(!new)>(f: nat -> T, n: nat)
    requires InjectiveBelow(f, n)
    ensures |Image(f, n)| == n
  {
    if n > 0 {
      assert InjectiveBelow(f, n - 1);
      ImageSize(f, n - 1);
      assert Image(f, n) == Image(f, n - 1) + {f(n - 1)};
      assert f(n - 1) !in Image(f, n - 1);
    } else {
      assert Image(f, n) == {};
    }
  }

  /** Pigeonhole: n distinct values inside s means s has at least n elements. */
  lemma Pigeonhole<T(!new)>(f: nat -> T, n: nat, s: set<T>)
    requires InjectiveBelow(f, n)
    requires forall i: nat :: i < n ==> f(i) in s
    ensures n <= |s|
  {
    ImageSize(f, n);
    var img := Image(f, n);
    assert img <= s;
    assert s == img + (s - img);
    assert |s| == |img| + |s - img|;
  }
}

=== FILE: decimal.dfy ===
/** Decimal renderings of natural numbers, used by numeric character
    references and by the identifier disambiguation suffix. */
module Decimal {

  predicate IsDigit(c: char) {
    '0' <= c <= '9'
  }

  predicate AllDigits(s: string) {
    forall i :: 0 <= i < |s| ==> IsDigit(s[i])
  }

  function DigitChar(d: nat): (c: char)
    requires d < 10
    ensures IsDigit(c)
  {
    (48 + d) as char
  }

  function DigitValue(c: char): (d: nat)
    requires IsDigit(c)
    ensures d < 10
  {
    c as int - 48
  }

  /** The shortest decimal rendering of n, without leading zeros. */
  function Dec(n: nat): (s: string)
    ensures 1 <= |s|
    ensures AllDigits(s)
    ensures n < 10 <==> |s| == 1
  {
    if n < 10 then [DigitChar(n)] else Dec(n / 10) + [DigitChar(n % 10)]
  }

  /** The number a string of decimal digits denotes. */
  function Value(s: string): nat
    requires AllDigits(s)
  {
    if s == [] then 0 else Value(s[..|s| - 1]) * 10 + DigitValue(s[|s| - 1])
  }

  lemma {:induction false} ValueOfDec(n: nat)
    ensures Value(Dec(n)) == n
  {
    if n >= 10 {
      var s := Dec(n);
      assert s[..|s| - 1] == Dec(n / 10);
      ValueOfDec(n / 10);
    }
  }

  lemma DecInjective(a: nat, b: nat)
    requires Dec(a) == Dec(b)
    ensures a == b
  {
    ValueOfDec(a);
    ValueOfDec(b);
  }

  /** Length of the longest all-digit prefix of s. */
  function DigitRun(s: string): (n: nat)
    ensures n <= |s|
    ensures AllDigits(s[..n])
    ensures n < |s| ==> !IsDigit(s[n])
  {
    if s == [] || !IsDigit(s[0]) then 0
    else
      var k := DigitRun(s[1..]);
      assert s[..k + 1] == [s[0]] + s[1..][..k];
      k + 1
  }

  /** A digit string followed by a non-digit is read exactly up to that non-digit. */
  lemma {:induction false} DigitRunStops(d: string, c: char, rest: string)
    requires AllDigits(d)
    requires !IsDigit(c)
    ensures DigitRun(d + [c] + rest) == |d|
  {
    if d != [] {
      assert (d + [c] + rest)[1..] == d[1..] + [c] + rest;
      DigitRunStops(d[1..], c, rest);
    } else {
      assert (d + [c] + rest)[0] == c;
    }
  }
}

=== FILE: differ.dfy ===
/** The structural differ over plist-shaped trees.  Dictionaries are compared
    key by key and never by key order; lists are compared by membership, the
    delta listing the elements each side holds that the other lacks, under
    that side's label; any other pair is reported whole when unequal.  The
    delta mirrors only the path down to each difference, and there is no
    delta at all when the two trees agree. */
module Differ {
  import opened Wrappers
  import opened Seqs

  datatype Tree =
    | Null
    | Leaf(text: string)
    | List(items: seq<Tree>)
    | Dict(entries: map<string, Tree>)

  /** The labels a delta files each side's content under. */
  datatype Labels = Labels(first: string, second: string)

  /** The labels used when diffing two snapshots of a project. */
  const ProjectLabels: Labels := Labels("project_1", "project_2")

  /** The value under k, or Null when k is missing. */
  function Lookup(m: map<string, Tree>, k: string): Tree {
    if k in m then m[k] else Null
  }

  /** The elements of xs that ys does not hold, in order, each as often as
      xs holds it. */
  function Minus(xs: seq<Tree>, ys: seq<Tree>): (r: seq<Tree>)
    ensures forall t :: t in r <==> t in xs && t !in ys
    ensures forall t :: multiset(r)[t] == if t in ys then 0 else multiset(xs)[t]
    ensures Subsequence(r, xs)
  {
    Without(xs, Members(ys))
  }

  /** Both sides, whole, under their labels. */
  function Generic(a: Tree, b: Tree, l: Labels): (r: Option<Tree>)
    ensures r.None? <==> a == b
    ensures r.Some? ==> r.value.Dict? && r.value.entries.Keys == {l.first, l.second}
    ensures r.Some? ==> r.value.entries[l.second] == b
    ensures r.Some? && l.first != l.second ==> r.value.entries[l.first] == a
  {
    if a == b then None else Some(Dict(map[l.first := a, l.second := b]))
  }

  /** Under label k the entries list exactly the elements of xs that ys
      lacks, and k is present only when there are some. */
  ghost predicate FilesUnder(e: map<string, Tree>, k: string, xs: seq<Tree>, ys: seq<Tree>) {
    && (k in e <==> exists t :: t in xs && t !in ys)
    && (k in e ==> e[k].List? && forall t :: t in e[k].items <==> t in xs && t !in ys)
  }

  /** The delta of two lists: what only the first holds, then what only the
      second holds, each omitted when empty. */
  function ListDelta(xs: seq<Tree>, ys: seq<Tree>, l: Labels): (r: Option<Tree>)
    ensures r.None? <==> (forall t :: t in xs ==> t in ys) && (forall t :: t in ys ==> t in xs)
    ensures r.Some? ==> r.value.Dict? && r.value.entries.Keys <= {l.first, l.second}
    ensures r.Some? && l.first != l.second ==> FilesUnder(r.value.entries, l.second, ys, xs)
    ensures r.Some? && l.first != l.second ==> FilesUnder(r.value.entries, l.first, xs, ys)
    ensures r.Some? && l.first in r.value.entries && l.first != l.second ==>
              r.value.entries[l.first] == List(Minus(xs, ys))
    ensures r.Some? && l.second in r.value.entries && l.first != l.second ==>
              r.value.entries[l.second] == List(Minus(ys, xs))
  {
    var only1 := Minus(xs, ys);
    var only2 := Minus(ys, xs);
    MinusEmpty(xs, ys);
    MinusEmpty(ys, xs);
    if only1 == [] && only2 == [] then
      None
    else
      Some(Dict(Filed(only1, only2, l)))
  }

  /** a under the first label and b under the second, each left out when
      empty; with equal labels, b wins. */
  function Filed(a: seq<Tree>, b: seq<Tree>, l: Labels): (m: map<string, Tree>)
    ensures m.Keys <= {l.first, l.second}
    ensures l.first != l.second ==> (l.second in m <==> b != [])
    ensures b != [] ==> l.second in m && m[l.second] == List(b)
    ensures b == [] ==> l.second in m ==> m[l.second] == List(a)
    ensures l.first != l.second ==> (l.first in m <==> a != [])
    ensures l.first in m && l.first != l.second ==> m[l.first] == List(a)
  {
    (if a == [] then map[] else map[l.first := List(a)])
    + (if b == [] then map[] else map[l.second := List(b)])
  }

  /** Something is left of xs exactly when ys lacks one of its elements. */
  lemma MinusEmpty(xs: seq<Tree>, ys: seq<Tree>)
    ensures Minus(xs, ys) != [] <==> exists t :: t in xs && t !in ys
  {
    var m := Minus(xs, ys);
    if m != [] {
      assert m[0] in m;
    }
  }

  /** The delta of a against b: None when they agree. */
  function Diff(a: Tree, b: Tree, l: Labels): Option<Tree>
    decreases a
  {
    match a
    case Dict(ma) =>
      if b.Dict? then
        var mb := b.entries;
        var ds := map k | k in ma.Keys + mb.Keys ::
          if k in ma && k in mb then Diff(ma[k], mb[k], l) else Generic(Lookup(ma, k), Lookup(mb, k), l);
        var d := map k | k in ds && ds[k].Some? :: ds[k].value;
        if d == map[] then None else Some(Dict(d))
      else Generic(a, b, l)
    case List(xs) =>
      if b.List? then ListDelta(xs, b.items, l) else Generic(a, b, l)
    case _ => Generic(a, b, l)
  }

  // ---------------------------------------------------------------------
  // When two trees agree

  /** Two trees agree: dictionaries agree key by key (a missing key standing
      for Null), lists hold the same elements, anything else is equal. */
  predicate Same(a: Tree, b: Tree)
    decreases a
  {
    match a
    case Dict(ma) =>
      if b.Dict? then
        forall k :: k in ma.Keys + b.entries.Keys ==>
          if k in ma && k in b.entries then Same(ma[k], b.entries[k]) else Lookup(ma, k) == Lookup(b.entries, k)
      else a == b
    case List(xs) =>
      if b.List? then (forall t :: t in xs ==> t in b.items) && (forall t :: t in b.items ==> t in xs) else a == b
    case _ => a == b
  }

  /** There is no delta exactly when the two trees agree. */
  lemma {:induction false} DiffNoneIffSame(a: Tree, b: Tree, l: Labels)
    ensures Diff(a, b, l).None? <==> Same(a, b)
    decreases a
  {
    match a
    case Dict(ma) =>
      if b.Dict? {
        var mb := b.entries;
        forall k | k in ma && k in mb
          ensures Diff(ma[k], mb[k], l).None? <==> Same(ma[k], mb[k])
        {
          DiffNoneIffSame(ma[k], mb[k], l);
        }
        DictNoneIff(ma, mb, l);
      }
    case List(xs) =>
    case _ =>
  }

  lemma DictNoneIff(ma: map<string, Tree>, mb: map<string, Tree>, l: Labels)
    requires forall k :: k in ma && k in mb ==> (Diff(ma[k], mb[k], l).None? <==> Same(ma[k], mb[k]))
    ensures Diff(Dict(ma), Dict(mb), l).None? <==> Same(Dict(ma), Dict(mb))
  {
    var ds := map k | k in ma.Keys + mb.Keys ::
      if k in ma && k in mb then Diff(ma[k], mb[k], l) else Generic(Lookup(ma, k), Lookup(mb, k), l);
    var d := map k | k in ds && ds[k].Some? :: ds[k].value;
    if d == map[] {
      forall k | k in ma.Keys + mb.Keys
        ensures if k in ma && k in mb then Same(ma[k], mb[k]) else Lookup(ma, k) == Lookup(mb, k)
      {
        assert k !in d;
      }
    } else {
      var k :| k in d;
      assert ds[k].Some?;
    }
  }

  /** Agreement is reflexive. */
  lemma {:induction false} SameRefl(a: Tree)
    ensures Same(a, a)
    decreases a
  {
    match a
    case Dict(ma) =>
      forall k | k in ma ensures Same(ma[k], ma[k]) {
        SameRefl(ma[k]);
      }
    case _ =>
  }

  /** A tree has no delta against itself: regenerating a document exactly
      gives no difference. */
  lemma DiffSelf(a: Tree, l: Labels)
    ensures Diff(a, a, l) == None
  {
    SameRefl(a);
    DiffNoneIffSame(a, a, l);
  }

  // ---------------------------------------------------------------------
  // The shape of a delta

  /** A dictionary delta names exactly the keys whose values disagree, each
      with that key's own delta: unchanged keys are omitted. */
  lemma DictDeltaKeys(ma: map<string, Tree>, mb: map<string, Tree>, l: Labels, k: string)
    requires Diff(Dict(ma), Dict(mb), l).Some?
    ensures var d := Diff(Dict(ma), Dict(mb), l).value;
            && d.Dict?
            && (k in d.entries <==> (k in ma || k in mb) && !Same(Lookup(ma, k), Lookup(mb, k)))
            && (k in ma && k in mb && k in d.entries ==> Diff(ma[k], mb[k], l) == Some(d.entries[k]))
            && (k in d.entries && !(k in ma && k in mb) ==>
                  d.entries[k] == Dict(map[l.first := Lookup(ma, k), l.second := Lookup(mb, k)]))
  {
    if k in ma && k in mb {
      DiffNoneIffSame(ma[k], mb[k], l);
    } else if k in ma || k in mb {
      GenericSame(Lookup(ma, k), Lookup(mb, k));
    }
  }

  /** Two trees that are not both dictionaries nor both lists are compared
      whole: no delta when equal, otherwise each side whole under its label. */
  lemma DiffWhole(a: Tree, b: Tree, l: Labels)
    requires !(a.Dict? && b.Dict?) && !(a.List? && b.List?)
    ensures Diff(a, b, l).None? <==> a == b
    ensures a != b ==> Diff(a, b, l) == Some(Dict(map[l.first := a, l.second := b]))
  {
  }

  /** Agreement with Null, or of a Null, is equality. */
  lemma GenericSame(a: Tree, b: Tree)
    requires a == Null || b == Null
    ensures Same(a, b) <==> a == b
  {
    if a == Null {
    } else if a.Dict? {
    } else if a.List? {
    }
  }

  /** Swapping the two trees and their labels gives the same delta. */
  lemma {:induction false} DiffSymmetric(a: Tree, b: Tree, x: string, y: string)
    requires x != y
    ensures Diff(a, b, Labels(x, y)) == Diff(b, a, Labels(y, x))
    decreases a
  {
    var l := Labels(x, y);
    var m := Labels(y, x);
    match a
    case Dict(ma) =>
      if b.Dict? {
        var mb := b.entries;
        forall k | k in ma && k in mb ensures Diff(ma[k], mb[k], l) == Diff(mb[k], ma[k], m) {
          DiffSymmetric(ma[k], mb[k], x, y);
        }
        DictSymmetric(ma, mb, x, y);
      } else {
        GenericSymmetric(a, b, x, y);
      }
    case List(xs) =>
      if b.List? {
        ListSymmetric(xs, b.items, x, y);
      } else {
        GenericSymmetric(a, b, x, y);
      }
    case _ =>
      GenericSymmetric(a, b, x, y);
  }

  lemma GenericSymmetric(a: Tree, b: Tree, x: string, y: string)
    requires x != y
    ensures Generic(a, b, Labels(x, y)) == Generic(b, a, Labels(y, x))
    ensures !(a.Dict? && b.Dict?) && !(a.List? && b.List?) ==> Diff(b, a, Labels(y, x)) == Generic(b, a, Labels(y, x))
  {
    if a != b {
      assert map[x := a, y := b] == map[y := b, x := a];
    }
  }

  lemma ListSymmetric(xs: seq<Tree>, ys: seq<Tree>, x: string, y: string)
    requires x != y
    ensures ListDelta(xs, ys, Labels(x, y)) == ListDelta(ys, xs, Labels(y, x))
  {
    FiledSwap(Minus(xs, ys), Minus(ys, xs), x, y);
  }

  /** With distinct labels, swapping both sides and labels files the same
      entries. */
  lemma FiledSwap(a: seq<Tree>, b: seq<Tree>, x: string, y: string)
    requires x != y
    ensures Filed(a, b, Labels(x, y)) == Filed(b, a, Labels(y, x))
  {
    var e1: map<string, Tree> := if a == [] then map[] else map[x := List(a)];
    var e2: map<string, Tree> := if b == [] then map[] else map[y := List(b)];
    assert e1 + e2 == e2 + e1;
  }

  lemma DictSymmetric(ma: map<string, Tree>, mb: map<string, Tree>, x: string, y: string)
    requires x != y
    requires forall k :: k in ma && k in mb ==> Diff(ma[k], mb[k], Labels(x, y)) == Diff(mb[k], ma[k], Labels(y, x))
    ensures Diff(Dict(ma), Dict(mb), Labels(x, y)) == Diff(Dict(mb), Dict(ma), Labels(y, x))
  {
    var l := Labels(x, y);
    var m := Labels(y, x);
    forall k | k in ma.Keys + mb.Keys && !(k in ma && k in mb)
      ensures Generic(Lookup(ma, k), Lookup(mb, k), l) == Generic(Lookup(mb, k), Lookup(ma, k), m)
    {
      GenericSymmetric(Lookup(ma, k), Lookup(mb, k), x, y);
    }
    var ds1 := map k | k in ma.Keys + mb.Keys ::
      if k in ma && k in mb then Diff(ma[k], mb[k], l) else Generic(Lookup(ma, k), Lookup(mb, k), l);
    var ds2 := map k | k in mb.Keys + ma.Keys ::
      if k in mb && k in ma then Diff(mb[k], ma[k], m) else Generic(Lookup(mb, k), Lookup(ma, k), m);
    assert ds1 == ds2;
  }

  // ---------------------------------------------------------------------
  // A new element in a nested list

  /** A list that gains one new element has a delta listing just that
      element under the second label. */
  lemma AppendedListDelta(xs: seq<Tree>, g: Tree, l: Labels)
    requires g !in xs
    ensures Diff(List(xs), List(xs + [g]), l) == Some(Dict(map[l.second := List([g])]))
  {
    var ys := xs + [g];
    var only1 := Minus(xs, ys);
    var only2 := Minus(ys, xs);
    MinusCovered(xs, ys);
    assert only2 == [g] by {
      MinusAppend(xs, g);
    }
    var e: map<string, Tree> := map[];
    assert e + map[l.second := List([g])] == map[l.second := List([g])];
    assert Diff(List(xs), List(ys), l) == ListDelta(xs, ys, l);
  }

  /** Nothing is left of a list whose every element the other holds. */
  lemma MinusCovered(xs: seq<Tree>, ys: seq<Tree>)
    requires forall t :: t in xs ==> t in ys
    ensures Minus(xs, ys) == []
  {
    WithoutAll(xs, Members(ys));
  }

  lemma MinusAppend(xs: seq<Tree>, g: Tree)
    requires g !in xs
    ensures Minus(xs + [g], xs) == [g]
  {
    WithoutConcat(xs, [g], Members(xs));
    WithoutAll(xs, Members(xs));
    assert [g][1..] == [];
  }

  /** A dictionary that changes under one key only has a delta naming just
      that key. */
  lemma OneKeyDelta(ma: map<string, Tree>, k: string, v: Tree, l: Labels)
    requires k in ma && Diff(ma[k], v, l).Some?
    ensures Diff(Dict(ma), Dict(ma[k := v]), l) == Some(Dict(map[k := Diff(ma[k], v, l).value]))
  {
    var mb := ma[k := v];
    var ds := map j | j in ma.Keys + mb.Keys ::
      if j in ma && j in mb then Diff(ma[j], mb[j], l) else Generic(Lookup(ma, j), Lookup(mb, j), l);
    forall j | j in ma && j != k ensures ds[j] == None {
      DiffSelf(ma[j], l);
    }
    assert mb.Keys == ma.Keys;
    assert ds[k] == Diff(ma[k], v, l);
    var d := map j | j in ds && ds[j].Some? :: ds[j].value;
    assert d == map[k := Diff(ma[k], v, l).value];
    assert k in d;
    assert Diff(Dict(ma), Dict(mb), l) == Some(Dict(d));
  }

  /** Adding a new group to the main group's children of a project tree
      gives a delta that holds only the path root object, main group,
      children, and under the second label the new group's tree. */
  lemma NewChildDelta(top: map<string, Tree>, ro: map<string, Tree>, mg: map<string, Tree>,
                      xs: seq<Tree>, g: Tree, l: Labels)
    requires "rootObject" in top && top["rootObject"] == Dict(ro)
    requires "mainGroup" in ro && ro["mainGroup"] == Dict(mg)
    requires "children" in mg && mg["children"] == List(xs)
    requires g !in xs
    ensures Diff(Dict(top),
                 Dict(top["rootObject" := Dict(ro["mainGroup" := Dict(mg["children" := List(xs + [g])])])]), l)
         == Some(Dict(map["rootObject" := Dict(map["mainGroup" := Dict(map["children" :=
              Dict(map[l.second := List([g])])])])]))
  {
    var inner := Dict(map[l.second := List([g])]);
    AppendedListDelta(xs, g, l);
    OneKeyDelta(mg, "children", List(xs + [g]), l);
    var d1 := Dict(map["children" := inner]);
    OneKeyDelta(ro, "mainGroup", Dict(mg["children" := List(xs + [g])]), l);
    var d2 := Dict(map["mainGroup" := d1]);
    OneKeyDelta(top, "rootObject", Dict(ro["mainGroup" := Dict(mg["children" := List(xs + [g])])]), l);
  }
}

=== FILE: escaping.dfy ===
/** Escaping of text values when a project is saved.  Every character
    outside 7-bit ASCII is written as a decimal numeric character reference
    `&#n;` (the CharRef production of XML 1.0, section 4.1); ASCII
    characters are written as they are.  Decoding turns each well-formed
    reference back into its character.  Since an ASCII `&` followed by `#`
    is written unchanged, the round trip holds for text that does not
    already contain `&#`. */
module Escaping {
  import opened Decimal

  predicate IsAscii(c: char) {
    c as int < 128
  }

  predicate AllAscii(s: string) {
    forall i :: 0 <= i < |s| ==> IsAscii(s[i])
  }

  /** n is the code point of some character. */
  predicate IsScalar(n: nat) {
    n < 0xD800 || (0xE000 <= n < 0x11_0000)
  }

  /** The reference for a code point: `&#`, its decimal digits, `;`. */
  function CharRef(n: nat): (s: string)
    ensures |s| >= 4 && s[0] == '&' && s[1] == '#' && s[|s| - 1] == ';'
    ensures AllAscii(s)
  {
    var d := Dec(n);
    assert forall i :: 0 <= i < |d| ==> IsDigit(d[i]);
    "&#" + d + ";"
  }

  function EscapeChar(c: char): (s: string)
    ensures AllAscii(s)
    ensures |s| >= 1
    ensures IsAscii(c) <==> s == [c]
  {
    if IsAscii(c) then [c] else CharRef(c as int)
  }

  /** The saved form of a text value. */
  function Escape(s: string): (r: string)
    ensures |r| >= |s|
    ensures s != [] ==> r != [] && r[0] == (if IsAscii(s[0]) then s[0] else '&')
  {
    if s == [] then [] else EscapeChar(s[0]) + Escape(s[1..])
  }

  /** The saved form is ASCII, and ASCII text is saved as it is. */
  lemma EscapeAscii(s: string)
    ensures AllAscii(Escape(s))
    ensures AllAscii(s) ==> Escape(s) == s
  {
    EscapeIsAscii(s);
    if AllAscii(s) {
      AsciiUnchanged(s);
    }
  }

  lemma {:induction false} EscapeIsAscii(s: string)
    ensures AllAscii(Escape(s))
  {
    if s != [] {
      EscapeIsAscii(s[1..]);
      AsciiConcat(EscapeChar(s[0]), Escape(s[1..]));
    }
  }

  lemma {:induction false} AsciiUnchanged(s: string)
    requires AllAscii(s)
    ensures Escape(s) == s
  {
    if s != [] {
      assert IsAscii(s[0]);
      assert AllAscii(s[1..]);
      AsciiUnchanged(s[1..]);
      assert s == [s[0]] + s[1..];
    }
  }

  lemma AsciiConcat(x: string, y: string)
    requires AllAscii(x) && AllAscii(y)
    ensures AllAscii(x + y)
  {
    assert forall i :: |x| <= i < |x + y| ==> (x + y)[i] == y[i - |x|];
  }

  /** Reads the saved form back: each `&#n;` whose n is a character's code
      point becomes that character; everything else is copied. */
  function Unescape(s: string): (r: string)
    decreases |s|
  {
    if s == [] then []
    else if |s| >= 2 && s[0] == '&' && s[1] == '#' then
      var n := DigitRun(s[2..]);
      var digits := s[2..][..n];
      if 0 < n && 2 + n < |s| && s[2 + n] == ';' && IsScalar(Value(digits)) then
        [Value(digits) as char] + Unescape(s[3 + n..])
      else
        [s[0]] + Unescape(s[1..])
    else
      [s[0]] + Unescape(s[1..])
  }

  /** s holds a literal `&#`. */
  predicate HasRefStart(s: string) {
    exists i :: 0 <= i < |s| - 1 && s[i] == '&' && s[i + 1] == '#'
  }

  // ---------------------------------------------------------------------
  // Round trip

  /** A character that does not open a reference is copied. */
  lemma UnescapeCopies(c: char, t: string)
    requires c != '&' || t == [] || t[0] != '#'
    ensures Unescape([c] + t) == [c] + Unescape(t)
  {
    assert ([c] + t)[1..] == t;
  }

  /** A reference to a character is read back as that character. */
  lemma UnescapeRef(c: char, t: string)
    ensures Unescape(CharRef(c as int) + t) == [c] + Unescape(t)
  {
    var v: nat := c as int;
    var d := Dec(v);
    var s := CharRef(v) + t;
    assert s == "&#" + (d + [';'] + t);
    assert s[2..] == d + [';'] + t;
    DigitRunStops(d, ';', t);
    assert s[2..][..|d|] == d;
    assert s[2 + |d|] == ';';
    ValueOfDec(v);
    assert s[3 + |d|..] == t;
  }

  /** Escaping then reading back gives the text again, provided the text
      holds no literal `&#`. */
  lemma {:induction false} RoundTrip(s: string)
    requires !HasRefStart(s)
    ensures Unescape(Escape(s)) == s
  {
    if s != [] {
      var rest := s[1..];
      assert s == [s[0]] + rest;
      NoRefTail(s[0], rest);
      RoundTrip(rest);
      RoundTripHead(s[0], rest);
    }
  }

  lemma NoRefTail(c: char, rest: string)
    requires !HasRefStart([c] + rest)
    ensures !HasRefStart(rest)
    ensures c == '&' ==> rest == [] || rest[0] != '#'
  {
    var s := [c] + rest;
    forall i | 0 <= i < |rest| - 1 ensures !(rest[i] == '&' && rest[i + 1] == '#') {
      assert s[i + 1] == rest[i] && s[i + 2] == rest[i + 1];
    }
    if rest != [] {
      assert s[0] == c && s[1] == rest[0];
    }
  }

  /** One more character in front keeps the round trip. */
  lemma RoundTripHead(c: char, rest: string)
    requires c == '&' ==> rest == [] || rest[0] != '#'
    requires Unescape(Escape(rest)) == rest
    ensures Unescape(Escape([c] + rest)) == [c] + rest
  {
    var e := Escape(rest);
    assert ([c] + rest)[1..] == rest;
    assert Escape([c] + rest) == EscapeChar(c) + e;
    if IsAscii(c) {
      assert c != '&' || e == [] || e[0] != '#';
      UnescapeCopies(c, e);
    } else {
      UnescapeRef(c, e);
    }
  }

  /** Without that proviso the round trip fails: a literal `&#233;` comes
      back as `é`. */
  lemma RoundTripNeedsNoRef()
    ensures Escape("&#233;") == "&#233;"
    ensures Unescape(Escape("&#233;")) == "é"
  {
    Dec233();
    assert CharRef('é' as int) == "&#233;";
    UnescapeRef('é', []);
    assert CharRef('é' as int) + [] == "&#233;";
  }

  lemma Dec233()
    ensures Dec(233) == "233"
  {
    assert Dec(23) == "23";
  }

  // ---------------------------------------------------------------------
  // Examples

  /** Escaping works character by character. */
  lemma {:induction false} EscapeAppend(s: string, t: string)
    ensures Escape(s + t) == Escape(s) + Escape(t)
  {
    if s != [] {
      assert (s + t)[0] == s[0];
      assert (s + t)[1..] == s[1..] + t;
      EscapeAppend(s[1..], t);
    } else {
      assert s + t == t;
    }
  }

  lemma EscapeOne(c: char)
    ensures Escape([c]) == EscapeChar(c)
  {
    assert [c][1..] == [];
  }

  /** The saved form of "わくわく" holds references only. */
  lemma EscapeJapanese()
    ensures Escape("わくわく") == ("&#12431;" + "&#12367;") + ("&#12431;" + "&#12367;")
  {
    RefWa();
    RefKu();
    EscapeTwice('わ', 'く');
    assert "わくわく" == ['わ', 'く', 'わ', 'く'];
  }

  lemma EscapeTwice(a: char, b: char)
    ensures Escape([a, b, a, b]) == (EscapeChar(a) + EscapeChar(b)) + (EscapeChar(a) + EscapeChar(b))
  {
    EscapePair(a, b);
    var ab := [a, b];
    assert [a, b, a, b] == ab + ab;
    EscapeAppend(ab, ab);
  }

  lemma EscapePair(a: char, b: char)
    ensures Escape([a, b]) == EscapeChar(a) + EscapeChar(b)
  {
    EscapeOne(a);
    EscapeOne(b);
    assert [a, b] == [a] + [b];
    EscapeAppend([a], [b]);
  }

  lemma RefWa()
    ensures EscapeChar('わ') == "&#12431;"
  {
    assert Dec(12431) == "12431" by {
      assert Dec(1243) == "1243" by {
        assert Dec(124) == "124" by {
          assert Dec(12) == "12";
        }
      }
    }
  }

  lemma RefKu()
    ensures EscapeChar('く') == "&#12367;"
  {
    assert Dec(12367) == "12367" by {
      assert Dec(1236) == "1236" by {
        assert Dec(123) == "123" by {
          assert Dec(12) == "12";
        }
      }
    }
  }

  /** The saved form of "Cédric" escapes only the é. */
  lemma EscapeAccent()
    ensures Escape("Cédric") == "C&#233;dric"
  {
    RefAccent();
    assert AllAscii("C") && AllAscii("dric");
    EscapeBetween("C", 'é', "dric");
    assert "Cédric" == "C" + ['é'] + "dric";
    assert "C" + "&#233;" + "dric" == "C&#233;dric";
  }

  lemma RefAccent()
    ensures EscapeChar('é') == "&#233;"
  {
    Dec233();
  }

  /** Only the one non-ASCII character between ASCII text is rewritten. */
  lemma EscapeBetween(a: string, c: char, b: string)
    requires AllAscii(a) && AllAscii(b)
    ensures Escape(a + [c] + b) == a + EscapeChar(c) + b
  {
    EscapeAscii(a);
    EscapeAscii(b);
    EscapeOne(c);
    EscapeAppend(a, [c]);
    EscapeAppend(a + [c], b);
  }
}

=== FILE: graph.dfy ===
/** The object graph: nodes keyed by identifier, attribute values that are
    text or references, and the cycle-safe traversal every other component
    relies on.  A traversal carries the set of identifiers it has already
    expanded and never expands one twice, so reference cycles (two targets
    depending on each other) are harmless. */
module Graph {
  import opened Wrappers

  type Uuid = string

  /** An attribute value: a string, a list of strings, a reference to another
      node, or an ordered list of references. */
  datatype Value =
    | Str(text: string)
    | Strs(texts: seq<string>)
    | Ref(target: Uuid)
    | Refs(targets: seq<Uuid>)

  datatype Attr = Attr(key: string, value: Value)

  /** A node: its kind tag (the `isa`) and its attributes in schema order. */
  datatype Node = Node(kind: string, attrs: seq<Attr>)

  type Heap = map<Uuid, Node>

  /** One step from a node to a node it references: through a to-one
      attribute, or through position `index` of a to-many attribute. */
  datatype Step = Field(key: string) | Item(key: string, index: nat)

  type Path = seq<Step>

  /** A discovered node together with the path that reached it. */
  type Entry = (Uuid, Path)

  predicate IsRefValue(v: Value) {
    v.Ref? || v.Refs?
  }

  // ---------------------------------------------------------------------
  // Attribute lists

  function Keys(attrs: seq<Attr>): set<string> {
    set a | a in attrs :: a.key
  }

  /** No key occurs twice. */
  predicate UniqueKeys(attrs: seq<Attr>) {
    attrs == [] || (attrs[0].key !in Keys(attrs[1..]) && UniqueKeys(attrs[1..]))
  }

  /** The value stored under key (its first occurrence). */
  function Get(attrs: seq<Attr>, key: string): (r: Option<Value>)
    ensures r.Some? <==> key in Keys(attrs)
    ensures r.Some? ==> Attr(key, r.value) in attrs
  {
    if attrs == [] then None
    else if attrs[0].key == key then Some(attrs[0].value)
    else Get(attrs[1..], key)
  }

  /** Stores v under key: the existing slot is overwritten in place, a new key
      is appended, so the attribute order stays stable. */
  function Put(attrs: seq<Attr>, key: string, v: Value): (r: seq<Attr>)
    ensures Get(r, key) == Some(v)
    ensures forall k :: k != key ==> Get(r, k) == Get(attrs, k)
    ensures Keys(r) == Keys(attrs) + {key}
  {
    if attrs == [] then [Attr(key, v)]
    else if attrs[0].key == key then
      var r := [Attr(key, v)] + attrs[1..];
      assert r[1..] == attrs[1..];
      assert Keys(attrs) == {key} + Keys(attrs[1..]) by { assert attrs == [attrs[0]] + attrs[1..]; }
      assert Keys(r) == {key} + Keys(attrs[1..]);
      r
    else
      var rest := Put(attrs[1..], key, v);
      var r := [attrs[0]] + rest;
      assert r[1..] == rest;
      assert Keys(attrs) == {attrs[0].key} + Keys(attrs[1..]) by { assert attrs == [attrs[0]] + attrs[1..]; }
      assert Keys(r) == {attrs[0].key} + Keys(rest);
      r
  }

  /** A key not yet present is appended at the end. */
  lemma {:induction false} PutAbsent(attrs: seq<Attr>, key: string, v: Value)
    requires key !in Keys(attrs)
    ensures Put(attrs, key, v) == attrs + [Attr(key, v)]
  {
    if attrs != [] {
      assert attrs[0] in attrs;
      assert Keys(attrs[1..]) <= Keys(attrs) by {
        forall a | a in attrs[1..] ensures a in attrs { }
      }
      PutAbsent(attrs[1..], key, v);
      assert attrs == [attrs[0]] + attrs[1..];
    }
  }

  lemma {:induction false} PutKeepsUniqueKeys(attrs: seq<Attr>, key: string, v: Value)
    requires UniqueKeys(attrs)
    ensures UniqueKeys(Put(attrs, key, v))
  {
    if attrs != [] && attrs[0].key != key {
      PutKeepsUniqueKeys(attrs[1..], key, v);
      var rest := Put(attrs[1..], key, v);
      assert [attrs[0]] + rest == Put(attrs, key, v);
      assert ([attrs[0]] + rest)[1..] == rest;
    } else if attrs != [] {
      assert Put(attrs, key, v)[1..] == attrs[1..];
    }
  }

  // ---------------------------------------------------------------------
  // Outgoing references

  function ValueTargets(v: Value): set<Uuid> {
    match v
    case Ref(t) => {t}
    case Refs(ts) => set t | t in ts
    case _ => {}
  }

  function AttrTargets(attrs: seq<Attr>): set<Uuid> {
    if attrs == [] then {} else ValueTargets(attrs[0].value) + AttrTargets(attrs[1..])
  }

  /** Every identifier a node references. */
  function Targets(n: Node): set<Uuid> {
    AttrTargets(n.attrs)
  }

  /** Overwriting one slot replaces that slot's references and nothing else. */
  lemma {:induction false} PutTargets(attrs: seq<Attr>, key: string, v: Value)
    ensures ValueTargets(v) <= AttrTargets(Put(attrs, key, v))
    ensures AttrTargets(Put(attrs, key, v)) <= AttrTargets(attrs) + ValueTargets(v)
    ensures Get(attrs, key).None? || ValueTargets(Get(attrs, key).value) <= ValueTargets(v)
      ==> AttrTargets(attrs) <= AttrTargets(Put(attrs, key, v))
  {
    if attrs != [] && attrs[0].key != key {
      PutTargets(attrs[1..], key, v);
      var r := Put(attrs, key, v);
      assert r == [attrs[0]] + Put(attrs[1..], key, v);
      assert r[1..] == Put(attrs[1..], key, v);
    } else if attrs != [] {
      assert Put(attrs, key, v)[1..] == attrs[1..];
    }
  }

  /** A stored value's references are among the node's references. */
  lemma {:induction false} GetTargets(attrs: seq<Attr>, key: string)
    ensures Get(attrs, key).Some? ==> ValueTargets(Get(attrs, key).value) <= AttrTargets(attrs)
  {
    if attrs != [] && attrs[0].key != key {
      GetTargets(attrs[1..], key);
    }
  }

  /** Attribute lists split at any point: keys, uniqueness and references
      of the parts combine. */
  lemma {:induction false} ConcatAttrs(x: seq<Attr>, y: seq<Attr>)
    ensures Keys(x + y) == Keys(x) + Keys(y)
    ensures AttrTargets(x + y) == AttrTargets(x) + AttrTargets(y)
    ensures UniqueKeys(x) && UniqueKeys(y) && Keys(x) !! Keys(y) ==> UniqueKeys(x + y)
  {
    if x != [] {
      ConcatAttrs(x[1..], y);
      assert (x + y)[1..] == x[1..] + y;
      assert x == [x[0]] + x[1..];
      assert Keys(x) == {x[0].key} + Keys(x[1..]);
      assert Keys(x + y) == {x[0].key} + Keys(x[1..] + y);
    } else {
      assert x + y == y;
    }
  }

  /** Looking a key up in a concatenation looks in the first part first. */
  lemma {:induction false} GetConcat(x: seq<Attr>, y: seq<Attr>, key: string)
    ensures Get(x + y, key) == if key in Keys(x) then Get(x, key) else Get(y, key)
  {
    if x != [] {
      GetConcat(x[1..], y, key);
      assert (x + y)[1..] == x[1..] + y;
      assert x == [x[0]] + x[1..];
      assert Keys(x) == {x[0].key} + Keys(x[1..]);
    } else {
      assert x + y == y;
    }
  }

  /** Keys, uniqueness and references of a one-attribute list. */
  lemma SingleAttr(a: Attr)
    ensures Keys([a]) == {a.key}
    ensures UniqueKeys([a])
    ensures AttrTargets([a]) == ValueTargets(a.value)
  {
    assert [a][1..] == [];
  }

  /** The references of one attribute, each with the step that follows it. */
  function ValueChildren(a: Attr): (cs: seq<Entry>)
    ensures forall i :: 0 <= i < |cs| ==> |cs[i].1| == 1
  {
    match a.value
    case Ref(t) => [(t, [Field(a.key)])]
    case Refs(ts) => seq(|ts|, i requires 0 <= i < |ts| => (ts[i], [Item(a.key, i)]))
    case _ => []
  }

  function AttrChildren(attrs: seq<Attr>): seq<Entry> {
    if attrs == [] then [] else ValueChildren(attrs[0]) + AttrChildren(attrs[1..])
  }

  /** The references of a node in attribute order, each with its step. */
  function Children(n: Node): seq<Entry> {
    AttrChildren(n.attrs)
  }

  function Ids(es: seq<Entry>): set<Uuid> {
    set e | e in es :: e.0
  }

  lemma IdsAppend(a: seq<Entry>, b: seq<Entry>)
    ensures Ids(a + b) == Ids(a) + Ids(b)
  {
    assert forall e :: e in a + b <==> e in a || e in b;
  }

  lemma {:induction false} ChildrenIds(attrs: seq<Attr>)
    ensures Ids(AttrChildren(attrs)) == AttrTargets(attrs)
  {
    if attrs != [] {
      ChildrenIds(attrs[1..]);
      IdsAppend(ValueChildren(attrs[0]), AttrChildren(attrs[1..]));
      var cs := ValueChildren(attrs[0]);
      match attrs[0].value
      case Ref(t) =>
      case Refs(ts) =>
        assert forall t :: t in ts ==> t in Ids(cs) by {
          forall t | t in ts ensures t in Ids(cs) {
            var i :| 0 <= i < |ts| && ts[i] == t;
            assert cs[i] in cs;
          }
        }
      case Str(_) =>
      case Strs(_) =>
    }
  }

  /** The same entries with their paths extended below p. */
  function Below(p: Path, cs: seq<Entry>): (r: seq<Entry>)
    ensures |r| == |cs|
    ensures Ids(r) == Ids(cs)
  {
    var r := seq(|cs|, i requires 0 <= i < |cs| => (cs[i].0, p + cs[i].1));
    assert forall e :: e in r ==> e.0 in Ids(cs) by {
      forall e | e in r ensures e.0 in Ids(cs) {
        var i :| 0 <= i < |r| && r[i] == e;
        assert cs[i] in cs;
      }
    }
    assert forall e :: e in cs ==> e.0 in Ids(r) by {
      forall e | e in cs ensures e.0 in Ids(r) {
        var i :| 0 <= i < |cs| && cs[i] == e;
        assert r[i] in r;
      }
    }
    r
  }

  // ---------------------------------------------------------------------
  // Cycle-safe traversal

  predicate DistinctIds(es: seq<Entry>) {
    forall i, j :: 0 <= i < j < |es| ==> es[i].0 != es[j].0
  }

  /** Depth-first traversal with an explicit stack `work`.  `found` lists the
      expanded nodes in discovery order with the path that first reached each;
      a node already expanded, or an identifier with no node, is skipped. */
  function Walk(h: Heap, found: seq<Entry>, work: seq<Entry>): (r: seq<Entry>)
    requires Ids(found) <= h.Keys
    ensures found <= r
    ensures Ids(r) <= h.Keys
    ensures DistinctIds(found) ==> DistinctIds(r)
    decreases |h.Keys - Ids(found)|, |work|
  {
    if work == [] then found
    else
      var u := work[0].0;
      var p := work[0].1;
      if u in Ids(found) || u !in h then Walk(h, found, work[1..])
      else
        Expand(h, found, u, p);
        Walk(h, found + [(u, p)], Below(p, Children(h[u])) + work[1..])
  }

  /** Expanding a node not yet expanded adds exactly its identifier. */
  lemma Expand(h: Heap, found: seq<Entry>, u: Uuid, p: Path)
    requires Ids(found) <= h.Keys
    requires u in h && u !in Ids(found)
    ensures Ids(found + [(u, p)]) == Ids(found) + {u}
    ensures |h.Keys - Ids(found + [(u, p)])| < |h.Keys - Ids(found)|
    ensures DistinctIds(found) ==> DistinctIds(found + [(u, p)])
  {
    IdsAppend(found, [(u, p)]);
    assert Ids([(u, p)]) == {u};
    assert h.Keys - Ids(found + [(u, p)]) < h.Keys - Ids(found);
    if DistinctIds(found) {
      var f := found + [(u, p)];
      forall i, j | 0 <= i < j < |f| ensures f[i].0 != f[j].0 {
        if j == |found| {
          assert f[i] in found;
        }
      }
    }
  }

  /** S is closed under references: it contains every node that a node of S references. */
  ghost predicate Closed(h: Heap, s: set<Uuid>) {
    forall u :: u in s && u in h ==> forall t :: t in Targets(h[u]) && t in h ==> t in s
  }

  /** Every reference of an expanded node is either expanded or still waiting on the stack. */
  ghost predicate Pending(h: Heap, found: seq<Entry>, work: seq<Entry>)
    requires Ids(found) <= h.Keys
  {
    forall u :: u in Ids(found) ==> forall t :: t in Targets(h[u]) && t in h ==> t in Ids(found) + Ids(work)
  }

  /** A closed set holds every target of its members. */
  lemma ClosedHas(h: Heap, s: set<Uuid>, u: Uuid, t: Uuid)
    requires Closed(h, s) && u in s && u in h
    requires t in Targets(h[u]) && t in h
    ensures t in s
  {
  }

  /** The traversal expands everything on the stack and ends closed. */
  lemma {:induction false} WalkComplete(h: Heap, found: seq<Entry>, work: seq<Entry>)
    requires Ids(found) <= h.Keys
    requires Pending(h, found, work)
    ensures Closed(h, Ids(Walk(h, found, work)))
    ensures forall w :: w in Ids(work) && w in h ==> w in Ids(Walk(h, found, work))
    decreases |h.Keys - Ids(found)|, |work|
  {
    var r := Walk(h, found, work);
    if work == [] {
      assert Ids(work) == {};
    } else {
      var u := work[0].0;
      var p := work[0].1;
      assert Ids(work) == {u} + Ids(work[1..]) by {
        assert work == [work[0]] + work[1..];
        IdsAppend([work[0]], work[1..]);
      }
      if u in Ids(found) || u !in h {
        WalkComplete(h, found, work[1..]);
        assert Ids(found) <= Ids(r) by { assert found <= r; }
      } else {
        var found' := found + [(u, p)];
        var cs := Below(p, Children(h[u]));
        var work' := cs + work[1..];
        Expand(h, found, u, p);
        IdsAppend(cs, work[1..]);
        ChildrenIds(h[u].attrs);
        PendingStep(h, found, work, u, p);
        WalkComplete(h, found', work');
        assert Ids(found') <= Ids(r) by { assert found' <= r; }
      }
    }
  }

  lemma PendingStep(h: Heap, found: seq<Entry>, work: seq<Entry>, u: Uuid, p: Path)
    requires Ids(found) <= h.Keys
    requires u in h && u !in Ids(found)
    requires work != []
    requires Pending(h, found, work)
    requires Ids(found + [(u, p)]) == Ids(found) + {u}
    requires Ids(work) <= {u} + Ids(Below(p, Children(h[u])) + work[1..])
    requires Ids(Below(p, Children(h[u])) + work[1..]) == Targets(h[u]) + Ids(work[1..])
    ensures Pending(h, found + [(u, p)], Below(p, Children(h[u])) + work[1..])
  {
    var found' := found + [(u, p)];
    var work' := Below(p, Children(h[u])) + work[1..];
    forall v, t | v in Ids(found') && t in Targets(h[v]) && t in h
      ensures t in Ids(found') + Ids(work')
    {
      if v != u {
        assert t in Ids(found) + Ids(work);
      }
    }
  }

  /** The traversal never leaves a closed set that holds its starting points. */
  lemma {:induction false} WalkLeast(h: Heap, found: seq<Entry>, work: seq<Entry>, c: set<Uuid>)
    requires Ids(found) <= h.Keys
    requires Closed(h, c)
    requires Ids(found) <= c
    requires forall w :: w in Ids(work) && w in h ==> w in c
    ensures Ids(Walk(h, found, work)) <= c
    decreases |h.Keys - Ids(found)|, |work|
  {
    if work != [] {
      var u := work[0].0;
      var p := work[0].1;
      assert Ids(work) == {u} + Ids(work[1..]) by {
        assert work == [work[0]] + work[1..];
        IdsAppend([work[0]], work[1..]);
      }
      if u in Ids(found) || u !in h {
        WalkLeast(h, found, work[1..], c);
      } else {
        var found' := found + [(u, p)];
        var cs := Below(p, Children(h[u]));
        Expand(h, found, u, p);
        IdsAppend(cs, work[1..]);
        ChildrenIds(h[u].attrs);
        WalkLeast(h, found', cs + work[1..], c);
      }
    }
  }

  /** Discovery order of the nodes reachable from root, each with the path
      that first reached it; root comes first with the empty path. */
  function Discover(h: Heap, root: Uuid): (r: seq<Entry>)
    ensures DistinctIds(r)
    ensures Ids(r) <= h.Keys
    ensures root in h ==> |r| > 0 && r[0] == (root, [])
    ensures root !in h ==> r == []
  {
    if root !in h then
      assert Walk(h, [], [(root, [])]) == Walk(h, [], []);
      Walk(h, [], [(root, [])])
    else
      Walk(h, [], [(root, [])])
  }

  /** The registered set: every node reachable from root through references. */
  function Reach(h: Heap, root: Uuid): (r: set<Uuid>)
    ensures r <= h.Keys
    ensures root in h <==> root in r
    ensures Closed(h, r)
  {
    assert Ids([(root, [])]) == {root};
    WalkComplete(h, [], [(root, [])]);
    Ids(Discover(h, root))
  }

  /** Reach is the least closed set containing root. */
  lemma ReachLeast(h: Heap, root: Uuid, c: set<Uuid>)
    requires Closed(h, c)
    requires root in h ==> root in c
    ensures Reach(h, root) <= c
  {
    assert Ids([(root, [])]) == {root};
    WalkLeast(h, [], [(root, [])], c);
  }

  // ---------------------------------------------------------------------
  // How the reachable set responds to changes of the heap

  /** Heaps with the same nodes and the same references per node reach the same nodes. */
  lemma ReachSameEdges(h1: Heap, h2: Heap, root: Uuid)
    requires h1.Keys == h2.Keys
    requires forall u :: u in h1 ==> Targets(h1[u]) == Targets(h2[u])
    ensures Reach(h1, root) == Reach(h2, root)
  {
    var r1, r2 := Reach(h1, root), Reach(h2, root);
    assert Closed(h2, r1);
    assert Closed(h1, r2);
    ReachLeast(h2, root, r1);
    ReachLeast(h1, root, r2);
  }

  /** Adding a node nobody references does not change what root reaches. */
  lemma ReachAddUnreferenced(h: Heap, root: Uuid, u: Uuid, n: Node)
    requires u !in h && root != u
    requires forall v :: v in h ==> u !in Targets(h[v])
    ensures Reach(h[u := n], root) == Reach(h, root)
  {
    var h' := h[u := n];
    var r, r' := Reach(h, root), Reach(h', root);
    assert Closed(h', r) by {
      forall v, t | v in r && v in h' && t in Targets(h'[v]) && t in h'
        ensures t in r
      {
        assert v != u && h'[v] == h[v];
      }
    }
    ReachLeast(h', root, r);
    assert Closed(h, r') by {
      forall v, t | v in r' && v in h && t in Targets(h[v]) && t in h
        ensures t in r'
      {
        assert v != u && h'[v] == h[v];
      }
    }
    ReachLeast(h, root, r');
  }

  /** Attaching: when a reachable node x gains a reference to t, the reachable
      set grows by exactly what t reaches in the new heap. */
  lemma ReachAddEdge(h: Heap, root: Uuid, x: Uuid, n: Node, t: Uuid)
    requires x in Reach(h, root) && t in h
    requires Targets(h[x]) <= Targets(n) <= Targets(h[x]) + {t}
    requires t in Targets(n)
    ensures Reach(h[x := n], root) == Reach(h, root) + Reach(h[x := n], t)
  {
    var h' := h[x := n];
    var r, r', rt := Reach(h, root), Reach(h', root), Reach(h', t);
    // Everything reachable before is still reachable, and so is t.
    assert Closed(h, r') by {
      forall v, w | v in r' && v in h && w in Targets(h[v]) && w in h
        ensures w in r'
      {
        assert w in Targets(h'[v]);
      }
    }
    ReachLeast(h, root, r');
    assert t in r' by { assert t in Targets(h'[x]); }
    ReachLeast(h', t, r');
    // Nothing else becomes reachable.
    var both := r + rt;
    assert Closed(h', both) by {
      forall v, w | v in both && v in h' && w in Targets(h'[v]) && w in h'
        ensures w in both
      {
        if v in rt {
        } else if v == x {
          assert w in Targets(h[x]) || w == t;
        } else {
          assert h'[v] == h[v];
        }
      }
    }
    ReachLeast(h', root, both);
  }

  /** Changing a node that root cannot reach changes nothing root reaches. */
  lemma ReachChangeUnreachable(h: Heap, root: Uuid, x: Uuid, n: Node)
    requires x in h && x !in Reach(h, root)
    ensures Reach(h[x := n], root) == Reach(h, root)
  {
    var h' := h[x := n];
    var r, r' := Reach(h, root), Reach(h', root);
    assert Closed(h', r) by {
      forall v, t | v in r && v in h' && t in Targets(h'[v]) && t in h'
        ensures t in r
      {
        assert h'[v] == h[v];
      }
    }
    ReachLeast(h', root, r);
    assert Closed(h, r') by {
      forall v, t | v in r' && v in h && t in Targets(h[v]) && t in h
        ensures t in r'
      {
        assert h'[v] == h[v];
      }
    }
    ReachLeast(h, root, r');
  }

  /** A set that root is outside of, and that nothing outside it references,
      is unreachable. */
  lemma ReachAvoids(h: Heap, root: Uuid, d: set<Uuid>)
    requires root !in d
    requires forall v :: v in h && v !in d ==> Targets(h[v]) !! d
    ensures Reach(h, root) !! d
  {
    var r := Reach(h, root);
    var c := r - d;
    assert Closed(h, c) by {
      forall v, w | v in c && v in h && w in Targets(h[v]) && w in h
        ensures w in c
      {
      }
    }
    ReachLeast(h, root, c);
  }

  /** A node whose references all lead outside the heap reaches only itself. */
  lemma ReachOfLeaf(h: Heap, t: Uuid)
    requires t in h
    requires Targets(h[t]) !! h.Keys
    ensures Reach(h, t) == {t}
  {
    assert Closed(h, {t});
    ReachLeast(h, t, {t});
  }
}

=== FILE: predictable.dfy ===
/** Deterministic identifiers.  Every registered object is renamed to the
    digest of the path that first reaches it from the root, so that the
    identifiers depend on the project's structure and not on the random
    identifiers they replace.  The root's path is empty, so the root always
    receives the digest of empty input.  Digests of distinct paths may
    coincide; the first object in discovery order keeps a repeated digest
    and every later one gets "-" and its position appended.  All new
    identifiers are computed first and every reference is then rewritten in
    one pass. */
module Predictable {
  import opened Wrappers
  import opened Graph
  import opened Uuids
  import opened Seqs
  import opened Decimal
  import opened Projects
  import opened Renaming
  import opened Schema
  import opened Builders
  import opened Scratch

  /** The MD5 digest of empty input, in upper-case hex (RFC 1321, appendix A.5). */
  const EmptyDigest: string := "D41D8CD98F00B204E9800998ECF8427E"

  const DigestLength: nat := 32

  /** The hash of a path's text: stands for MD5 rendered as 32 hex digits. */
  ghost predicate IsPathDigest(md5: Path -> string) {
    && md5([]) == EmptyDigest
    && forall p :: |md5(p)| == DigestLength
  }

  /** Keeps the first holder of each digest; every later holder of a
      repeated digest gets "-" and its own position appended. */
  function Disambiguate(hs: seq<string>): (ids: seq<string>)
    requires forall i :: 0 <= i < |hs| ==> |hs[i]| == DigestLength
    ensures |ids| == |hs|
    ensures Distinct(ids)
    ensures forall i :: 0 <= i < |hs| ==> DigestLength <= |ids[i]| && ids[i][..DigestLength] == hs[i]
    ensures forall i :: 0 <= i < |hs| ==> (ids[i] == hs[i] <==> hs[i] !in hs[..i])
  {
    var ids := seq(|hs|, i requires 0 <= i < |hs| => if hs[i] in hs[..i] then hs[i] + "-" + Dec(i) else hs[i]);
    forall i, j | 0 <= i < j < |hs| ensures ids[i] != ids[j] {
      SuffixedDistinct(hs, ids, i, j);
    }
    forall i | 0 <= i < |hs| ensures DigestLength <= |ids[i]| && ids[i][..DigestLength] == hs[i] {
      if hs[i] in hs[..i] {
        assert (hs[i] + "-" + Dec(i))[..DigestLength] == hs[i];
      }
    }
    ids
  }

  lemma SuffixedDistinct(hs: seq<string>, ids: seq<string>, i: nat, j: nat)
    requires forall k :: 0 <= k < |hs| ==> |hs[k]| == DigestLength
    requires |ids| == |hs| && i < j < |hs|
    requires forall k :: 0 <= k < |hs| ==> ids[k] == if hs[k] in hs[..k] then hs[k] + "-" + Dec(k) else hs[k]
    ensures ids[i] != ids[j]
  {
    if hs[j] in hs[..j] && hs[i] in hs[..i] {
      if ids[i] == ids[j] {
        assert ids[i][DigestLength + 1..] == Dec(i);
        assert ids[j][DigestLength + 1..] == Dec(j);
        DecInjective(i, j);
      }
    } else if hs[j] !in hs[..j] && hs[i] !in hs[..i] {
      assert hs[i] == hs[..j][i];
    }
  }

  /** The digests of the discovered paths, in discovery order. */
  function PathDigests(md5: Path -> string, found: seq<Entry>): (hs: seq<string>)
    requires IsPathDigest(md5)
    ensures |hs| == |found|
    ensures forall i :: 0 <= i < |hs| ==> hs[i] == md5(found[i].1) && |hs[i]| == DigestLength
  {
    seq(|found|, i requires 0 <= i < |found| => md5(found[i].1))
  }

  /** Pairs the i-th identifier of xs with the i-th of ys. */
  function Pairing(xs: seq<Uuid>, ys: seq<Uuid>): (g: Renamer)
    requires Distinct(xs) && |ys| == |xs|
    ensures forall i :: 0 <= i < |xs| ==> xs[i] in g && g[xs[i]] == ys[i]
    ensures forall u :: u in g ==> exists i :: 0 <= i < |xs| && xs[i] == u
  {
    map i | 0 <= i < |xs| :: xs[i] := ys[i]
  }

  /** Pairing two lists of distinct identifiers is a one-to-one renaming
      from the first onto the second. */
  lemma PairingFacts(xs: seq<Uuid>, ys: seq<Uuid>)
    requires Distinct(xs) && |ys| == |xs| && Distinct(ys)
    ensures Pairing(xs, ys).Keys == Members(xs)
    ensures Pairing(xs, ys).Values == Members(ys)
    ensures Injective(Pairing(xs, ys))
  {
    var g := Pairing(xs, ys);
    forall v | v in Members(ys) ensures v in g.Values {
      var i :| 0 <= i < |ys| && ys[i] == v;
      assert xs[i] in g;
    }
  }

  /** The discovered identifiers, in discovery order. */
  function Order(found: seq<Entry>): (us: seq<Uuid>)
    requires DistinctIds(found)
    ensures |us| == |found| && Distinct(us)
    ensures Members(us) == Ids(found)
    ensures forall i :: 0 <= i < |found| ==> us[i] == found[i].0
  {
    var us := seq(|found|, i requires 0 <= i < |found| => found[i].0);
    assert forall i :: 0 <= i < |found| ==> found[i] in found;
    forall u | u in Ids(found) ensures u in Members(us) {
      var e :| e in found && e.0 == u;
      var i :| 0 <= i < |found| && found[i] == e;
      assert us[i] == u;
    }
    us
  }

  /** The new identifier of every registered object. */
  function NewNames(md5: Path -> string, p: Project): (f: Renamer)
    requires Valid(p) && IsPathDigest(md5)
    ensures f.Keys == Objects(p)
    ensures Injective(f)
  {
    var found := Discover(p.heap, p.root);
    var ids := Disambiguate(PathDigests(md5, found));
    PairingFacts(Order(found), ids);
    Pairing(Order(found), ids)
  }

  /** Renames every registered object to its deterministic identifier and
      rewrites every reference to match.  Objects that are not registered
      are not part of the result; the new identifiers are recorded. */
  function Predictabilize(md5: Path -> string, p: Project): (r: Project)
    requires Valid(p) && IsPathDigest(md5)
    ensures r.root == NewNames(md5, p)[p.root]
    ensures r.heap == RenameHeap(NewNames(md5, p), ObjectsByUuid(p))
    ensures r.registry.generated == p.registry.generated + r.heap.Keys
  {
    var f := NewNames(md5, p);
    Project(f[p.root], RenameHeap(f, ObjectsByUuid(p)), Registry(p.registry.generated + f.Values))
  }

  // ---------------------------------------------------------------------
  // Properties

  /** The root always receives the digest of empty input, whatever the
      project holds. */
  lemma PredictableRoot(md5: Path -> string, p: Project)
    requires Valid(p) && IsPathDigest(md5)
    ensures Predictabilize(md5, p).root == EmptyDigest
  {
    var found := Discover(p.heap, p.root);
    var hs := PathDigests(md5, found);
    assert found[0] == (p.root, []);
    assert hs[..0] == [];
  }

  /** The registered objects, kept apart from the rest of the heap, already
      form a graph without dangling references. */
  lemma RegisteredClosed(p: Project)
    requires Valid(p)
    ensures NoDangling(ObjectsByUuid(p))
    ensures p.root in ObjectsByUuid(p)
  {
    var h := ObjectsByUuid(p);
    forall u | u in h ensures Targets(h[u]) <= h.Keys {
      forall t | t in Targets(h[u]) ensures t in h.Keys {
        ClosedHas(p.heap, Objects(p), u, t);
      }
    }
  }

  /** Within the registered objects the root reaches all of them. */
  lemma RegisteredReach(p: Project)
    requires Valid(p)
    ensures Reach(ObjectsByUuid(p), p.root) == Objects(p)
  {
    var h := ObjectsByUuid(p);
    var r := Reach(h, p.root);
    RegisteredClosed(p);
    forall u | u in r && u in p.heap ensures forall t :: t in Targets(p.heap[u]) && t in p.heap ==> t in r {
      forall t | t in Targets(p.heap[u]) && t in p.heap ensures t in r {
        ClosedHas(h, r, u, t);
      }
    }
    ReachLeast(p.heap, p.root, r);
  }

  /** The result is again a well-formed project; its registered objects are
      exactly its heap, one per registered object of p, so no two objects
      share an identifier. */
  lemma PredictableObjects(md5: Path -> string, p: Project)
    requires Valid(p) && IsPathDigest(md5)
    ensures var r := Predictabilize(md5, p);
            && Valid(r)
            && Objects(r) == r.heap.Keys
            && |Objects(r)| == |Objects(p)|
  {
    var f := NewNames(md5, p);
    var h := ObjectsByUuid(p);
    RegisteredClosed(p);
    RegisteredReach(p);
    RenameHeapFacts(f, h, p.root);
    RenameHeapClosed(f, h);
  }

  /** Two projects with the same structure -- one carried onto the other by
      a one-to-one renaming of all their objects that maps root to root --
      receive the same identifiers: the results have equal roots and equal
      heaps. */
  lemma PredictableDeterministic(md5: Path -> string, p1: Project, p2: Project, g: Renamer)
    requires Valid(p1) && Valid(p2) && IsPathDigest(md5)
    requires Renames(g, p1.heap, p2.heap) && g[p1.root] == p2.root
    ensures Predictabilize(md5, p1).root == Predictabilize(md5, p2).root
    ensures Predictabilize(md5, p1).heap == Predictabilize(md5, p2).heap
  {
    var found1 := Discover(p1.heap, p1.root);
    var found2 := Discover(p2.heap, p2.root);
    DiscoverRename(g, p1.heap, p2.heap, p1.root);
    var hs := PathDigests(md5, found1);
    assert hs == PathDigests(md5, found2);
    var ids := Disambiguate(hs);
    PairingFacts(Order(found1), ids);
    PairingFacts(Order(found2), ids);
    var f1 := NewNames(md5, p1);
    var f2 := NewNames(md5, p2);
    SameNames(found1, found2, ids, g);
    RenamedObjects(p1, p2, g);
    RenamedRegistered(p1, p2, g);
    RenameAgree(f1, f2, g, ObjectsByUuid(p1), ObjectsByUuid(p2));
  }

  /** Corresponding discoveries get the same new identifiers. */
  lemma SameNames(found1: seq<Entry>, found2: seq<Entry>, ids: seq<string>, g: Renamer)
    requires found2 == RenameEntries(g, found1)
    requires DistinctIds(found1) && DistinctIds(found2) && Ids(found1) <= g.Keys && |ids| == |found1|
    ensures forall u :: u in Pairing(Order(found1), ids) ==>
      u in g && g[u] in Pairing(Order(found2), ids) && Pairing(Order(found2), ids)[g[u]] == Pairing(Order(found1), ids)[u]
  {
    var f1 := Pairing(Order(found1), ids);
    var f2 := Pairing(Order(found2), ids);
    forall u | u in f1 ensures u in g && g[u] in f2 && f2[g[u]] == f1[u] {
      var i :| 0 <= i < |found1| && Order(found1)[i] == u;
      assert found1[i] in found1;
      assert found2[i] == (g[u], found1[i].1);
    }
  }

  /** The registered objects of the second project are the renamed
      registered objects of the first. */
  lemma RenamedRegistered(p1: Project, p2: Project, g: Renamer)
    requires Renames(g, p1.heap, p2.heap)
    requires Objects(p2) == Image(g, Objects(p1))
    ensures forall u :: u in ObjectsByUuid(p1) ==>
      u in g && g[u] in ObjectsByUuid(p2) && ObjectsByUuid(p2)[g[u]] == RenameNode(g, ObjectsByUuid(p1)[u])
  {
  }

  /** A renaming of the whole heap maps the registered objects onto the
      registered objects. */
  lemma RenamedObjects(p1: Project, p2: Project, g: Renamer)
    requires Valid(p1) && Valid(p2)
    requires Renames(g, p1.heap, p2.heap) && g[p1.root] == p2.root
    ensures Objects(p2) == Image(g, Objects(p1))
  {
    ReachRename(g, p1.heap, p2.heap, p1.root);
  }

  // ---------------------------------------------------------------------
  // Two projects made from scratch

  lemma RenameRoot(g: Renamer, main: Uuid, products: Uuid, list: Uuid)
    requires main in g && products in g && list in g
    ensures RenameNode(g, RootNode(main, products, list)) == RootNode(g[main], g[products], g[list])
  {
    var d := RootDefaults();
    var links := RootLinks(main, products, list);
    RenameTwo(g, d[0], d[1]);
    assert d == [d[0], d[1]];
    ValueFixed(g, Refs([]));
    assert RenameAttrs(g, d) == d;
    RenameThree(g, links[0], links[1], links[2]);
    assert links == [links[0], links[1], links[2]];
    assert RenameAttrs(g, links) == RootLinks(g[main], g[products], g[list]);
    RenameAppend(g, d, links);
    assert RootNode(main, products, list).attrs == d + links;
  }

  lemma RenameMainGroup(g: Renamer, products: Uuid, frameworks: Uuid)
    requires products in g && frameworks in g
    ensures RenameNode(g, MainGroupNode(products, frameworks)) == MainGroupNode(g[products], g[frameworks])
  {
    RenameTwo(g, Attr("children", Refs([products, frameworks])), Attr("sourceTree", Str("<group>")));
    RenamePair(g, products, frameworks);
  }

  lemma RenameList(g: Renamer, debug: Uuid, release: Uuid)
    requires debug in g && release in g
    ensures RenameNode(g, ListNode(debug, release)) == ListNode(g[debug], g[release])
  {
    RenameThree(g, Attr("buildConfigurations", Refs([debug, release])),
      Attr("defaultConfigurationIsVisible", Str("0")), Attr("defaultConfigurationName", Str("Release")));
    RenamePair(g, debug, release);
  }

  lemma RenameNamed(g: Renamer, kind: string, name: string)
    ensures RenameNode(g, NamedNode(kind, name)) == NamedNode(kind, name)
  {
    NamedNodeFacts(kind, name);
    RenameFixed(g, NamedNode(kind, name).attrs);
  }

  /** Pairing the identifiers of two scratch graphs carries one onto the other. */
  lemma ScratchRenames(ids1: seq<Uuid>, ids2: seq<Uuid>)
    requires ScratchIds(ids1) && ScratchIds(ids2)
    ensures Renames(Pairing(ids1, ids2), ScratchHeap(ids1), ScratchHeap(ids2))
  {
    var g := Pairing(ids1, ids2);
    PairingFacts(ids1, ids2);
    ScratchKeys(ids1);
    ScratchKeys(ids2);
    ScratchRenameLinks(ids1, ids2);
    ScratchRenameNamed(ids1, ids2);
    PairedRenames(g, ScratchHeap(ids1), ScratchHeap(ids2), ids1, ids2);
  }

  lemma ScratchRenameLinks(ids1: seq<Uuid>, ids2: seq<Uuid>)
    requires ScratchIds(ids1) && ScratchIds(ids2)
    ensures forall i :: i in {0, 1, 3} ==>
      ScratchHeap(ids2)[ids2[i]] == RenameNode(Pairing(ids1, ids2), ScratchHeap(ids1)[ids1[i]])
  {
    var g := Pairing(ids1, ids2);
    ScratchLookupLinks(ids1);
    ScratchLookupLinks(ids2);
    ScratchKeys(ids1);
    ScratchKeys(ids2);
    RenameRoot(g, ids1[1], ids1[2], ids1[3]);
    RenameMainGroup(g, ids1[2], ids1[6]);
    RenameList(g, ids1[4], ids1[5]);
  }

  lemma ScratchRenameNamed(ids1: seq<Uuid>, ids2: seq<Uuid>)
    requires ScratchIds(ids1) && ScratchIds(ids2)
    ensures forall i :: i in {2, 4, 5, 6} ==>
      ScratchHeap(ids2)[ids2[i]] == RenameNode(Pairing(ids1, ids2), ScratchHeap(ids1)[ids1[i]])
  {
    var g := Pairing(ids1, ids2);
    ScratchLookupNamed(ids1);
    ScratchLookupNamed(ids2);
    ScratchKeys(ids1);
    ScratchKeys(ids2);
    RenameNamed(g, GroupKind, "Products");
    RenameNamed(g, BuildConfigurationKind, "Debug");
    RenameNamed(g, BuildConfigurationKind, "Release");
    RenameNamed(g, GroupKind, "Frameworks");
  }

  /** A pairing carries h1 onto h2 when it does so node by node. */
  lemma PairedRenames(g: Renamer, h1: Heap, h2: Heap, ids1: seq<Uuid>, ids2: seq<Uuid>)
    requires |ids1| == 7 && |ids2| == 7
    requires g.Keys == Members(ids1) && g.Values == Members(ids2) && Injective(g)
    requires h1.Keys == Members(ids1) && h2.Keys == Members(ids2)
    requires forall i :: 0 <= i < 7 ==> g[ids1[i]] == ids2[i]
    requires forall i :: i in {0, 1, 3} ==> h2[ids2[i]] == RenameNode(g, h1[ids1[i]])
    requires forall i :: i in {2, 4, 5, 6} ==> h2[ids2[i]] == RenameNode(g, h1[ids1[i]])
    ensures Renames(g, h1, h2)
  {
    forall u | u in h1 ensures h2[g[u]] == RenameNode(g, h1[u]) {
      var i :| 0 <= i < 7 && ids1[i] == u;
      assert i in {0, 1, 3} || i in {2, 4, 5, 6};
    }
  }

  /** Two projects made from scratch, whatever identifiers they were first
      given, receive the same identifiers, the root receiving the digest of
      empty input. */
  lemma NewProjectsPredictable(md5: Path -> string, reg1: Registry, reg2: Registry)
    requires |reg1.generated| + 7 <= Space && |reg2.generated| + 7 <= Space
    requires IsPathDigest(md5)
    ensures Valid(NewProject(reg1)) && Valid(NewProject(reg2))
    ensures Predictabilize(md5, NewProject(reg1)).heap == Predictabilize(md5, NewProject(reg2)).heap
    ensures Predictabilize(md5, NewProject(reg1)).root == EmptyDigest
    ensures Predictabilize(md5, NewProject(reg2)).root == EmptyDigest
  {
    NewProjectObjects(reg1);
    NewProjectObjects(reg2);
    var ids1 := ScratchIdsOf(reg1);
    var ids2 := ScratchIdsOf(reg2);
    ScratchRenames(ids1, ids2);
    PredictableDeterministic(md5, NewProject(reg1), NewProject(reg2), Pairing(ids1, ids2));
    PredictableRoot(md5, NewProject(reg1));
    PredictableRoot(md5, NewProject(reg2));
  }
}

=== FILE: project.dfy ===
/** A project instance: its root object, every object created so far (the
    heap, including detached ones), and its identity registry.  The
    registered objects -- the source's objects-by-uuid table -- are exactly
    the objects reachable from the root, so that invariant holds by
    construction; the lemmas here say how each mutation changes that set. */
module Projects {
  import opened Wrappers
  import opened Uuids
  import opened Graph
  import opened Schema

  datatype Project = Project(root: Uuid, heap: Heap, registry: Registry)

  /** Well-formedness kept by every operation: the root is a project object,
      every known object's identifier is recorded, no reference dangles and
      no object has a repeated attribute key. */
  predicate Valid(p: Project) {
    && p.root in p.heap
    && p.heap[p.root].kind == ProjectKind
    && p.heap.Keys <= p.registry.generated
    && (forall u :: u in p.heap ==> Targets(p.heap[u]) <= p.heap.Keys)
    && (forall u :: u in p.heap ==> UniqueKeys(p.heap[u].attrs))
  }

  /** The registered objects: everything reachable from the root. */
  function Objects(p: Project): (r: set<Uuid>)
    ensures r <= p.heap.Keys
    ensures p.root in p.heap ==> p.root in r
  {
    Reach(p.heap, p.root)
  }

  /** The objects-by-uuid table. */
  function ObjectsByUuid(p: Project): (m: map<Uuid, Node>)
    ensures m.Keys == Objects(p)
    ensures forall u :: u in m ==> m[u] == p.heap[u]
  {
    map u | u in Objects(p) :: p.heap[u]
  }

  // ---------------------------------------------------------------------
  // Slots

  /** The slot under key holds no reference (or is unset). */
  predicate ScalarSlot(n: Node, key: string) {
    Get(n.attrs, key).None? || !IsRefValue(Get(n.attrs, key).value)
  }

  /** The slot under key is a to-many reference list (or is unset). */
  predicate ListSlot(n: Node, key: string) {
    Get(n.attrs, key).None? || Get(n.attrs, key).value.Refs?
  }

  /** The slot under key is a to-one reference (or is unset). */
  predicate OneSlot(n: Node, key: string) {
    Get(n.attrs, key).None? || Get(n.attrs, key).value.Ref?
  }

  /** The references held in a to-many slot; an unset slot is an empty list. */
  function RefList(n: Node, key: string): seq<Uuid> {
    match Get(n.attrs, key)
    case Some(Refs(ts)) => ts
    case _ => []
  }

  /** The target of a to-one slot, if set. */
  function RefOf(n: Node, key: string): Option<Uuid> {
    match Get(n.attrs, key)
    case Some(Ref(t)) => Some(t)
    case _ => None
  }

  /** Replaces the attributes of u, keeping its kind. */
  function WithAttrs(p: Project, u: Uuid, attrs: seq<Attr>): Project
    requires u in p.heap
  {
    Project(p.root, p.heap[u := Node(p.heap[u].kind, attrs)], p.registry)
  }

  lemma WithAttrsValid(p: Project, u: Uuid, attrs: seq<Attr>)
    requires Valid(p) && u in p.heap
    requires AttrTargets(attrs) <= p.heap.Keys
    requires UniqueKeys(attrs)
    ensures Valid(WithAttrs(p, u, attrs))
  {
  }

  // ---------------------------------------------------------------------
  // Mutations
  //
  // Each mutation is a function stating its effect on the heap, paired with
  // a lemma stating what it does to the registered objects.

  /** Creates a detached object of the given kind with its default
      attributes and a freshly reserved identifier. */
  function Create(p: Project, kind: string): (r: (Project, Uuid))
    requires |p.registry.generated| < Space
    ensures IsUuid(r.1) && r.1 !in p.registry.generated
    ensures r.0 == Project(p.root, p.heap[r.1 := NewNode(kind)], Registry(p.registry.generated + {r.1}))
  {
    var g := GenerateUuid(p.registry);
    (Project(p.root, p.heap[g.0 := NewNode(kind)], g.1), g.0)
  }

  /** Adding an object nobody references, under an identifier not yet
      recorded, registers nothing. */
  lemma AddDetached(p: Project, u: Uuid, n: Node)
    requires Valid(p) && u !in p.registry.generated
    requires Targets(n) == {} && UniqueKeys(n.attrs)
    ensures var r := Project(p.root, p.heap[u := n], Registry(p.registry.generated + {u}));
            && Valid(r) && Objects(r) == Objects(p) && u !in Objects(r)
  {
    ReachAddUnreferenced(p.heap, p.root, u, n);
  }

  /** Creating an object registers nothing, yet records its identifier. */
  lemma CreateKeepsObjects(p: Project, kind: string)
    requires Valid(p) && |p.registry.generated| < Space
    ensures var r := Create(p, kind);
            && Valid(r.0)
            && Objects(r.0) == Objects(p)
            && r.1 !in Objects(r.0)
            && r.1 in r.0.registry.generated
            && |r.0.registry.generated| == |p.registry.generated| + 1
  {
    var r := Create(p, kind);
    AddDetached(p, r.1, NewNode(kind));
  }

  /** Sets a text attribute.  A slot the schema declares as text never holds a
      reference, which is the precondition. */
  function SetScalar(p: Project, u: Uuid, key: string, v: Value): (r: Project)
    requires u in p.heap && !IsRefValue(v) && ScalarSlot(p.heap[u], key)
    ensures r == WithAttrs(p, u, Put(p.heap[u].attrs, key, v))
    ensures Get(r.heap[u].attrs, key) == Some(v)
  {
    WithAttrs(p, u, Put(p.heap[u].attrs, key, v))
  }

  /** Setting a text attribute changes no reference, so no registration. */
  lemma SetScalarKeepsObjects(p: Project, u: Uuid, key: string, v: Value)
    requires u in p.heap && !IsRefValue(v) && ScalarSlot(p.heap[u], key)
    requires Valid(p)
    ensures Valid(SetScalar(p, u, key, v)) && Objects(SetScalar(p, u, key, v)) == Objects(p)
  {
    var attrs := Put(p.heap[u].attrs, key, v);
    var r := WithAttrs(p, u, attrs);
    PutTargets(p.heap[u].attrs, key, v);
    assert Targets(r.heap[u]) == Targets(p.heap[u]);
    PutKeepsUniqueKeys(p.heap[u].attrs, key, v);
    WithAttrsValid(p, u, attrs);
    ReachSameEdges(p.heap, r.heap, p.root);
  }

  /** Appends t to the to-many slot `key` of owner (the source's `<<`). */
  function AppendRef(p: Project, owner: Uuid, key: string, t: Uuid): (r: Project)
    requires owner in p.heap && ListSlot(p.heap[owner], key)
    ensures r == WithAttrs(p, owner, Put(p.heap[owner].attrs, key, Refs(RefList(p.heap[owner], key) + [t])))
    ensures RefList(r.heap[owner], key) == RefList(p.heap[owner], key) + [t]
  {
    WithAttrs(p, owner, Put(p.heap[owner].attrs, key, Refs(RefList(p.heap[owner], key) + [t])))
  }

  /** Appending to a registered object registers t and everything t reaches;
      appending to a detached one registers nothing. */
  lemma AppendRefObjects(p: Project, owner: Uuid, key: string, t: Uuid)
    requires owner in p.heap && ListSlot(p.heap[owner], key)
    requires Valid(p) && t in p.heap
    ensures var r := AppendRef(p, owner, key, t);
            && Valid(r)
            && (owner in Objects(p) ==> Objects(r) == Objects(p) + Reach(r.heap, t))
            && (owner !in Objects(p) ==> Objects(r) == Objects(p))
  {
    var n := p.heap[owner];
    var v := Refs(RefList(n, key) + [t]);
    AppendTargets(n, key, t);
    ChangeEdges(p, owner, Put(n.attrs, key, v), key, v, t);
  }

  lemma AppendTargets(n: Node, key: string, t: Uuid)
    requires ListSlot(n, key)
    ensures var v := Refs(RefList(n, key) + [t]);
            && t in ValueTargets(v)
            && (Get(n.attrs, key).None? || ValueTargets(Get(n.attrs, key).value) <= ValueTargets(v))
            && ValueTargets(v) <= Targets(n) + {t}
  {
    var v := Refs(RefList(n, key) + [t]);
    assert ValueTargets(v) == ValueTargets(Refs(RefList(n, key))) + {t};
    GetTargets(n.attrs, key);
    if Get(n.attrs, key).Some? {
      assert Get(n.attrs, key).value == Refs(RefList(n, key));
    }
  }

  /** Shared reasoning for writing a reference slot: the object's edges grow
      by t at most, and lose none unless the slot was overwritten. */
  lemma ChangeEdges(p: Project, owner: Uuid, attrs: seq<Attr>, key: string, v: Value, t: Uuid)
    requires Valid(p) && owner in p.heap && t in p.heap
    requires attrs == Put(p.heap[owner].attrs, key, v)
    requires t in ValueTargets(v) && ValueTargets(v) <= Targets(p.heap[owner]) + {t}
    ensures var r := WithAttrs(p, owner, attrs);
            && Valid(r)
            && (owner !in Objects(p) ==> Objects(r) == Objects(p))
            && (owner in Objects(p)
                && (Get(p.heap[owner].attrs, key).None?
                    || ValueTargets(Get(p.heap[owner].attrs, key).value) <= ValueTargets(v))
                ==> Objects(r) == Objects(p) + Reach(r.heap, t))
  {
    var n := p.heap[owner];
    var r := WithAttrs(p, owner, attrs);
    PutTargets(n.attrs, key, v);
    PutKeepsUniqueKeys(n.attrs, key, v);
    WithAttrsValid(p, owner, attrs);
    if owner !in Objects(p) {
      ReachChangeUnreachable(p.heap, p.root, owner, r.heap[owner]);
    } else if Get(n.attrs, key).None? || ValueTargets(Get(n.attrs, key).value) <= ValueTargets(v) {
      ReachAddEdge(p.heap, p.root, owner, r.heap[owner], t);
    }
  }

  /** Points the to-one slot `key` of owner at t. */
  function SetRef(p: Project, owner: Uuid, key: string, t: Uuid): (r: Project)
    requires owner in p.heap && OneSlot(p.heap[owner], key)
    ensures r == WithAttrs(p, owner, Put(p.heap[owner].attrs, key, Ref(t)))
    ensures RefOf(r.heap[owner], key) == Some(t)
  {
    WithAttrs(p, owner, Put(p.heap[owner].attrs, key, Ref(t)))
  }

  /** Filling an unset to-one slot of a registered object registers t and
      everything it reaches; writing into a detached object registers
      nothing. */
  lemma SetRefObjects(p: Project, owner: Uuid, key: string, t: Uuid)
    requires owner in p.heap && OneSlot(p.heap[owner], key)
    requires Valid(p) && t in p.heap
    ensures var r := SetRef(p, owner, key, t);
            && Valid(r)
            && (owner in Objects(p) && Get(p.heap[owner].attrs, key).None?
                ==> Objects(r) == Objects(p) + Reach(r.heap, t))
            && (owner !in Objects(p) ==> Objects(r) == Objects(p))
  {
    assert ValueTargets(Ref(t)) == {t};
    ChangeEdges(p, owner, Put(p.heap[owner].attrs, key, Ref(t)), key, Ref(t), t);
  }

  /** Every object's identifier is recorded by the registry. */
  predicate Recorded(p: Project) {
    p.heap.Keys <= p.registry.generated
  }

  /** Creates the object n under a fresh identifier and appends it to the
      to-many slot `key` of owner: the pattern behind every "new child"
      helper. */
  function AddChild(p: Project, owner: Uuid, key: string, n: Node): (r: (Project, Uuid))
    requires Recorded(p) && |p.registry.generated| < Space
    requires owner in p.heap && ListSlot(p.heap[owner], key)
    ensures IsUuid(r.1) && r.1 !in p.registry.generated && r.1 != owner
    ensures r.0.registry.generated == p.registry.generated + {r.1}
    ensures |r.0.registry.generated| == |p.registry.generated| + 1
    ensures Recorded(r.0) && r.0.root == p.root && r.0.heap.Keys == p.heap.Keys + {r.1}
    ensures r.0.heap[r.1] == n
    ensures r.0.heap[owner] == AppendRef(p, owner, key, r.1).heap[owner]
    ensures RefList(r.0.heap[owner], key) == RefList(p.heap[owner], key) + [r.1]
    ensures forall u :: u in p.heap && u != owner ==> r.0.heap[u] == p.heap[u]
  {
    var g := GenerateUuid(p.registry);
    var h := p.heap[g.0 := n][owner := AppendRef(p, owner, key, g.0).heap[owner]];
    (Project(p.root, h, g.1), g.0)
  }

  /** Adding a child that references nothing registers it exactly when its
      owner is registered. */
  lemma AddChildObjects(p: Project, owner: Uuid, key: string, n: Node)
    requires Valid(p) && |p.registry.generated| < Space
    requires owner in p.heap && ListSlot(p.heap[owner], key)
    requires Targets(n) == {} && UniqueKeys(n.attrs)
    ensures var r := AddChild(p, owner, key, n);
            && Valid(r.0)
            && (owner in Objects(p) ==> Objects(r.0) == Objects(p) + {r.1})
            && (owner !in Objects(p) ==> Objects(r.0) == Objects(p))
  {
    var r := AddChild(p, owner, key, n);
    var p1 := Project(p.root, p.heap[r.1 := n], Registry(p.registry.generated + {r.1}));
    AddDetached(p, r.1, n);
    AttachLeaf(p1, owner, key, r.1);
    assert AppendRef(p1, owner, key, r.1) == r.0;
  }

  /** Appending an object that references nothing registers just it. */
  lemma AttachLeaf(p: Project, owner: Uuid, key: string, t: Uuid)
    requires Valid(p) && t in p.heap && owner in p.heap && owner != t
    requires Targets(p.heap[t]) == {} && ListSlot(p.heap[owner], key)
    ensures var r := AppendRef(p, owner, key, t);
            && Valid(r) && r.heap[t] == p.heap[t]
            && (owner in Objects(p) ==> Objects(r) == Objects(p) + {t})
            && (owner !in Objects(p) ==> Objects(r) == Objects(p))
  {
    var r := AppendRef(p, owner, key, t);
    AppendRefObjects(p, owner, key, t);
    ReachOfLeaf(r.heap, t);
  }

  /** `AddChild` is creating the object, giving it its attributes and
      appending it, in either order. */
  lemma AddChildSteps(p: Project, owner: Uuid, key: string, kind: string, name: string)
    requires Recorded(p) && |p.registry.generated| < Space
    requires owner in p.heap && ListSlot(p.heap[owner], key)
    requires Get(NewNode(kind).attrs, "name").None?
    ensures var created := Create(p, kind);
            var u := created.1;
            var n := Node(kind, Put(NewNode(kind).attrs, "name", Str(name)));
            var appended := AppendRef(created.0, owner, key, u);
            var named := SetScalar(created.0, u, "name", Str(name));
            && AddChild(p, owner, key, n) == (SetScalar(appended, u, "name", Str(name)), u)
            && AddChild(p, owner, key, n) == (AppendRef(named, owner, key, u), u)
  {
    var created := Create(p, kind);
    var u := created.1;
    var n := Node(kind, Put(NewNode(kind).attrs, "name", Str(name)));
    var tail := AppendRef(p, owner, key, u).heap[owner];
    assert created.0.heap[owner] == p.heap[owner];
    var appended := AppendRef(created.0, owner, key, u);
    assert appended.heap == p.heap[u := NewNode(kind)][owner := tail];
    SwapUpdates(p.heap, u, owner, NewNode(kind), n, tail);
    var named := SetScalar(created.0, u, "name", Str(name));
    assert named.heap == p.heap[u := n];
  }

  lemma SwapUpdates<K, V>(m: map<K, V>, a: K, b: K, x: V, y: V, z: V)
    requires a != b
    ensures m[a := x][b := z][a := y] == m[a := y][b := z]
  {
  }

  // ---------------------------------------------------------------------
  // Lazy registration

  /** A new object stays out of the objects-by-uuid table when one of its text
      attributes is set, yet its identifier is remembered by the registry. */
  lemma DetachedUntilReferenced(p: Project, text: string)
    requires Valid(p) && |p.registry.generated| < Space
    ensures var c := Create(p, FileReferenceKind);
            var p2 := SetScalar(c.0, c.1, "path", Str(text));
            && c.1 !in ObjectsByUuid(p2)
            && c.1 in p2.registry.generated
            && IsUuid(c.1)
            && Objects(p2) == Objects(p)
  {
    var c := Create(p, FileReferenceKind);
    CreateKeepsObjects(p, FileReferenceKind);
    NewNodeUnnamed(FileReferenceKind);
    SetScalarKeepsObjects(c.0, c.1, "path", Str(text));
  }

  /** Appending a new object to a registered object's list registers it,
      and the table maps its identifier to that very object. */
  lemma RegisteredOnceReferenced(p: Project, owner: Uuid, key: string)
    requires Valid(p) && |p.registry.generated| < Space
    requires owner in Objects(p) && ListSlot(p.heap[owner], key)
    ensures var c := Create(p, FileReferenceKind);
            var p2 := AppendRef(c.0, owner, key, c.1);
            && c.1 in ObjectsByUuid(p2)
            && ObjectsByUuid(p2)[c.1] == NewNode(FileReferenceKind)
            && Objects(p2) == Objects(p) + {c.1}
  {
    var c := Create(p, FileReferenceKind);
    CreateKeepsObjects(p, FileReferenceKind);
    AppendRefObjects(c.0, owner, key, c.1);
    var p2 := AppendRef(c.0, owner, key, c.1);
    assert p2.heap[c.1] == c.0.heap[c.1];
    ReachOfLeaf(p2.heap, c.1);
  }
}

=== FILE: removal.dfy ===
/** Removing an object from a project.  The removed object takes with it
    every link object that exists only to point at something removed (a
    container item proxy, a reference proxy, a target dependency, an entry
    of the root's project references), transitively; every reference the
    remaining objects hold to a removed object is dropped, and whatever is
    then no longer reachable from the root is no longer registered. */
module Removal {
  import opened Wrappers
  import opened Graph
  import opened Schema
  import opened Projects
  import opened Seqs

  // ---------------------------------------------------------------------
  // Which objects go

  /** The link objects of h that reference some member of d. */
  function LinkReferrers(h: Heap, d: set<Uuid>): (r: set<Uuid>)
    ensures r <= h.Keys
    ensures forall u :: u in r <==> u in h && IsLinkKind(h[u].kind) && !(Targets(h[u]) !! d)
  {
    set u | u in h && IsLinkKind(h[u].kind) && !(Targets(h[u]) !! d)
  }

  /** The objects removed along with d: d itself and, transitively, every
      link object that references a removed object. */
  function Cascade(h: Heap, d: set<Uuid>): (r: set<Uuid>)
    requires d <= h.Keys
    ensures d <= r <= h.Keys
    ensures LinkReferrers(h, r) <= r
    ensures forall u :: u in r && u !in d ==> IsLinkKind(h[u].kind)
    decreases |h.Keys - d|
  {
    var next := d + LinkReferrers(h, d);
    if next <= d then d
    else
      SmallerSet(h.Keys - next, h.Keys - d);
      Cascade(h, next)
  }

  /** The cascade is the least set containing d that holds every link
      object referencing one of its members. */
  lemma {:induction false} CascadeLeast(h: Heap, d: set<Uuid>, c: set<Uuid>)
    requires d <= h.Keys && d <= c
    requires LinkReferrers(h, c) <= c
    ensures Cascade(h, d) <= c
    decreases |h.Keys - d|
  {
    var next := d + LinkReferrers(h, d);
    if !(next <= d) {
      assert LinkReferrers(h, d) <= LinkReferrers(h, c);
      SmallerSet(h.Keys - next, h.Keys - d);
      CascadeLeast(h, next, c);
    }
  }

  lemma SmallerSet(a: set<Uuid>, b: set<Uuid>)
    requires a < b
    ensures |a| < |b|
  {
    assert b == a + (b - a);
    var x :| x in b - a;
    assert {x} <= b - a;
  }

  // ---------------------------------------------------------------------
  // Dropping references to removed objects

  /** The attributes with every reference into d dropped: a to-one reference
      into d is unset, a to-many list loses its members in d. */
  function StripAttrs(attrs: seq<Attr>, d: set<Uuid>): (r: seq<Attr>)
    ensures Keys(r) <= Keys(attrs)
    ensures AttrTargets(r) == AttrTargets(attrs) - d
    ensures UniqueKeys(attrs) ==> UniqueKeys(r)
  {
    if attrs == [] then []
    else
      var a := attrs[0];
      var rest := StripAttrs(attrs[1..], d);
      var r := StripOne(a, d) + rest;
      assert Keys(r) <= Keys(attrs) && AttrTargets(r) == AttrTargets(attrs) - d
          && (UniqueKeys(attrs) ==> UniqueKeys(r)) by {
        StripStep(attrs, d, rest, r);
      }
      r
  }

  lemma StripStep(attrs: seq<Attr>, d: set<Uuid>, rest: seq<Attr>, r: seq<Attr>)
    requires attrs != []
    requires Keys(rest) <= Keys(attrs[1..])
    requires AttrTargets(rest) == AttrTargets(attrs[1..]) - d
    requires UniqueKeys(attrs[1..]) ==> UniqueKeys(rest)
    requires r == StripOne(attrs[0], d) + rest
    ensures Keys(r) <= Keys(attrs)
    ensures AttrTargets(r) == AttrTargets(attrs) - d
    ensures UniqueKeys(attrs) ==> UniqueKeys(r)
  {
    var a := attrs[0];
    assert attrs == [a] + attrs[1..];
    OneFacts(a, d);
    if UniqueKeys(attrs) {
      StripStepUnique(attrs, rest);
    }
    StripConcat(a, attrs[1..], StripOne(a, d), rest, d);
  }

  /** Stripping the head and the tail separately strips the whole list. */
  lemma StripConcat(a: Attr, tail: seq<Attr>, one: seq<Attr>, rest: seq<Attr>, d: set<Uuid>)
    requires Keys(one) <= {a.key} && AttrTargets(one) == ValueTargets(a.value) - d && UniqueKeys(one)
    requires Keys(rest) <= Keys(tail) && AttrTargets(rest) == AttrTargets(tail) - d
    requires UniqueKeys([a] + tail) ==> a.key !in Keys(rest) && UniqueKeys(rest)
    ensures Keys(one + rest) <= Keys([a] + tail)
    ensures AttrTargets(one + rest) == AttrTargets([a] + tail) - d
    ensures UniqueKeys([a] + tail) ==> UniqueKeys(one + rest)
  {
    ConcatAttrs([a], tail);
    SingleAttr(a);
    ConcatAttrs(one, rest);
  }

  lemma StripStepUnique(attrs: seq<Attr>, rest: seq<Attr>)
    requires attrs != [] && UniqueKeys(attrs)
    requires Keys(rest) <= Keys(attrs[1..])
    ensures attrs[0].key !in Keys(rest) && UniqueKeys(attrs[1..])
  {
  }

  lemma OneFacts(a: Attr, d: set<Uuid>)
    ensures Keys(StripOne(a, d)) <= {a.key}
    ensures AttrTargets(StripOne(a, d)) == ValueTargets(a.value) - d
    ensures UniqueKeys(StripOne(a, d))
  {
    var one := StripOne(a, d);
    if one != [] {
      assert one == [one[0]];
      SingleAttr(one[0]);
    }
  }

  /** One attribute with its references into d dropped: nothing for a
      to-one reference into d. */
  function StripOne(a: Attr, d: set<Uuid>): (r: seq<Attr>)
    ensures |r| <= 1
    ensures r != [] ==> r[0].key == a.key && ValueTargets(r[0].value) == ValueTargets(a.value) - d
    ensures r == [] ==> ValueTargets(a.value) <= d
  {
    match a.value
    case Ref(t) => if t in d then [] else [a]
    case Refs(ts) => [Attr(a.key, Refs(Without(ts, d)))]
    case _ => [a]
  }

  function StripNode(n: Node, d: set<Uuid>): (r: Node)
    ensures r.kind == n.kind
    ensures Targets(r) == Targets(n) - d
  {
    Node(n.kind, StripAttrs(n.attrs, d))
  }

  // ---------------------------------------------------------------------
  // Removal

  /** Removes x, and the link objects cascading from it, from the project. */
  function Remove(p: Project, x: Uuid): (r: Project)
    requires Valid(p) && x in p.heap && x != p.root
    ensures r.root == p.root && r.registry == p.registry
    ensures r.heap.Keys == p.heap.Keys - Cascade(p.heap, {x})
    ensures forall u :: u in r.heap ==> r.heap[u] == StripNode(p.heap[u], Cascade(p.heap, {x}))
  {
    var d := Cascade(p.heap, {x});
    Project(p.root, map u | u in p.heap && u !in d :: StripNode(p.heap[u], d), p.registry)
  }

  /** The root is never removed: it is not a link object. */
  lemma RootSurvives(p: Project, x: Uuid)
    requires Valid(p) && x in p.heap && x != p.root
    ensures p.root !in Cascade(p.heap, {x})
  {
  }

  /** Removal keeps the project well formed: nothing left references a
      removed object. */
  lemma RemoveValid(p: Project, x: Uuid)
    requires Valid(p) && x in p.heap && x != p.root
    ensures Valid(Remove(p, x))
    ensures forall u :: u in Remove(p, x).heap ==> Targets(Remove(p, x).heap[u]) !! Cascade(p.heap, {x})
  {
    var r := Remove(p, x);
    var d := Cascade(p.heap, {x});
    RootSurvives(p, x);
    forall u | u in r.heap
      ensures Targets(r.heap[u]) <= r.heap.Keys && UniqueKeys(r.heap[u].attrs)
    {
      assert Targets(p.heap[u]) <= p.heap.Keys;
    }
  }

  /** After removal the registered objects are exactly the old registered
      objects reachable without passing through a removed one: x and its
      cascade are gone, the root stays, and every reference from a
      registered object to an object that was not removed is kept. */
  lemma RemoveObjects(p: Project, x: Uuid)
    requires Valid(p) && x in p.heap && x != p.root
    ensures var d := Cascade(p.heap, {x});
            && x in d
            && Objects(Remove(p, x)) <= Objects(p) - d
            && p.root in Objects(Remove(p, x))
            && forall u, t :: u in Objects(Remove(p, x)) && t in Targets(p.heap[u]) && t !in d ==>
                 t in Objects(Remove(p, x))
  {
    var r := Remove(p, x);
    var d := Cascade(p.heap, {x});
    RootSurvives(p, x);
    var kept := Objects(p) - d;
    assert Closed(r.heap, kept) by {
      forall u, t | u in kept && u in r.heap && t in Targets(r.heap[u]) && t in r.heap
        ensures t in kept
      {
        assert t in Targets(p.heap[u]);
        ClosedHas(p.heap, Objects(p), u, t);
      }
    }
    ReachLeast(r.heap, r.root, kept);
    forall u, t | u in Objects(r) && t in Targets(p.heap[u]) && t !in d
      ensures t in Objects(r)
    {
      assert t in Targets(r.heap[u]);
      ClosedHas(r.heap, Objects(r), u, t);
    }
  }

  /** A link object that references x goes with it, and so does every link
      object referencing one that goes. */
  lemma RemoveTakesLinks(p: Project, x: Uuid, c: Uuid, l: Uuid)
    requires Valid(p) && x in p.heap && x != p.root
    requires c in p.heap && IsLinkKind(p.heap[c].kind) && x in Targets(p.heap[c])
    requires l in p.heap && IsLinkKind(p.heap[l].kind) && c in Targets(p.heap[l])
    ensures c !in Objects(Remove(p, x)) && l !in Objects(Remove(p, x))
  {
    var d := Cascade(p.heap, {x});
    assert c in LinkReferrers(p.heap, d);
    assert l in LinkReferrers(p.heap, d);
    RemoveObjects(p, x);
  }

  /** Objects that only removed objects (or each other) reference become
      unregistered too: the products group of a removed subproject and
      everything only it holds. */
  lemma RemoveOrphans(p: Project, x: Uuid, s: set<Uuid>)
    requires Valid(p) && x in p.heap && x != p.root
    requires p.root !in s
    requires forall v :: v in p.heap && v !in s && v !in Cascade(p.heap, {x}) ==> Targets(p.heap[v]) !! s
    ensures Objects(Remove(p, x)) !! s
  {
    var r := Remove(p, x);
    forall v | v in r.heap && v !in s
      ensures Targets(r.heap[v]) !! s
    {
    }
    ReachAvoids(r.heap, r.root, s);
  }

  /** Entries of a to-many slot that all reference x leave the slot empty:
      removing a subproject's file reference empties the root's project
      references. */
  lemma RemoveEmptiesSlot(p: Project, x: Uuid, owner: Uuid, key: string)
    requires Valid(p) && x in p.heap && x != p.root
    requires owner in p.heap && owner !in Cascade(p.heap, {x})
    requires Get(p.heap[owner].attrs, key).Some? && Get(p.heap[owner].attrs, key).value.Refs?
    requires forall e :: e in RefList(p.heap[owner], key) ==>
               e in p.heap && IsLinkKind(p.heap[e].kind) && x in Targets(p.heap[e])
    ensures owner in Remove(p, x).heap
    ensures RefList(Remove(p, x).heap[owner], key) == []
  {
    var d := Cascade(p.heap, {x});
    var es := RefList(p.heap[owner], key);
    forall e | e in es ensures e in d {
      assert e in LinkReferrers(p.heap, d);
    }
    StripGet(p.heap[owner].attrs, d, key);
    WithoutAll(es, d);
  }

  /** Stripping keeps a to-many slot and filters its references. */
  lemma {:induction false} StripGet(attrs: seq<Attr>, d: set<Uuid>, key: string)
    requires Get(attrs, key).Some? && Get(attrs, key).value.Refs?
    ensures Get(StripAttrs(attrs, d), key) == Some(Refs(Without(Get(attrs, key).value.targets, d)))
  {
    var a := attrs[0];
    var one := StripOne(a, d);
    var rest := StripAttrs(attrs[1..], d);
    assert StripAttrs(attrs, d) == one + rest;
    GetConcat(one, rest, key);
    OneFacts(a, d);
    if a.key != key {
      StripGet(attrs[1..], d, key);
    }
  }
}

=== FILE: renaming.dfy ===
/** Consistent renaming of identifiers across a whole heap: every node moves
    to its new identifier and every reference is rewritten to match.  A
    traversal of the renamed heap visits the renamed nodes along the very
    same paths, which is what makes identifiers derived from paths
    independent of the identifiers they replace. */
module Renaming {
  import opened Wrappers
  import opened Graph

  type Renamer = map<Uuid, Uuid>

  predicate Injective(g: Renamer) {
    forall a, b :: a in g && b in g && g[a] == g[b] ==> a == b
  }

  /** The new name of t; an identifier outside the renaming keeps its name. */
  function Rn(g: Renamer, t: Uuid): Uuid {
    if t in g then g[t] else t
  }

  function Image(g: Renamer, s: set<Uuid>): set<Uuid> {
    set t | t in s :: Rn(g, t)
  }

  function RenameValue(g: Renamer, v: Value): (r: Value)
    ensures ValueTargets(r) == Image(g, ValueTargets(v))
    ensures IsRefValue(r) <==> IsRefValue(v)
  {
    match v
    case Ref(t) => Ref(Rn(g, t))
    case Refs(ts) =>
      var us := seq(|ts|, i requires 0 <= i < |ts| => Rn(g, ts[i]));
      assert forall u :: u in us ==> u in Image(g, ValueTargets(v)) by {
        forall u | u in us ensures u in Image(g, ValueTargets(v)) {
          var i :| 0 <= i < |us| && us[i] == u;
          assert ts[i] in ts;
        }
      }
      assert forall t :: t in ts ==> Rn(g, t) in us by {
        forall t | t in ts ensures Rn(g, t) in us {
          var i :| 0 <= i < |ts| && ts[i] == t;
          assert us[i] == Rn(g, t);
        }
      }
      Refs(us)
    case _ => v
  }

  function RenameAttr(g: Renamer, a: Attr): Attr {
    Attr(a.key, RenameValue(g, a.value))
  }

  /** The same attributes, in the same order under the same keys, with
      every reference renamed. */
  function RenameAttrs(g: Renamer, attrs: seq<Attr>): (r: seq<Attr>)
    ensures |r| == |attrs|
    ensures Keys(r) == Keys(attrs)
    ensures AttrTargets(r) == Image(g, AttrTargets(attrs))
    ensures UniqueKeys(r) <==> UniqueKeys(attrs)
  {
    if attrs == [] then []
    else
      var rest := RenameAttrs(g, attrs[1..]);
      var r := [RenameAttr(g, attrs[0])] + rest;
      assert r[1..] == rest;
      assert Keys(r) == {attrs[0].key} + Keys(rest);
      assert Keys(attrs) == {attrs[0].key} + Keys(attrs[1..]);
      r
  }

  function RenameNode(g: Renamer, n: Node): (r: Node)
    ensures r.kind == n.kind
    ensures Targets(r) == Image(g, Targets(n))
    ensures UniqueKeys(r.attrs) <==> UniqueKeys(n.attrs)
  {
    Node(n.kind, RenameAttrs(g, n.attrs))
  }

  /** The heap h with every node moved to its new identifier and renamed. */
  function RenameHeap(g: Renamer, h: Heap): (r: Heap)
    requires g.Keys == h.Keys && Injective(g)
    ensures r.Keys == g.Values
    ensures forall u :: u in h ==> r[g[u]] == RenameNode(g, h[u])
  {
    map u | u in h :: g[u] := RenameNode(g, h[u])
  }

  /** g carries h1 onto h2: a one-to-one renaming of every node of h1 whose
      renamed nodes are exactly those of h2. */
  predicate Renames(g: Renamer, h1: Heap, h2: Heap) {
    && g.Keys == h1.Keys
    && Injective(g)
    && h2.Keys == g.Values
    && forall u :: u in h1 ==> h2[g[u]] == RenameNode(g, h1[u])
  }

  /** No node of h references an identifier outside h. */
  predicate NoDangling(h: Heap) {
    forall u :: u in h ==> Targets(h[u]) <= h.Keys
  }

  function RenameEntries(g: Renamer, es: seq<Entry>): (r: seq<Entry>)
    ensures |r| == |es|
    ensures forall i :: 0 <= i < |es| ==> r[i] == (Rn(g, es[i].0), es[i].1)
  {
    seq(|es|, i requires 0 <= i < |es| => (Rn(g, es[i].0), es[i].1))
  }

  lemma EntriesIds(g: Renamer, es: seq<Entry>)
    ensures Ids(RenameEntries(g, es)) == Image(g, Ids(es))
  {
    var r := RenameEntries(g, es);
    forall u | u in Ids(r) ensures u in Image(g, Ids(es)) {
      var e :| e in r && e.0 == u;
      var i :| 0 <= i < |r| && r[i] == e;
      assert es[i] in es;
    }
    forall u | u in Image(g, Ids(es)) ensures u in Ids(r) {
      var t :| t in Ids(es) && Rn(g, t) == u;
      var e :| e in es && e.0 == t;
      var i :| 0 <= i < |es| && es[i] == e;
      assert r[i] in r;
    }
  }

  lemma {:induction false} RenameChildren(g: Renamer, attrs: seq<Attr>)
    ensures AttrChildren(RenameAttrs(g, attrs)) == RenameEntries(g, AttrChildren(attrs))
  {
    if attrs != [] {
      var a := attrs[0];
      var b := Attr(a.key, RenameValue(g, a.value));
      RenameChildren(g, attrs[1..]);
      assert RenameAttrs(g, attrs)[0] == b;
      assert RenameAttrs(g, attrs)[1..] == RenameAttrs(g, attrs[1..]);
      assert ValueChildren(b) == RenameEntries(g, ValueChildren(a));
      EntriesAppend(g, ValueChildren(a), AttrChildren(attrs[1..]));
    }
  }

  lemma EntriesAppend(g: Renamer, a: seq<Entry>, b: seq<Entry>)
    ensures RenameEntries(g, a + b) == RenameEntries(g, a) + RenameEntries(g, b)
  {
  }

  lemma EntriesBelow(g: Renamer, p: Path, cs: seq<Entry>)
    ensures Below(p, RenameEntries(g, cs)) == RenameEntries(g, Below(p, cs))
  {
  }

  /** Renaming two sides of a membership test keeps its answer. */
  lemma ImageMember(g: Renamer, s: set<Uuid>, u: Uuid)
    requires Injective(g) && s <= g.Keys && u in g
    ensures g[u] in Image(g, s) <==> u in s
  {
  }

  lemma WalkSkips(h: Heap, found: seq<Entry>, work: seq<Entry>)
    requires Ids(found) <= h.Keys
    requires work != [] && work[0].0 in Ids(found)
    ensures Walk(h, found, work) == Walk(h, found, work[1..])
  {
  }

  lemma WalkExpands(h: Heap, found: seq<Entry>, work: seq<Entry>)
    requires Ids(found) <= h.Keys
    requires work != [] && work[0].0 !in Ids(found) && work[0].0 in h
    ensures Ids(found + [work[0]]) <= h.Keys
    ensures Walk(h, found, work) == Walk(h, found + [work[0]], Below(work[0].1, Children(h[work[0].0])) + work[1..])
  {
    Expand(h, found, work[0].0, work[0].1);
  }

  /** Renaming commutes with taking the first item of the work stack. */
  lemma ExpandRename(g: Renamer, h1: Heap, h2: Heap, found: seq<Entry>, work: seq<Entry>)
    requires Renames(g, h1, h2)
    requires Ids(work) <= h1.Keys && work != []
    ensures work[0].0 in h1
    ensures RenameEntries(g, work)[0] == (g[work[0].0], work[0].1)
    ensures RenameEntries(g, work)[1..] == RenameEntries(g, work[1..])
    ensures Ids(work[1..]) <= h1.Keys
    ensures RenameEntries(g, found + [work[0]]) == RenameEntries(g, found) + [RenameEntries(g, work)[0]]
  {
    assert work[0].0 in Ids(work);
    assert Ids(work[1..]) <= Ids(work);
    EntriesAppend(g, found, [work[0]]);
  }

  /** Expanding a node, then renaming, is renaming, then expanding the renamed node. */
  lemma ExpandWorkRename(g: Renamer, h1: Heap, h2: Heap, u: Uuid, p: Path, rest: seq<Entry>)
    requires Renames(g, h1, h2) && NoDangling(h1)
    requires u in h1 && Ids(rest) <= h1.Keys
    ensures Ids(Below(p, Children(h1[u])) + rest) <= h1.Keys
    ensures RenameEntries(g, Below(p, Children(h1[u])) + rest)
         == Below(p, Children(h2[g[u]])) + RenameEntries(g, rest)
  {
    var cs := Children(h1[u]);
    RenameChildren(g, h1[u].attrs);
    EntriesBelow(g, p, cs);
    EntriesAppend(g, Below(p, cs), rest);
    ChildrenIds(h1[u].attrs);
    IdsAppend(Below(p, cs), rest);
  }

  /** A traversal of the renamed heap is the renamed traversal: the same
      nodes, renamed, in the same order, reached along the same paths. */
  lemma {:induction false} WalkRename(g: Renamer, h1: Heap, h2: Heap, found: seq<Entry>, work: seq<Entry>)
    requires Renames(g, h1, h2) && NoDangling(h1)
    requires Ids(found) <= h1.Keys && Ids(work) <= h1.Keys
    ensures Ids(RenameEntries(g, found)) <= h2.Keys
    ensures Walk(h2, RenameEntries(g, found), RenameEntries(g, work)) == RenameEntries(g, Walk(h1, found, work))
    decreases |h1.Keys - Ids(found)|, |work|
  {
    EntriesIds(g, found);
    var found2 := RenameEntries(g, found);
    var work2 := RenameEntries(g, work);
    if work != [] {
      var u := work[0].0;
      ExpandRename(g, h1, h2, found, work);
      ImageMember(g, Ids(found), u);
      if u in Ids(found) {
        WalkRename(g, h1, h2, found, work[1..]);
        WalkSkips(h1, found, work);
        WalkSkips(h2, found2, work2);
      } else {
        Expand(h1, found, u, work[0].1);
        ExpandWorkRename(g, h1, h2, u, work[0].1, work[1..]);
        WalkRename(g, h1, h2, found + [work[0]], Below(work[0].1, Children(h1[u])) + work[1..]);
        WalkExpands(h1, found, work);
        WalkExpands(h2, found2, work2);
      }
    }
  }

  /** Discovery in the renamed heap from the renamed root is the renamed discovery. */
  lemma DiscoverRename(g: Renamer, h1: Heap, h2: Heap, root: Uuid)
    requires Renames(g, h1, h2) && NoDangling(h1)
    requires root in h1
    ensures Discover(h2, g[root]) == RenameEntries(g, Discover(h1, root))
  {
    StartRename(g, root);
    WalkRename(g, h1, h2, [], [(root, [])]);
  }

  lemma StartRename(g: Renamer, root: Uuid)
    requires root in g
    ensures Ids([(root, [])]) == {root}
    ensures RenameEntries(g, [(root, [])]) == [(g[root], [])]
    ensures RenameEntries(g, []) == []
  {
    assert Ids([(root, [])]) == {root};
  }

  /** The renamed heap reaches exactly the renamed nodes. */
  lemma ReachRename(g: Renamer, h1: Heap, h2: Heap, root: Uuid)
    requires Renames(g, h1, h2) && NoDangling(h1)
    requires root in h1
    ensures Reach(h2, g[root]) == Image(g, Reach(h1, root))
  {
    DiscoverRename(g, h1, h2, root);
    EntriesIds(g, Discover(h1, root));
  }

  /** Renaming every key of a map covers exactly its values. */
  lemma ImageKeys(g: Renamer)
    ensures Image(g, g.Keys) == g.Values
  {
    forall v | v in g.Values ensures v in Image(g, g.Keys) {
      var u :| u in g && g[u] == v;
    }
  }

  /** Renaming a heap whose root reaches every node keeps it so: the renamed
      root reaches every renamed node, and there are as many of them. */
  lemma RenameHeapFacts(g: Renamer, h: Heap, root: Uuid)
    requires g.Keys == h.Keys && Injective(g) && NoDangling(h)
    requires root in h && Reach(h, root) == h.Keys
    ensures Renames(g, h, RenameHeap(g, h))
    ensures Reach(RenameHeap(g, h), g[root]) == RenameHeap(g, h).Keys
    ensures |RenameHeap(g, h).Keys| == |h.Keys|
  {
    ImageKeys(g);
    ReachRename(g, h, RenameHeap(g, h), root);
    InjectiveImageSize(g, h.Keys);
  }

  /** Renaming every node of a heap leaves no reference dangling that did
      not dangle before. */
  lemma RenameHeapClosed(g: Renamer, h: Heap)
    requires g.Keys == h.Keys && Injective(g) && NoDangling(h)
    ensures NoDangling(RenameHeap(g, h))
  {
    var r := RenameHeap(g, h);
    forall v | v in r ensures Targets(r[v]) <= r.Keys {
      var u :| u in h && g[u] == v;
      forall t | t in Targets(h[u]) ensures Rn(g, t) in r.Keys {
        assert t in g;
      }
    }
  }

  /** Two renamings that agree through g give the same heap: renaming h1
      by f1 is renaming its g-image h2 by f2. */
  lemma RenameAgree(f1: Renamer, f2: Renamer, g: Renamer, h1: Heap, h2: Heap)
    requires f1.Keys == h1.Keys && f2.Keys == h2.Keys && Injective(f1) && Injective(f2)
    requires NoDangling(h1) && f1.Values == f2.Values
    requires forall u :: u in h1 ==> u in g && g[u] in h2 && h2[g[u]] == RenameNode(g, h1[u])
    requires forall u :: u in f1 ==> u in g && g[u] in f2 && f2[g[u]] == f1[u]
    ensures RenameHeap(f1, h1) == RenameHeap(f2, h2)
  {
    var r1 := RenameHeap(f1, h1);
    var r2 := RenameHeap(f2, h2);
    assert r1.Keys == r2.Keys;
    forall v | v in r1 ensures r1[v] == r2[v] {
      var u :| u in h1 && f1[u] == v;
      assert Targets(h1[u]) <= f1.Keys;
      NodeAgree(f1, f2, g, h1[u]);
    }
    SameHeap(r1, r2);
  }

  lemma SameHeap(r1: Heap, r2: Heap)
    requires r1.Keys == r2.Keys
    requires forall v :: v in r1 ==> r1[v] == r2[v]
    ensures r1 == r2
  {
  }

  lemma NodeAgree(f1: Renamer, f2: Renamer, g: Renamer, n: Node)
    requires forall t :: t in Targets(n) ==> t in f1 && t in g && g[t] in f2 && f2[g[t]] == f1[t]
    ensures RenameNode(f2, RenameNode(g, n)) == RenameNode(f1, n)
  {
    RenameCompose(f2, g, f1, n.attrs);
  }

  /** Attributes whose every reference the renaming fixes are left as they
      are; in particular attributes without references. */
  lemma {:induction false} RenameFixed(g: Renamer, attrs: seq<Attr>)
    requires forall t :: t in AttrTargets(attrs) ==> Rn(g, t) == t
    ensures RenameAttrs(g, attrs) == attrs
  {
    if attrs != [] {
      var v := attrs[0].value;
      assert AttrTargets(attrs) == ValueTargets(v) + AttrTargets(attrs[1..]);
      RenameFixed(g, attrs[1..]);
      ValueFixed(g, v);
      assert attrs == [attrs[0]] + attrs[1..];
    }
  }

  lemma ValueFixed(g: Renamer, v: Value)
    requires forall t :: t in ValueTargets(v) ==> Rn(g, t) == t
    ensures RenameValue(g, v) == v
  {
    match v
    case Refs(ts) =>
      assert forall i :: 0 <= i < |ts| ==> ts[i] in ValueTargets(v);
    case _ =>
  }

  lemma {:induction false} RenameAppend(g: Renamer, a: seq<Attr>, b: seq<Attr>)
    ensures RenameAttrs(g, a + b) == RenameAttrs(g, a) + RenameAttrs(g, b)
  {
    if a != [] {
      assert (a + b)[1..] == a[1..] + b;
      RenameAppend(g, a[1..], b);
    } else {
      assert a + b == b;
    }
  }

  lemma RenameTwo(g: Renamer, a: Attr, b: Attr)
    ensures RenameAttrs(g, [a, b]) == [RenameAttr(g, a), RenameAttr(g, b)]
  {
    assert [a, b][1..] == [b];
    assert [b][1..] == [];
  }

  lemma RenameThree(g: Renamer, a: Attr, b: Attr, c: Attr)
    ensures RenameAttrs(g, [a, b, c]) == [RenameAttr(g, a), RenameAttr(g, b), RenameAttr(g, c)]
  {
    assert [a, b, c][1..] == [b, c];
    RenameTwo(g, b, c);
  }

  lemma RenamePair(g: Renamer, x: Uuid, y: Uuid)
    requires x in g && y in g
    ensures RenameValue(g, Refs([x, y])) == Refs([g[x], g[y]])
  {
  }

  /** A one-to-one renaming of a set has as many members as the set. */
  lemma {:induction false} InjectiveImageSize(g: Renamer, s: set<Uuid>)
    requires Injective(g) && s <= g.Keys
    ensures |Image(g, s)| == |s|
    decreases |s|
  {
    if s != {} {
      var x :| x in s;
      InjectiveImageSize(g, s - {x});
      assert Image(g, s) == Image(g, s - {x}) + {g[x]};
      assert g[x] !in Image(g, s - {x});
    }
  }

  /** Renaming by g and then by f is renaming by k, as far as the references
      of the attributes go. */
  lemma {:induction false} RenameCompose(f: Renamer, g: Renamer, k: Renamer, attrs: seq<Attr>)
    requires forall t :: t in AttrTargets(attrs) ==> Rn(f, Rn(g, t)) == Rn(k, t)
    ensures RenameAttrs(f, RenameAttrs(g, attrs)) == RenameAttrs(k, attrs)
  {
    if attrs != [] {
      var a := attrs[0];
      assert AttrTargets(attrs) == ValueTargets(a.value) + AttrTargets(attrs[1..]);
      RenameCompose(f, g, k, attrs[1..]);
      ValueCompose(f, g, k, a.value);
      AttrsUnfold(g, attrs);
      AttrsUnfold(k, attrs);
      AttrsUnfold(f, RenameAttrs(g, attrs));
    }
  }

  lemma AttrsUnfold(g: Renamer, attrs: seq<Attr>)
    requires attrs != []
    ensures RenameAttrs(g, attrs) == [Attr(attrs[0].key, RenameValue(g, attrs[0].value))] + RenameAttrs(g, attrs[1..])
  {
  }

  lemma ValueCompose(f: Renamer, g: Renamer, k: Renamer, v: Value)
    requires forall t :: t in ValueTargets(v) ==> Rn(f, Rn(g, t)) == Rn(k, t)
    ensures RenameValue(f, RenameValue(g, v)) == RenameValue(k, v)
  {
    match v
    case Refs(ts) =>
      assert forall i :: 0 <= i < |ts| ==> ts[i] in ValueTargets(v);
    case _ =>
  }

  // ---------------------------------------------------------------------
  // Lookups and stores under a renaming

  /** A lookup in the renamed attributes finds the renamed value. */
  lemma {:induction false} GetRename(g: Renamer, attrs: seq<Attr>, key: string)
    ensures Get(RenameAttrs(g, attrs), key) ==
      if Get(attrs, key).Some? then Some(RenameValue(g, Get(attrs, key).value)) else None
  {
    if attrs != [] {
      AttrsUnfold(g, attrs);
      GetRename(g, attrs[1..], key);
      assert RenameAttrs(g, attrs)[1..] == RenameAttrs(g, attrs[1..]);
    }
  }

  /** Storing a value and then renaming is renaming and then storing the
      renamed value. */
  lemma {:induction false} PutRename(g: Renamer, attrs: seq<Attr>, key: string, v: Value)
    ensures RenameAttrs(g, Put(attrs, key, v)) == Put(RenameAttrs(g, attrs), key, RenameValue(g, v))
  {
    var r := RenameAttrs(g, attrs);
    if attrs == [] {
      RenameOne(g, Attr(key, v));
    } else {
      AttrsUnfold(g, attrs);
      assert r[1..] == RenameAttrs(g, attrs[1..]);
      var put := Put(attrs, key, v);
      AttrsUnfold(g, put);
      if attrs[0].key == key {
        assert put[1..] == attrs[1..];
      } else {
        PutRename(g, attrs[1..], key, v);
        assert put[1..] == Put(attrs[1..], key, v);
      }
    }
  }

  lemma RenameOne(g: Renamer, a: Attr)
    ensures RenameAttrs(g, [a]) == [RenameAttr(g, a)]
  {
    assert [a][1..] == [];
  }

  /** Appending a reference and then renaming is renaming and then
      appending its new name. */
  lemma AppendRename(g: Renamer, ts: seq<Uuid>, t: Uuid)
    ensures RenameValue(g, Refs(ts + [t])) == Refs(RenameValue(g, Refs(ts)).targets + [Rn(g, t)])
  {
  }

  /** A renaming extended by a name the node does not reference renames the
      node as before. */
  lemma RenameExtend(g: Renamer, x: Uuid, y: Uuid, n: Node)
    requires x !in Targets(n) || (x in g && g[x] == y)
    ensures RenameNode(g[x := y], n) == RenameNode(g, n)
  {
    var e: Renamer := map[];
    RenameCompose(e, g, g[x := y], n.attrs);
    RenameFixed(e, RenameAttrs(g, n.attrs));
  }
}

=== FILE: schema.dfy ===
/** The attribute catalogue for the object kinds the core itself creates or
    treats specially: default attribute values (filled in by `Create`, never
    by loading), which kinds are link objects that exist only to point at
    something, and which list attributes `Sort` orders. */
module Schema {
  import opened Wrappers
  import opened Graph

  const ProjectKind: string := "PBXProject"
  const GroupKind: string := "PBXGroup"
  const FileReferenceKind: string := "PBXFileReference"
  const ConfigurationListKind: string := "XCConfigurationList"
  const BuildConfigurationKind: string := "XCBuildConfiguration"
  const NativeTargetKind: string := "PBXNativeTarget"
  const ContainerItemProxyKind: string := "PBXContainerItemProxy"
  const ReferenceProxyKind: string := "PBXReferenceProxy"
  const TargetDependencyKind: string := "PBXTargetDependency"
  /** One entry of the root's `projectReferences` list (a dictionary holding
      `ProductGroup` and `ProjectRef` in the document). */
  const ProjectReferenceKind: string := "ProjectReference"

  /** Attribute values a newly created object of the kind starts with. */
  function DefaultAttrs(kind: string): seq<Attr> {
    if kind == FileReferenceKind then
      [Attr("sourceTree", Str("SOURCE_ROOT")), Attr("includeInIndex", Str("1"))]
    else if kind == GroupKind then
      [Attr("children", Refs([])), Attr("sourceTree", Str("<group>"))]
    else if kind == ConfigurationListKind then
      [Attr("buildConfigurations", Refs([])), Attr("defaultConfigurationIsVisible", Str("0"))]
    else if kind == ProjectKind then
      [Attr("targets", Refs([])), Attr("projectReferences", Refs([]))]
    else if kind == NativeTargetKind then
      [Attr("buildPhases", Refs([])), Attr("dependencies", Refs([]))]
    else []
  }

  function NewNode(kind: string): (n: Node)
    ensures n.kind == kind
    ensures Targets(n) == {}
    ensures UniqueKeys(n.attrs)
  {
    var a := DefaultAttrs(kind);
    assert UniqueKeys(a) && AttrTargets(a) == {} by {
      assert ValueTargets(Refs([])) == {};
      if a != [] {
        PairFacts(a[0], a[1]);
        assert a == [a[0], a[1]];
      }
    }
    Node(kind, a)
  }

  lemma PairFacts(a: Attr, b: Attr)
    requires a.key != b.key
    requires ValueTargets(a.value) == {} && ValueTargets(b.value) == {}
    ensures UniqueKeys([a, b]) && AttrTargets([a, b]) == {}
  {
    assert [a, b][1..] == [b];
    assert [b][1..] == [];
    assert Keys([b]) == {b.key};
    assert AttrTargets([b]) == ValueTargets(b.value) + AttrTargets([]);
    assert AttrTargets([a, b]) == ValueTargets(a.value) + AttrTargets([b]);
  }

  /** Every key some kind's defaults use. */
  const DefaultKeyNames: set<string> :=
    {"sourceTree", "includeInIndex", "children", "buildConfigurations",
     "defaultConfigurationIsVisible", "targets", "projectReferences",
     "buildPhases", "dependencies"}

  /** A key no default uses is unset on a newly created object. */
  lemma NewNodeLacks(kind: string, key: string)
    requires key !in DefaultKeyNames
    ensures Get(NewNode(kind).attrs, key).None?
  {
    var a := DefaultAttrs(kind);
    if a != [] {
      assert a == [a[0], a[1]];
      assert a[1..] == [a[1]] && a[1..][1..] == [];
    }
  }

  /** A newly created object has neither a name nor a path. */
  lemma NewNodeUnnamed(kind: string)
    ensures Get(NewNode(kind).attrs, "name").None?
    ensures Get(NewNode(kind).attrs, "path").None?
  {
    NewNodeLacks(kind, "name");
    NewNodeLacks(kind, "path");
  }

  /** A new file reference holds exactly its source tree, relative to the
      project root, and its index flag, set. */
  lemma FileReferenceDefaults()
    ensures Keys(NewNode(FileReferenceKind).attrs) == {"sourceTree", "includeInIndex"}
    ensures Get(NewNode(FileReferenceKind).attrs, "sourceTree") == Some(Str("SOURCE_ROOT"))
    ensures Get(NewNode(FileReferenceKind).attrs, "includeInIndex") == Some(Str("1"))
  {
    var a := NewNode(FileReferenceKind).attrs;
    assert a == [Attr("sourceTree", Str("SOURCE_ROOT")), Attr("includeInIndex", Str("1"))];
    assert a[1..] == [a[1]] && a[1..][1..] == [];
  }

  /** An object read from a document holds exactly the attributes the
      document gives it: loading fills in no defaults. */
  function NodeFromPlist(kind: string, attrs: seq<Attr>): (n: Node)
    ensures n.kind == kind
    ensures Keys(n.attrs) == Keys(attrs)
    ensures forall key :: Get(n.attrs, key) == Get(attrs, key)
  {
    Node(kind, attrs)
  }

  /** A file reference loaded with only its source tree stays without the
      index flag, although a created file reference starts with it set. */
  lemma LoadedLacksDefaults()
    ensures var loaded := NodeFromPlist(FileReferenceKind, [Attr("sourceTree", Str("SOURCE_ROOT"))]);
            && Get(loaded.attrs, "sourceTree") == Some(Str("SOURCE_ROOT"))
            && Get(loaded.attrs, "includeInIndex").None?
            && Get(NewNode(FileReferenceKind).attrs, "includeInIndex") == Some(Str("1"))
            && loaded != NewNode(FileReferenceKind)
  {
    FileReferenceDefaults();
    assert [Attr("sourceTree", Str("SOURCE_ROOT"))][1..] == [];
  }

  /** Kinds whose objects exist only to point at another object; removing
      what they point at removes them too. */
  predicate IsLinkKind(kind: string) {
    kind == ContainerItemProxyKind || kind == ReferenceProxyKind
    || kind == TargetDependencyKind || kind == ProjectReferenceKind
  }

  /** List attributes that `Sort` keeps ordered by name. */
  function SortedAttrs(kind: string): seq<string> {
    if kind == GroupKind then ["children"]
    else if kind == ProjectKind then ["targets"]
    else if kind == ConfigurationListKind then ["buildConfigurations"]
    else []
  }
}

=== FILE: scratch.dfy ===
/** The object graph of a project made from scratch: the root project, its
    main group holding the products and frameworks groups, and a
    configuration list holding the Debug and Release configurations. */
module Scratch {
  import opened Wrappers
  import opened Uuids
  import opened Seqs
  import opened Graph
  import opened Schema
  import opened Projects
  import opened Builders

  /** The seven identifiers of a new project, in creation order: root, main
      group, products group, configuration list, Debug, Release, frameworks
      group. */
  predicate ScratchIds(ids: seq<Uuid>) {
    |ids| == 7 && Distinct(ids)
  }

  /** The root: its default lists plus the three to-one links. */
  function RootNode(main: Uuid, products: Uuid, list: Uuid): Node {
    Node(ProjectKind, RootDefaults() + RootLinks(main, products, list))
  }

  /** The default lists of a new root, spelled out. */
  function RootDefaults(): (a: seq<Attr>)
    ensures a == DefaultAttrs(ProjectKind)
  {
    [Attr("targets", Refs([])), Attr("projectReferences", Refs([]))]
  }

  function RootLinks(main: Uuid, products: Uuid, list: Uuid): seq<Attr> {
    [Attr("mainGroup", Ref(main)), Attr("productRefGroup", Ref(products)),
     Attr("buildConfigurationList", Ref(list))]
  }

  /** The main group, holding the products and frameworks groups. */
  function MainGroupNode(products: Uuid, frameworks: Uuid): Node {
    Node(GroupKind, [Attr("children", Refs([products, frameworks])), Attr("sourceTree", Str("<group>"))])
  }

  /** The configuration list, with Release as its default. */
  function ListNode(debug: Uuid, release: Uuid): Node {
    Node(ConfigurationListKind, [
      Attr("buildConfigurations", Refs([debug, release])),
      Attr("defaultConfigurationIsVisible", Str("0")),
      Attr("defaultConfigurationName", Str("Release"))])
  }

  function ScratchHeap(ids: seq<Uuid>): Heap
    requires |ids| == 7
  {
    map[ids[0] := RootNode(ids[1], ids[2], ids[3]),
        ids[1] := MainGroupNode(ids[2], ids[6]),
        ids[2] := NamedNode(GroupKind, "Products"),
        ids[3] := ListNode(ids[4], ids[5]),
        ids[4] := NamedNode(BuildConfigurationKind, "Debug"),
        ids[5] := NamedNode(BuildConfigurationKind, "Release"),
        ids[6] := NamedNode(GroupKind, "Frameworks")]
  }

  /** A project made from scratch, starting from the given registry (empty
      in the source). */
  function NewProject(reg: Registry): (p: Project)
    requires |reg.generated| + 7 <= Space
  {
    var b := GenerateBatch(reg, 7);
    Project(b.0[0], ScratchHeap(b.0), b.1)
  }

  /** The identifiers of the objects of a new project. */
  function ScratchIdsOf(reg: Registry): (ids: seq<Uuid>)
    requires |reg.generated| + 7 <= Space
    ensures ScratchIds(ids)
    ensures forall u :: u in ids ==> IsUuid(u) && u !in reg.generated
    ensures |reg.generated + Members(ids)| == |reg.generated| + 7
    ensures NewProject(reg) == ScratchProject(ids, reg.generated + Members(ids))
    ensures NewProject(reg) == Project(ids[0], ScratchHeap(ids), Registry(reg.generated + Members(ids)))
  {
    GenerateBatch(reg, 7).0
  }

  // ---------------------------------------------------------------------
  // Shape of each object

  lemma TwoAttrs(a: Attr, b: Attr)
    ensures Keys([a, b]) == {a.key, b.key}
    ensures AttrTargets([a, b]) == ValueTargets(a.value) + ValueTargets(b.value)
    ensures a.key != b.key ==> UniqueKeys([a, b])
  {
    SingleAttr(a);
    SingleAttr(b);
    ConcatAttrs([a], [b]);
    assert [a] + [b] == [a, b];
  }

  lemma ThreeAttrs(a: Attr, b: Attr, c: Attr)
    ensures Keys([a, b, c]) == {a.key, b.key, c.key}
    ensures AttrTargets([a, b, c]) == ValueTargets(a.value) + ValueTargets(b.value) + ValueTargets(c.value)
    ensures a.key != b.key && a.key != c.key && b.key != c.key ==> UniqueKeys([a, b, c])
  {
    TwoAttrs(b, c);
    SingleAttr(a);
    ConcatAttrs([a], [b, c]);
    assert [a] + [b, c] == [a, b, c];
  }

  lemma PairTargets(x: Uuid, y: Uuid)
    ensures ValueTargets(Refs([x, y])) == {x, y}
  {
    assert [x, y][0] == x && [x, y][1] == y;
  }

  lemma RootNodeLinks(main: Uuid, products: Uuid, list: Uuid)
    ensures RefOf(RootNode(main, products, list), "mainGroup") == Some(main)
    ensures RefOf(RootNode(main, products, list), "productRefGroup") == Some(products)
    ensures RefOf(RootNode(main, products, list), "buildConfigurationList") == Some(list)
    ensures NodeName(RootNode(main, products, list)) == None
  {
    RootLinksFacts(main, products, list);
    RootGet(main, products, list, "mainGroup");
    RootGet(main, products, list, "productRefGroup");
    RootGet(main, products, list, "buildConfigurationList");
    RootGet(main, products, list, "name");
  }

  lemma RootTargets(main: Uuid, products: Uuid, list: Uuid)
    ensures Targets(RootNode(main, products, list)) == {main, products, list}
  {
    ProjectDefaults();
    RootLinksFacts(main, products, list);
    ConcatAttrs(RootDefaults(), RootLinks(main, products, list));
  }

  lemma RootUnique(main: Uuid, products: Uuid, list: Uuid)
    ensures UniqueKeys(RootNode(main, products, list).attrs)
  {
    ProjectDefaults();
    RootLinksFacts(main, products, list);
    ConcatAttrs(RootDefaults(), RootLinks(main, products, list));
  }

  lemma RootGet(main: Uuid, products: Uuid, list: Uuid, key: string)
    requires key !in {"targets", "projectReferences"}
    ensures Get(RootNode(main, products, list).attrs, key) == Get(RootLinks(main, products, list), key)
  {
    ProjectDefaults();
    GetConcat(RootDefaults(), RootLinks(main, products, list), key);
  }

  lemma ProjectDefaults()
    ensures Keys(RootDefaults()) == {"targets", "projectReferences"}
    ensures AttrTargets(RootDefaults()) == {}
    ensures UniqueKeys(RootDefaults())
  {
    var d := RootDefaults();
    TwoAttrs(d[0], d[1]);
    assert d == [d[0], d[1]];
    assert ValueTargets(Refs([])) == {};
  }

  lemma RootLinksFacts(main: Uuid, products: Uuid, list: Uuid)
    ensures var e := RootLinks(main, products, list);
            && Keys(e) == {"mainGroup", "productRefGroup", "buildConfigurationList"}
            && AttrTargets(e) == {main, products, list} && UniqueKeys(e)
            && Get(e, "mainGroup") == Some(Ref(main))
            && Get(e, "productRefGroup") == Some(Ref(products))
            && Get(e, "buildConfigurationList") == Some(Ref(list))
            && Get(e, "name") == None
  {
    var e := RootLinks(main, products, list);
    ThreeAttrs(e[0], e[1], e[2]);
    assert e == [e[0], e[1], e[2]];
  }

  lemma MainGroupNodeFacts(products: Uuid, frameworks: Uuid)
    ensures Targets(MainGroupNode(products, frameworks)) == {products, frameworks}
    ensures UniqueKeys(MainGroupNode(products, frameworks).attrs)
    ensures RefList(MainGroupNode(products, frameworks), "children") == [products, frameworks]
    ensures NodeName(MainGroupNode(products, frameworks)) == None
  {
    var a := MainGroupNode(products, frameworks).attrs;
    TwoAttrs(a[0], a[1]);
    assert a == [a[0], a[1]];
    PairTargets(products, frameworks);
    assert "name" !in Keys(a);
  }

  lemma ListNodeFacts(debug: Uuid, release: Uuid)
    ensures Targets(ListNode(debug, release)) == {debug, release}
    ensures UniqueKeys(ListNode(debug, release).attrs)
    ensures RefList(ListNode(debug, release), "buildConfigurations") == [debug, release]
    ensures ListSlot(ListNode(debug, release), "buildConfigurations")
    ensures Get(ListNode(debug, release).attrs, "defaultConfigurationName") == Some(Str("Release"))
    ensures Get(ListNode(debug, release).attrs, "defaultConfigurationIsVisible") == Some(Str("0"))
    ensures NodeName(ListNode(debug, release)) == None
  {
    var a := ListNode(debug, release).attrs;
    ThreeAttrs(a[0], a[1], a[2]);
    assert a == [a[0], a[1], a[2]];
    PairTargets(debug, release);
    assert "name" !in Keys(a);
  }

  // ---------------------------------------------------------------------
  // The graph of a new project

  /** A project over the seven objects of a new project. */
  function ScratchProject(ids: seq<Uuid>, gen: set<Uuid>): Project
    requires |ids| == 7
  {
    Project(ids[0], ScratchHeap(ids), Registry(gen))
  }

  lemma ScratchLookup(ids: seq<Uuid>)
    requires ScratchIds(ids)
    ensures ScratchHeap(ids).Keys == Members(ids)
    ensures ScratchHeap(ids)[ids[0]] == RootNode(ids[1], ids[2], ids[3])
    ensures ScratchHeap(ids)[ids[1]] == MainGroupNode(ids[2], ids[6])
    ensures ScratchHeap(ids)[ids[2]] == NamedNode(GroupKind, "Products")
    ensures ScratchHeap(ids)[ids[3]] == ListNode(ids[4], ids[5])
    ensures ScratchHeap(ids)[ids[4]] == NamedNode(BuildConfigurationKind, "Debug")
    ensures ScratchHeap(ids)[ids[5]] == NamedNode(BuildConfigurationKind, "Release")
    ensures ScratchHeap(ids)[ids[6]] == NamedNode(GroupKind, "Frameworks")
  {
    ScratchKeys(ids);
    ScratchLookupLinks(ids);
    ScratchLookupNamed(ids);
  }

  lemma ScratchKeys(ids: seq<Uuid>)
    requires |ids| == 7
    ensures ScratchHeap(ids).Keys == Members(ids)
  {
    assert ids == [ids[0], ids[1], ids[2], ids[3], ids[4], ids[5], ids[6]];
  }

  lemma ScratchLookupLinks(ids: seq<Uuid>)
    requires ScratchIds(ids)
    ensures ScratchHeap(ids)[ids[0]] == RootNode(ids[1], ids[2], ids[3])
    ensures ScratchHeap(ids)[ids[1]] == MainGroupNode(ids[2], ids[6])
    ensures ScratchHeap(ids)[ids[3]] == ListNode(ids[4], ids[5])
  {
    ScratchLookupRoot(ids);
    ScratchLookupMain(ids);
    ScratchLookupList(ids);
  }

  lemma ScratchLookupRoot(ids: seq<Uuid>)
    requires ScratchIds(ids)
    ensures ScratchHeap(ids)[ids[0]] == RootNode(ids[1], ids[2], ids[3])
  {
    assert forall j :: 0 < j < 7 ==> ids[0] != ids[j];
  }

  lemma ScratchLookupMain(ids: seq<Uuid>)
    requires ScratchIds(ids)
    ensures ScratchHeap(ids)[ids[1]] == MainGroupNode(ids[2], ids[6])
  {
    assert forall j :: 1 < j < 7 ==> ids[1] != ids[j];
  }

  lemma ScratchLookupList(ids: seq<Uuid>)
    requires ScratchIds(ids)
    ensures ScratchHeap(ids)[ids[3]] == ListNode(ids[4], ids[5])
  {
    assert forall j :: 3 < j < 7 ==> ids[3] != ids[j];
  }

  lemma ScratchLookupNamed(ids: seq<Uuid>)
    requires ScratchIds(ids)
    ensures ScratchHeap(ids)[ids[2]] == NamedNode(GroupKind, "Products")
    ensures ScratchHeap(ids)[ids[4]] == NamedNode(BuildConfigurationKind, "Debug")
    ensures ScratchHeap(ids)[ids[5]] == NamedNode(BuildConfigurationKind, "Release")
    ensures ScratchHeap(ids)[ids[6]] == NamedNode(GroupKind, "Frameworks")
  {
  }

  /** Every object of a new project references only objects of the project
      and has each attribute at most once. */
  lemma ScratchNodeShape(ids: seq<Uuid>, u: Uuid)
    requires ScratchIds(ids) && u in ScratchHeap(ids)
    ensures Targets(ScratchHeap(ids)[u]) <= Members(ids)
    ensures UniqueKeys(ScratchHeap(ids)[u].attrs)
  {
    ScratchLookup(ids);
    var k :| 0 <= k < 7 && ids[k] == u;
    if k == 0 {
      RootTargets(ids[1], ids[2], ids[3]);
      RootUnique(ids[1], ids[2], ids[3]);
    } else if k == 1 {
      MainGroupNodeFacts(ids[2], ids[6]);
    } else if k == 2 {
      NamedNodeFacts(GroupKind, "Products");
    } else if k == 3 {
      ListNodeFacts(ids[4], ids[5]);
    } else if k == 4 {
      NamedNodeFacts(BuildConfigurationKind, "Debug");
    } else if k == 5 {
      NamedNodeFacts(BuildConfigurationKind, "Release");
    } else {
      NamedNodeFacts(GroupKind, "Frameworks");
    }
  }

  /** A new project is well formed once its identifiers are recorded. */
  lemma ScratchValid(ids: seq<Uuid>, gen: set<Uuid>)
    requires ScratchIds(ids) && Members(ids) <= gen
    ensures Valid(ScratchProject(ids, gen))
  {
    var h := ScratchHeap(ids);
    ScratchLookup(ids);
    forall u | u in h
      ensures Targets(h[u]) <= h.Keys && UniqueKeys(h[u].attrs)
    {
      ScratchNodeShape(ids, u);
    }
  }

  /** Every object of a new project is registered: each is reachable from the
      root through the main group or the configuration list. */
  lemma ScratchReach(ids: seq<Uuid>)
    requires ScratchIds(ids)
    ensures Reach(ScratchHeap(ids), ids[0]) == Members(ids)
  {
    ScratchKeys(ids);
    ScratchEdges(ids);
    SevenReached(ScratchHeap(ids), ids);
  }

  /** The links that make every object of a new project reachable. */
  lemma ScratchEdges(ids: seq<Uuid>)
    requires ScratchIds(ids)
    ensures ids[1] in Targets(ScratchHeap(ids)[ids[0]]) && ids[3] in Targets(ScratchHeap(ids)[ids[0]])
    ensures ids[2] in Targets(ScratchHeap(ids)[ids[1]]) && ids[6] in Targets(ScratchHeap(ids)[ids[1]])
    ensures ids[4] in Targets(ScratchHeap(ids)[ids[3]]) && ids[5] in Targets(ScratchHeap(ids)[ids[3]])
  {
    ScratchLookupLinks(ids);
    RootTargets(ids[1], ids[2], ids[3]);
    MainGroupNodeFacts(ids[2], ids[6]);
    ListNodeFacts(ids[4], ids[5]);
  }

  lemma SevenReached(h: Heap, ids: seq<Uuid>)
    requires |ids| == 7 && h.Keys == Members(ids)
    requires ids[1] in Targets(h[ids[0]]) && ids[3] in Targets(h[ids[0]])
    requires ids[2] in Targets(h[ids[1]]) && ids[6] in Targets(h[ids[1]])
    requires ids[4] in Targets(h[ids[3]]) && ids[5] in Targets(h[ids[3]])
    ensures Reach(h, ids[0]) == Members(ids)
  {
    var r := Reach(h, ids[0]);
    assert ids == [ids[0], ids[1], ids[2], ids[3], ids[4], ids[5], ids[6]];
    assert ids[0] in r;
    ClosedHas(h, r, ids[0], ids[1]);
    ClosedHas(h, r, ids[0], ids[3]);
    ClosedHas(h, r, ids[1], ids[2]);
    ClosedHas(h, r, ids[1], ids[6]);
    ClosedHas(h, r, ids[3], ids[4]);
    ClosedHas(h, r, ids[3], ids[5]);
  }

  // ---------------------------------------------------------------------
  // What a new project holds

  lemma ScratchRoots(ids: seq<Uuid>, gen: set<Uuid>)
    requires ScratchIds(ids)
    ensures MainGroup(ScratchProject(ids, gen)) == Some(ids[1])
    ensures ProductsGroup(ScratchProject(ids, gen)) == Some(ids[2])
    ensures ConfigurationList(ScratchProject(ids, gen)) == Some(ids[3])
  {
    ScratchKeys(ids);
    ScratchLookupLinks(ids);
    RootNodeLinks(ids[1], ids[2], ids[3]);
    assert ids[0] in ids;
  }

  lemma ScratchKinds(ids: seq<Uuid>)
    requires ScratchIds(ids)
    ensures ScratchHeap(ids)[ids[0]].kind == ProjectKind
    ensures ScratchHeap(ids)[ids[1]].kind == GroupKind
    ensures ScratchHeap(ids)[ids[2]].kind == GroupKind
    ensures ScratchHeap(ids)[ids[3]].kind == ConfigurationListKind
    ensures ScratchHeap(ids)[ids[4]].kind == BuildConfigurationKind
    ensures ScratchHeap(ids)[ids[5]].kind == BuildConfigurationKind
    ensures ScratchHeap(ids)[ids[6]].kind == GroupKind
  {
    ScratchLookupLinks(ids);
    ScratchLookupNamed(ids);
  }

  lemma ScratchNames(ids: seq<Uuid>)
    requires ScratchIds(ids)
    ensures NodeName(ScratchHeap(ids)[ids[0]]) == None
    ensures NodeName(ScratchHeap(ids)[ids[1]]) == None
    ensures NodeName(ScratchHeap(ids)[ids[3]]) == None
    ensures NodeName(ScratchHeap(ids)[ids[2]]) == Some("Products")
    ensures NodeName(ScratchHeap(ids)[ids[4]]) == Some("Debug")
    ensures NodeName(ScratchHeap(ids)[ids[5]]) == Some("Release")
    ensures NodeName(ScratchHeap(ids)[ids[6]]) == Some("Frameworks")
  {
    ScratchLookupLinks(ids);
    ScratchLookupNamed(ids);
    RootNodeLinks(ids[1], ids[2], ids[3]);
    MainGroupNodeFacts(ids[2], ids[6]);
    ListNodeFacts(ids[4], ids[5]);
    NamedNodeFacts(GroupKind, "Products");
    NamedNodeFacts(BuildConfigurationKind, "Debug");
    NamedNodeFacts(BuildConfigurationKind, "Release");
    NamedNodeFacts(GroupKind, "Frameworks");
  }

  lemma KindLabels()
    ensures KindLabel(ProjectKind) == "Project"
    ensures KindLabel(ConfigurationListKind) == "ConfigurationList"
  {
    assert ProjectKind[..3] == "PBX";
    assert ConfigurationListKind[..3] != "PBX" by { assert ConfigurationListKind[0] != 'P'; }
    assert ConfigurationListKind[..2] == "XC";
  }

  lemma ScratchDisplay(ids: seq<Uuid>, gen: set<Uuid>)
    requires ScratchIds(ids)
    ensures Members(ids) <= ScratchHeap(ids).Keys
    ensures ids[0] in ScratchHeap(ids) && ids[1] in ScratchHeap(ids) && ids[2] in ScratchHeap(ids)
    ensures ids[3] in ScratchHeap(ids) && ids[4] in ScratchHeap(ids) && ids[5] in ScratchHeap(ids)
    ensures ids[6] in ScratchHeap(ids)
    ensures DisplayName(ScratchProject(ids, gen), ids[0]) == "Project"
    ensures DisplayName(ScratchProject(ids, gen), ids[1]) == "Main Group"
    ensures DisplayName(ScratchProject(ids, gen), ids[2]) == "Products"
    ensures DisplayName(ScratchProject(ids, gen), ids[3]) == "ConfigurationList"
    ensures DisplayName(ScratchProject(ids, gen), ids[4]) == "Debug"
    ensures DisplayName(ScratchProject(ids, gen), ids[5]) == "Release"
    ensures DisplayName(ScratchProject(ids, gen), ids[6]) == "Frameworks"
  {
    ScratchKeys(ids);
    ScratchRoots(ids, gen);
    ScratchKinds(ids);
    ScratchNames(ids);
    KindLabels();
    var p := ScratchProject(ids, gen);
    DisplayUnnamed(p, ids[0]);
    DisplayUnnamed(p, ids[1]);
    DisplayUnnamed(p, ids[3]);
    DisplayNamed(p, ids[2], "Products");
    DisplayNamed(p, ids[4], "Debug");
    DisplayNamed(p, ids[5], "Release");
    DisplayNamed(p, ids[6], "Frameworks");
  }

  lemma DisplayNamed(p: Project, u: Uuid, s: string)
    requires u in p.heap && NodeName(p.heap[u]) == Some(s) && s != ""
    ensures DisplayName(p, u) == s
  {
  }

  lemma DisplayUnnamed(p: Project, u: Uuid)
    requires u in p.heap && NodeName(p.heap[u]) == None
    ensures DisplayName(p, u) == if MainGroup(p) == Some(u) then "Main Group" else KindLabel(p.heap[u].kind)
  {
  }

  /** The display names of seven objects are the seven display names. */
  lemma SevenDisplayNames(p: Project, ids: seq<Uuid>)
    requires |ids| == 7 && Members(ids) <= p.heap.Keys
    ensures ids[0] in p.heap && ids[1] in p.heap && ids[2] in p.heap && ids[3] in p.heap
    ensures ids[4] in p.heap && ids[5] in p.heap && ids[6] in p.heap
    ensures DisplayNames(p, Members(ids)) ==
      {DisplayName(p, ids[0]), DisplayName(p, ids[1]), DisplayName(p, ids[2]), DisplayName(p, ids[3]),
       DisplayName(p, ids[4]), DisplayName(p, ids[5]), DisplayName(p, ids[6])}
  {
    assert ids == [ids[0], ids[1], ids[2], ids[3], ids[4], ids[5], ids[6]];
  }

  lemma SevenCount(g: set<Uuid>, e: set<Uuid>)
    requires g !! e && |g + e| == |g| + 7
    ensures |e| == 7
  {
  }

  lemma SevenElements(ids: seq<Uuid>)
    requires |ids| == 7
    ensures Members(ids) == {ids[0], ids[1], ids[2], ids[3], ids[4], ids[5], ids[6]}
  {
    assert ids == [ids[0], ids[1], ids[2], ids[3], ids[4], ids[5], ids[6]];
  }

  /** The groups of a new project: the main group and its two children. */
  lemma SevenGroups(p: Project, ids: seq<Uuid>)
    requires |ids| == 7 && Objects(p) == Members(ids) && Members(ids) <= p.heap.Keys
    requires p.heap[ids[0]].kind == ProjectKind
    requires p.heap[ids[1]].kind == GroupKind
    requires p.heap[ids[2]].kind == GroupKind
    requires p.heap[ids[3]].kind == ConfigurationListKind
    requires p.heap[ids[4]].kind == BuildConfigurationKind
    requires p.heap[ids[5]].kind == BuildConfigurationKind
    requires p.heap[ids[6]].kind == GroupKind
    ensures ListByKind(p, GroupKind) == {ids[1], ids[2], ids[6]}
  {
    SevenElements(ids);
  }

  lemma ThreeDistinct(a: Uuid, b: Uuid, c: Uuid)
    requires a != b && a != c && b != c
    ensures |{a, b, c}| == 3
  {
  }

  lemma ThreeDisplayNames(p: Project, a: Uuid, b: Uuid, c: Uuid)
    requires a in p.heap && b in p.heap && c in p.heap
    ensures DisplayNames(p, {a, b, c}) == {DisplayName(p, a), DisplayName(p, b), DisplayName(p, c)}
  {
  }

  /** The groups among two children that are both groups are those two. */
  lemma GroupsOfPair(p: Project, m: Uuid, a: Uuid, b: Uuid)
    requires MainGroup(p) == Some(m) && m in p.heap
    requires RefList(p.heap[m], "children") == [a, b]
    requires a in p.heap && p.heap[a].kind == GroupKind
    requires b in p.heap && p.heap[b].kind == GroupKind
    ensures Groups(p) == [a, b]
  {
    assert [a, b][1..] == [b];
    assert GroupsAmong(p.heap, [b]) == [b];
  }

  /** A configuration list holding two configurations named Debug and Release. */
  lemma ListedPair(p: Project, l: Uuid, d: Uuid, r: Uuid)
    requires ConfigurationList(p) == Some(l) && l in p.heap
    requires p.heap[l].kind == ConfigurationListKind
    requires ListSlot(p.heap[l], "buildConfigurations")
    requires RefList(p.heap[l], "buildConfigurations") == [d, r]
    requires d in p.heap && p.heap[d].kind == BuildConfigurationKind && NodeName(p.heap[d]) == Some("Debug")
    requires r in p.heap && p.heap[r].kind == BuildConfigurationKind && NodeName(p.heap[r]) == Some("Release")
    ensures HasConfigurationList(p)
    ensures Configurations(p) == [d, r]
    ensures ConfigurationNames(p) == [Some("Debug"), Some("Release")]
  {
  }

  // ---------------------------------------------------------------------
  // Properties of a new project

  /** A new project is well formed and registers exactly its seven objects,
      each under a fresh identifier that the registry records. */
  lemma NewProjectObjects(reg: Registry)
    requires |reg.generated| + 7 <= Space
    ensures Valid(NewProject(reg))
    ensures Objects(NewProject(reg)) == NewProject(reg).heap.Keys
    ensures |Objects(NewProject(reg))| == 7
    ensures NewProject(reg).registry.generated == reg.generated + Objects(NewProject(reg))
    ensures forall u :: u in Objects(NewProject(reg)) ==> IsUuid(u) && |u| == 24 && u !in reg.generated
    ensures NewProject(reg).root in ObjectsByUuid(NewProject(reg))
  {
    var ids := ScratchIdsOf(reg);
    var gen := reg.generated + Members(ids);
    ScratchKeys(ids);
    ScratchValid(ids, gen);
    ScratchReach(ids);
    assert reg.generated !! Members(ids);
    SevenCount(reg.generated, Members(ids));
  }

  /** The objects of a new project display as Project, Main Group,
      Products, Frameworks, ConfigurationList, Debug and Release. */
  lemma NewProjectDisplayNames(reg: Registry)
    requires |reg.generated| + 7 <= Space
    ensures DisplayNames(NewProject(reg), Objects(NewProject(reg))) ==
      {"ConfigurationList", "Debug", "Frameworks", "Main Group", "Products", "Project", "Release"}
  {
    var ids := ScratchIdsOf(reg);
    ScratchDisplayNames(ids, reg.generated + Members(ids));
  }

  lemma ScratchDisplayNames(ids: seq<Uuid>, gen: set<Uuid>)
    requires ScratchIds(ids)
    ensures DisplayNames(ScratchProject(ids, gen), Objects(ScratchProject(ids, gen))) ==
      {"ConfigurationList", "Debug", "Frameworks", "Main Group", "Products", "Project", "Release"}
  {
    var p := ScratchProject(ids, gen);
    ScratchKeys(ids);
    ScratchReach(ids);
    assert Objects(p) == Members(ids);
    ScratchDisplay(ids, gen);
    SevenDisplayNames(p, ids);
  }

  /** The groups of a new project are three: the main group, the products
      group and the frameworks group. */
  lemma NewProjectGroups(reg: Registry)
    requires |reg.generated| + 7 <= Space
    ensures |ListByKind(NewProject(reg), GroupKind)| == 3
    ensures DisplayNames(NewProject(reg), ListByKind(NewProject(reg), GroupKind)) ==
      {"Frameworks", "Main Group", "Products"}
  {
    var ids := ScratchIdsOf(reg);
    ScratchGroups(ids, reg.generated + Members(ids));
  }

  lemma ScratchGroups(ids: seq<Uuid>, gen: set<Uuid>)
    requires ScratchIds(ids)
    ensures |ListByKind(ScratchProject(ids, gen), GroupKind)| == 3
    ensures DisplayNames(ScratchProject(ids, gen), ListByKind(ScratchProject(ids, gen), GroupKind)) ==
      {"Frameworks", "Main Group", "Products"}
  {
    var p := ScratchProject(ids, gen);
    ScratchKeys(ids);
    ScratchReach(ids);
    ScratchKinds(ids);
    SevenGroups(p, ids);
    ThreeDistinct(ids[1], ids[2], ids[6]);
    ScratchDisplay(ids, gen);
    NamedTriple(p, ids[1], ids[2], ids[6]);
  }

  lemma NamedTriple(p: Project, a: Uuid, b: Uuid, c: Uuid)
    requires a in p.heap && b in p.heap && c in p.heap
    requires DisplayName(p, a) == "Main Group"
    requires DisplayName(p, b) == "Products"
    requires DisplayName(p, c) == "Frameworks"
    ensures DisplayNames(p, {a, b, c}) == {"Frameworks", "Main Group", "Products"}
  {
    ThreeDisplayNames(p, a, b, c);
  }

  /** The groups of a new project's main group are the products group and
      then the frameworks group. */
  lemma NewProjectGroupOrder(reg: Registry)
    requires |reg.generated| + 7 <= Space
    ensures DisplayNameList(NewProject(reg), Groups(NewProject(reg))) == ["Products", "Frameworks"]
  {
    var ids := ScratchIdsOf(reg);
    ScratchGroupOrder(ids, reg.generated + Members(ids));
  }

  lemma ScratchGroupOrder(ids: seq<Uuid>, gen: set<Uuid>)
    requires ScratchIds(ids)
    ensures DisplayNameList(ScratchProject(ids, gen), Groups(ScratchProject(ids, gen))) == ["Products", "Frameworks"]
  {
    ScratchChildren(ids, gen);
    ScratchDisplay(ids, gen);
    NamedPair(ScratchProject(ids, gen), ids[2], ids[6]);
  }

  lemma NamedPair(p: Project, a: Uuid, b: Uuid)
    requires a in p.heap && b in p.heap
    requires DisplayName(p, a) == "Products" && DisplayName(p, b) == "Frameworks"
    ensures DisplayNameList(p, [a, b]) == ["Products", "Frameworks"]
  {
  }

  /** The main group's children are the products group and then the
      frameworks group, both groups. */
  lemma ScratchChildren(ids: seq<Uuid>, gen: set<Uuid>)
    requires ScratchIds(ids)
    ensures ids[1] in ScratchHeap(ids)
    ensures RefList(ScratchHeap(ids)[ids[1]], "children") == [ids[2], ids[6]]
    ensures Groups(ScratchProject(ids, gen)) == [ids[2], ids[6]]
  {
    ScratchKeys(ids);
    ScratchRoots(ids, gen);
    ScratchKinds(ids);
    ScratchMainChildren(ids);
    GroupsOfPair(ScratchProject(ids, gen), ids[1], ids[2], ids[6]);
  }

  lemma ScratchMainChildren(ids: seq<Uuid>)
    requires ScratchIds(ids)
    ensures ids[1] in ScratchHeap(ids)
    ensures RefList(ScratchHeap(ids)[ids[1]], "children") == [ids[2], ids[6]]
  {
    ScratchKeys(ids);
    ScratchLookupLinks(ids);
    MainGroupNodeFacts(ids[2], ids[6]);
  }

  /** The main group, the products group and the frameworks group of a new
      project are groups, and the products group sits in the main group's
      children. */
  lemma NewProjectMainGroup(reg: Registry)
    requires |reg.generated| + 7 <= Space
    ensures MainGroup(NewProject(reg)).Some? && MainGroup(NewProject(reg)).value in NewProject(reg).heap
    ensures NewProject(reg).heap[MainGroup(NewProject(reg)).value].kind == GroupKind
    ensures ProductsGroup(NewProject(reg)).Some?
    ensures ProductsGroup(NewProject(reg)).value in NewProject(reg).heap
    ensures NewProject(reg).heap[ProductsGroup(NewProject(reg)).value].kind == GroupKind
    ensures ProductsGroup(NewProject(reg)).value in RefList(NewProject(reg).heap[MainGroup(NewProject(reg)).value], "children")
    ensures FrameworksGroup(NewProject(reg)).Some?
    ensures FrameworksGroup(NewProject(reg)).value in NewProject(reg).heap
    ensures NewProject(reg).heap[FrameworksGroup(NewProject(reg)).value].kind == GroupKind
  {
    var ids := ScratchIdsOf(reg);
    ScratchMainGroup(ids, reg.generated + Members(ids));
  }

  lemma ScratchMainGroup(ids: seq<Uuid>, gen: set<Uuid>)
    requires ScratchIds(ids)
    ensures MainGroup(ScratchProject(ids, gen)) == Some(ids[1]) && ids[1] in ScratchHeap(ids)
    ensures ScratchHeap(ids)[ids[1]].kind == GroupKind
    ensures ProductsGroup(ScratchProject(ids, gen)) == Some(ids[2])
    ensures ids[2] in ScratchHeap(ids) && ScratchHeap(ids)[ids[2]].kind == GroupKind
    ensures ids[2] in RefList(ScratchHeap(ids)[ids[1]], "children")
    ensures FrameworksGroup(ScratchProject(ids, gen)) == Some(ids[6])
    ensures ids[6] in ScratchHeap(ids) && ScratchHeap(ids)[ids[6]].kind == GroupKind
  {
    ScratchKeys(ids);
    ScratchRoots(ids, gen);
    ScratchKinds(ids);
    ScratchMainChildren(ids);
    ScratchFrameworks(ids, gen);
  }

  lemma ScratchFrameworks(ids: seq<Uuid>, gen: set<Uuid>)
    requires ScratchIds(ids)
    ensures ids[1] in ScratchHeap(ids)
    ensures ChildNamed(ScratchProject(ids, gen), ids[1], "Frameworks") == Some(ids[6])
  {
    ScratchKeys(ids);
    ScratchChildren(ids, gen);
    ScratchNames(ids);
    var h := ScratchHeap(ids);
    assert NameOf(h, ids[2]) == Some("Products");
    assert NameOf(h, ids[6]) == Some("Frameworks");
  }

  /** A new project's configuration list holds Debug then Release, shows
      Release by default, and hides itself. */
  lemma NewProjectConfigurations(reg: Registry)
    requires |reg.generated| + 7 <= Space
    ensures HasConfigurationList(NewProject(reg))
    ensures ConfigurationNames(NewProject(reg)) == [Some("Debug"), Some("Release")]
    ensures var l := ConfigurationList(NewProject(reg)).value;
            && Get(NewProject(reg).heap[l].attrs, "defaultConfigurationName") == Some(Str("Release"))
            && Get(NewProject(reg).heap[l].attrs, "defaultConfigurationIsVisible") == Some(Str("0"))
  {
    var ids := ScratchIdsOf(reg);
    var gen := reg.generated + Members(ids);
    ScratchConfigurations(ids, gen);
  }

  lemma ScratchConfigurations(ids: seq<Uuid>, gen: set<Uuid>)
    requires ScratchIds(ids)
    ensures HasConfigurationList(ScratchProject(ids, gen))
    ensures ConfigurationNames(ScratchProject(ids, gen)) == [Some("Debug"), Some("Release")]
    ensures var l := ConfigurationList(ScratchProject(ids, gen)).value;
            && Get(ScratchHeap(ids)[l].attrs, "defaultConfigurationName") == Some(Str("Release"))
            && Get(ScratchHeap(ids)[l].attrs, "defaultConfigurationIsVisible") == Some(Str("0"))
  {
    ScratchKeys(ids);
    ScratchRoots(ids, gen);
    ScratchKinds(ids);
    ScratchNames(ids);
    ScratchListNode(ids);
    ListedPair(ScratchProject(ids, gen), ids[3], ids[4], ids[5]);
  }

  lemma ScratchListNode(ids: seq<Uuid>)
    requires ScratchIds(ids)
    ensures ids[3] in ScratchHeap(ids)
    ensures ListSlot(ScratchHeap(ids)[ids[3]], "buildConfigurations")
    ensures RefList(ScratchHeap(ids)[ids[3]], "buildConfigurations") == [ids[4], ids[5]]
    ensures Get(ScratchHeap(ids)[ids[3]].attrs, "defaultConfigurationName") == Some(Str("Release"))
    ensures Get(ScratchHeap(ids)[ids[3]].attrs, "defaultConfigurationIsVisible") == Some(Str("0"))
  {
    ScratchKeys(ids);
    ScratchLookupLinks(ids);
    ListNodeFacts(ids[4], ids[5]);
  }
}

=== FILE: seqs.dfy ===
/** Order-preserving filtering of sequences, shared by reference stripping
    and by the differ's list comparison. */
module Seqs {
  /** The elements xs holds, as a set. */
  function Members<T(!new)>(xs: seq<T>): (s: set<T>)
    ensures forall t :: t in s <==> t in xs
  {
    set t | t in xs
  }

  /** r can be read off xs by skipping some of its elements: r keeps the
      order xs gives its elements. */
  predicate Subsequence<T(==)>(r: seq<T>, xs: seq<T>)
    decreases |xs|
  {
    r == [] || (xs != [] && |r| <= |xs| &&
      if r[0] == xs[0] then Subsequence(r[1..], xs[1..]) else Subsequence(r, xs[1..]))
  }

  /** The elements of xs outside d, in order: every occurrence of an
      element outside d is kept, every occurrence of one inside d dropped. */
  function Without<T(!new)>(xs: seq<T>, d: set<T>): (r: seq<T>)
    ensures forall t :: t in r <==> t in xs && t !in d
    ensures forall t :: multiset(r)[t] == if t in d then 0 else multiset(xs)[t]
    ensures Subsequence(r, xs)
    ensures |r| <= |xs|
  {
    if xs == [] then []
    else
      var rest := Without(xs[1..], d);
      assert xs == [xs[0]] + xs[1..];
      assert forall t :: t in xs <==> t == xs[0] || t in xs[1..];
      assert multiset(xs) == multiset{xs[0]} + multiset(xs[1..]);
      if xs[0] in d then
        assert rest == [] || rest[0] != xs[0] by {
          if rest != [] { assert rest[0] in rest; }
        }
        rest
      else
        assert ([xs[0]] + rest)[1..] == rest;
        [xs[0]] + rest
  }

  /** Nothing is left when d holds every element. */
  lemma {:induction false} WithoutAll<T(!new)>(xs: seq<T>, d: set<T>)
    requires forall t :: t in xs ==> t in d
    ensures Without(xs, d) == []
  {
    if xs != [] {
      assert xs[0] in xs;
      WithoutAll(xs[1..], d);
    }
  }

  /** Filtering works element by element, so it distributes over
      concatenation. */
  lemma {:induction false} WithoutConcat<T(!new)>(xs: seq<T>, ys: seq<T>, d: set<T>)
    ensures Without(xs + ys, d) == Without(xs, d) + Without(ys, d)
    decreases |xs|
  {
    if xs == [] {
      assert xs + ys == ys;
    } else {
      assert (xs + ys)[1..] == xs[1..] + ys;
      WithoutConcat(xs[1..], ys, d);
    }
  }
}

=== FILE: sorting.dfy ===
/** Sorting a project: every group's children, the root's targets and every
    configuration list's build configurations are put in ascending order of
    their display names.  The order among objects with equal names is kept,
    nothing but the order of those lists changes, and sorting twice is
    sorting once. */
module Sorting {
  import opened Wrappers
  import opened Graph
  import opened Schema
  import opened Projects
  import opened Builders

  // ---------------------------------------------------------------------
  // Text order

  /** Lexicographic order on text, by code point. */
  predicate TextLe(a: string, b: string) {
    a == [] || (b != [] && (a[0] < b[0] || (a[0] == b[0] && TextLe(a[1..], b[1..]))))
  }

  lemma {:induction false} TextLeRefl(a: string)
    ensures TextLe(a, a)
  {
    if a != [] {
      TextLeRefl(a[1..]);
    }
  }

  lemma {:induction false} TextLeTotal(a: string, b: string)
    ensures TextLe(a, b) || TextLe(b, a)
  {
    if a != [] && b != [] && a[0] == b[0] {
      TextLeTotal(a[1..], b[1..]);
    }
  }

  lemma {:induction false} TextLeTrans(a: string, b: string, c: string)
    requires TextLe(a, b) && TextLe(b, c)
    ensures TextLe(a, c)
  {
    if a != [] && b != [] && c != [] && a[0] == b[0] && b[0] == c[0] {
      TextLeTrans(a[1..], b[1..], c[1..]);
    }
  }

  lemma {:induction false} TextLeAntisym(a: string, b: string)
    requires TextLe(a, b) && TextLe(b, a)
    ensures a == b
  {
    if a != [] && b != [] {
      TextLeAntisym(a[1..], b[1..]);
      assert a == [a[0]] + a[1..] && b == [b[0]] + b[1..];
    }
  }

  // ---------------------------------------------------------------------
  // Sorting a list of references

  /** The sort key of each object; objects without one sort as empty text. */
  type Names = map<Uuid, string>

  function KeyOf(k: Names, u: Uuid): string {
    if u in k then k[u] else ""
  }

  /** Each object's display name. */
  function NameMap(p: Project): (k: Names)
    ensures k.Keys == p.heap.Keys
  {
    map u | u in p.heap :: DisplayName(p, u)
  }

  predicate SortedBy(k: Names, ts: seq<Uuid>) {
    forall i :: 0 < i < |ts| ==> TextLe(KeyOf(k, ts[i - 1]), KeyOf(k, ts[i]))
  }

  /** Inserts u before the first member whose key is not below u's. */
  function Insert(k: Names, u: Uuid, ts: seq<Uuid>): (r: seq<Uuid>)
    ensures multiset(r) == multiset(ts) + multiset{u}
    ensures |r| == |ts| + 1
    ensures r[0] == u || (ts != [] && r[0] == ts[0])
    ensures SortedBy(k, ts) ==> SortedBy(k, r)
  {
    if ts == [] then [u]
    else if TextLe(KeyOf(k, u), KeyOf(k, ts[0])) then
      assert SortedBy(k, ts) ==> SortedBy(k, [u] + ts) by {
        if SortedBy(k, ts) {
          var r := [u] + ts;
          forall i | 0 < i < |r| ensures TextLe(KeyOf(k, r[i - 1]), KeyOf(k, r[i])) {
            if i > 1 {
              assert r[i - 1] == ts[i - 2] && r[i] == ts[i - 1];
            }
          }
        }
      }
      [u] + ts
    else
      var rest := Insert(k, u, ts[1..]);
      assert ts == [ts[0]] + ts[1..];
      assert SortedBy(k, ts) ==> SortedBy(k, [ts[0]] + rest) by {
        if SortedBy(k, ts) {
          TextLeTotal(KeyOf(k, u), KeyOf(k, ts[0]));
          InsertStep(k, u, ts, rest);
        }
      }
      [ts[0]] + rest
  }

  lemma InsertStep(k: Names, u: Uuid, ts: seq<Uuid>, rest: seq<Uuid>)
    requires ts != [] && SortedBy(k, ts) && SortedBy(k, rest) && rest != []
    requires TextLe(KeyOf(k, ts[0]), KeyOf(k, u))
    requires rest[0] == u || (|ts| > 1 && rest[0] == ts[1])
    ensures SortedBy(k, [ts[0]] + rest)
  {
    var r := [ts[0]] + rest;
    forall i | 0 < i < |r| ensures TextLe(KeyOf(k, r[i - 1]), KeyOf(k, r[i])) {
      if i > 1 {
        assert r[i - 1] == rest[i - 2] && r[i] == rest[i - 1];
      }
    }
  }

  /** Stable insertion sort of a reference list by key. */
  function SortRefs(k: Names, ts: seq<Uuid>): (r: seq<Uuid>)
    ensures multiset(r) == multiset(ts)
    ensures |r| == |ts|
    ensures SortedBy(k, r)
  {
    if ts == [] then []
    else
      assert ts == [ts[0]] + ts[1..];
      Insert(k, ts[0], SortRefs(k, ts[1..]))
  }

  /** The members of ts whose key is v, in their order in ts. */
  function WithKey(k: Names, v: string, ts: seq<Uuid>): (r: seq<Uuid>)
    ensures forall u :: u in r ==> u in ts && KeyOf(k, u) == v
  {
    if ts == [] then []
    else (if KeyOf(k, ts[0]) == v then [ts[0]] else []) + WithKey(k, v, ts[1..])
  }

  /** Inserting u adds it in front of the members that share its key: it
      passes only members whose key is below its own. */
  lemma {:induction false} InsertWithKey(k: Names, v: string, u: Uuid, ts: seq<Uuid>)
    ensures WithKey(k, v, Insert(k, u, ts)) == (if KeyOf(k, u) == v then [u] else []) + WithKey(k, v, ts)
  {
    if ts == [] || TextLe(KeyOf(k, u), KeyOf(k, ts[0])) {
      InsertFront(k, u, ts);
      WithKeyCons(k, v, u, ts);
    } else {
      var t := ts[0];
      var tail := ts[1..];
      assert ts == [t] + tail;
      InsertAfter(k, u, t, tail);
      InsertWithKey(k, v, u, tail);
      TextLeRefl(KeyOf(k, u));
      WithKeyPassed(k, v, u, t, tail);
    }
  }

  /** Inserting u behind t, whose key differs from u's, adds u to the
      members with u's key and leaves those with t's key alone. */
  lemma WithKeyPassed(k: Names, v: string, u: Uuid, t: Uuid, tail: seq<Uuid>)
    requires KeyOf(k, u) != KeyOf(k, t)
    requires WithKey(k, v, Insert(k, u, tail)) == (if KeyOf(k, u) == v then [u] else []) + WithKey(k, v, tail)
    ensures WithKey(k, v, [t] + Insert(k, u, tail))
         == (if KeyOf(k, u) == v then [u] else []) + WithKey(k, v, [t] + tail)
  {
    WithKeyCons(k, v, t, Insert(k, u, tail));
    WithKeyCons(k, v, t, tail);
    if KeyOf(k, u) == v {
      assert WithKey(k, v, [t] + tail) == WithKey(k, v, tail);
    } else {
      assert WithKey(k, v, Insert(k, u, tail)) == WithKey(k, v, tail);
    }
  }

  lemma WithKeyCons(k: Names, v: string, t: Uuid, ts: seq<Uuid>)
    ensures WithKey(k, v, [t] + ts) == (if KeyOf(k, t) == v then [t] else []) + WithKey(k, v, ts)
  {
    assert ([t] + ts)[1..] == ts;
  }

  /** The sort is stable: the members that share any one key come out in
      the order they went in, so of two objects with equal names the
      earlier stays earlier. */
  lemma {:induction false} SortStable(k: Names, v: string, ts: seq<Uuid>)
    ensures WithKey(k, v, SortRefs(k, ts)) == WithKey(k, v, ts)
  {
    if ts != [] {
      SortStable(k, v, ts[1..]);
      InsertWithKey(k, v, ts[0], SortRefs(k, ts[1..]));
    }
  }

  /** An already sorted list is left as it is. */
  lemma {:induction false} SortRefsSorted(k: Names, ts: seq<Uuid>)
    requires SortedBy(k, ts)
    ensures SortRefs(k, ts) == ts
  {
    if ts != [] {
      var tail := ts[1..];
      SortedTail(k, ts);
      SortRefsSorted(k, tail);
      InsertFront(k, ts[0], tail);
      assert [ts[0]] + tail == ts;
    }
  }

  lemma SortedTail(k: Names, ts: seq<Uuid>)
    requires ts != [] && SortedBy(k, ts)
    ensures SortedBy(k, ts[1..])
    ensures |ts| > 1 ==> TextLe(KeyOf(k, ts[0]), KeyOf(k, ts[1]))
  {
    var tail := ts[1..];
    forall i | 0 < i < |tail| ensures TextLe(KeyOf(k, tail[i - 1]), KeyOf(k, tail[i])) {
      assert tail[i - 1] == ts[i] && tail[i] == ts[i + 1];
    }
  }

  lemma InsertFront(k: Names, u: Uuid, ts: seq<Uuid>)
    requires ts == [] || TextLe(KeyOf(k, u), KeyOf(k, ts[0]))
    ensures Insert(k, u, ts) == [u] + ts
  {
  }

  /** Sorting is idempotent. */
  lemma SortRefsIdempotent(k: Names, ts: seq<Uuid>)
    ensures SortRefs(k, SortRefs(k, ts)) == SortRefs(k, ts)
  {
    SortRefsSorted(k, SortRefs(k, ts));
  }

  /** The configuration list Debug, Release, B, A sorts to A, B, Debug,
      Release. */
  lemma SortConfigurations(k: Names, d: Uuid, r: Uuid, b: Uuid, a: Uuid)
    requires d in k && r in k && b in k && a in k
    requires k[d] == "Debug" && k[r] == "Release" && k[b] == "B" && k[a] == "A"
    ensures SortRefs(k, [d, r, b, a]) == [a, b, d, r]
  {
    ConfigurationOrder();
    SortFour(k, d, r, b, a);
    InsertLast(k, b, a);
    InsertLastOfTwo(k, r, a, b);
    InsertThird(k, d, a, b, r);
  }

  lemma InsertLast(k: Names, u: Uuid, t: Uuid)
    requires !TextLe(KeyOf(k, u), KeyOf(k, t))
    ensures Insert(k, u, [t]) == [t, u]
  {
    InsertAfter(k, u, t, []);
    assert [t] + [] == [t];
  }

  lemma InsertLastOfTwo(k: Names, u: Uuid, t1: Uuid, t2: Uuid)
    requires !TextLe(KeyOf(k, u), KeyOf(k, t1)) && !TextLe(KeyOf(k, u), KeyOf(k, t2))
    ensures Insert(k, u, [t1, t2]) == [t1, t2, u]
  {
    InsertAfter(k, u, t1, [t2]);
    InsertLast(k, u, t2);
    assert [t1] + [t2] == [t1, t2];
  }

  lemma InsertThird(k: Names, u: Uuid, t1: Uuid, t2: Uuid, t3: Uuid)
    requires !TextLe(KeyOf(k, u), KeyOf(k, t1)) && !TextLe(KeyOf(k, u), KeyOf(k, t2))
    requires TextLe(KeyOf(k, u), KeyOf(k, t3))
    ensures Insert(k, u, [t1, t2, t3]) == [t1, t2, u, t3]
  {
    var ts := [t2, t3];
    assert [t1, t2, t3] == [t1] + ts;
    InsertAfter(k, u, t1, ts);
    InsertSecond(k, u, t2, t3);
    ConsFour(t1, t2, u, t3);
  }

  lemma ConsFour(a: Uuid, b: Uuid, c: Uuid, d: Uuid)
    ensures [a] + [b, c, d] == [a, b, c, d]
  {
  }

  lemma InsertSecond(k: Names, u: Uuid, t2: Uuid, t3: Uuid)
    requires !TextLe(KeyOf(k, u), KeyOf(k, t2)) && TextLe(KeyOf(k, u), KeyOf(k, t3))
    ensures Insert(k, u, [t2, t3]) == [t2, u, t3]
  {
    InsertAfter(k, u, t2, [t3]);
    InsertFront(k, u, [t3]);
    assert [t2] + [t3] == [t2, t3];
  }

  lemma ConfigurationOrder()
    ensures !TextLe("B", "A") && !TextLe("Release", "A") && !TextLe("Release", "B")
    ensures !TextLe("Debug", "A") && !TextLe("Debug", "B") && TextLe("Debug", "Release")
  {
  }

  lemma SortFour(k: Names, d: Uuid, r: Uuid, b: Uuid, a: Uuid)
    ensures SortRefs(k, [d, r, b, a]) == Insert(k, d, Insert(k, r, Insert(k, b, [a])))
  {
    assert [d, r, b, a][1..] == [r, b, a] && [r, b, a][1..] == [b, a] && [b, a][1..] == [a];
    assert SortRefs(k, [a]) == [a] by {
      assert [a][1..] == [];
    }
    var s3 := SortRefs(k, [b, a]);
    assert s3 == Insert(k, b, [a]);
    var s2 := SortRefs(k, [r, b, a]);
    assert s2 == Insert(k, r, s3);
  }

  lemma InsertAfter(k: Names, u: Uuid, t: Uuid, ts: seq<Uuid>)
    requires !TextLe(KeyOf(k, u), KeyOf(k, t))
    ensures Insert(k, u, [t] + ts) == [t] + Insert(k, u, ts)
  {
    assert ([t] + ts)[1..] == ts;
  }

  lemma MultisetSameSet(a: seq<Uuid>, b: seq<Uuid>)
    requires multiset(a) == multiset(b)
    ensures (set t | t in a) == (set t | t in b)
  {
    forall t ensures t in a <==> t in b {
      assert t in a <==> t in multiset(a);
      assert t in b <==> t in multiset(b);
    }
  }

  // ---------------------------------------------------------------------
  // Sorting the lists of one object

  function SortAttr(k: Names, sorted: seq<string>, a: Attr): (r: Attr)
    ensures r.key == a.key
    ensures ValueTargets(r.value) == ValueTargets(a.value)
  {
    match a.value
    case Refs(ts) =>
      if a.key in sorted then
        MultisetSameSet(SortRefs(k, ts), ts);
        Attr(a.key, Refs(SortRefs(k, ts)))
      else a
    case _ => a
  }

  function SortAttrs(k: Names, sorted: seq<string>, attrs: seq<Attr>): (r: seq<Attr>)
    ensures |r| == |attrs|
    ensures forall i :: 0 <= i < |r| ==> r[i] == SortAttr(k, sorted, attrs[i])
  {
    if attrs == [] then [] else [SortAttr(k, sorted, attrs[0])] + SortAttrs(k, sorted, attrs[1..])
  }

  /** Sorting a list keeps its keys, references and lookups, except that a
      sorted to-many slot comes back sorted. */
  lemma {:induction false} SortAttrsFacts(k: Names, sorted: seq<string>, attrs: seq<Attr>)
    ensures Keys(SortAttrs(k, sorted, attrs)) == Keys(attrs)
    ensures AttrTargets(SortAttrs(k, sorted, attrs)) == AttrTargets(attrs)
    ensures UniqueKeys(attrs) ==> UniqueKeys(SortAttrs(k, sorted, attrs))
    ensures forall key :: Get(SortAttrs(k, sorted, attrs), key) == SortGet(k, sorted, Get(attrs, key), key)
  {
    if attrs != [] {
      var a := attrs[0];
      var b := SortAttr(k, sorted, a);
      var rest := SortAttrs(k, sorted, attrs[1..]);
      SortAttrsFacts(k, sorted, attrs[1..]);
      assert SortAttrs(k, sorted, attrs) == [b] + rest;
      assert attrs == [a] + attrs[1..];
      ConcatAttrs([a], attrs[1..]);
      ConcatAttrs([b], rest);
      SingleAttr(a);
      SingleAttr(b);
      forall key ensures Get([b] + rest, key) == SortGet(k, sorted, Get(attrs, key), key) {
        GetConcat([b], rest, key);
        GetConcat([a], attrs[1..], key);
      }
    }
  }

  /** What a lookup returns once its slot is sorted. */
  function SortGet(k: Names, sorted: seq<string>, v: Option<Value>, key: string): Option<Value> {
    match v
    case Some(x) => Some(SortAttr(k, sorted, Attr(key, x)).value)
    case None => None
  }

  function SortNode(k: Names, n: Node): (r: Node)
    ensures r.kind == n.kind
  {
    Node(n.kind, SortAttrs(k, SortedAttrs(n.kind), n.attrs))
  }

  // ---------------------------------------------------------------------
  // Sorting a project

  /** Sorts every sorted list of every object by display name. */
  function Sort(p: Project): (r: Project)
    ensures r.root == p.root && r.registry == p.registry
    ensures r.heap.Keys == p.heap.Keys
    ensures forall u :: u in r.heap ==> r.heap[u] == SortNode(NameMap(p), p.heap[u])
  {
    Project(p.root, map u | u in p.heap :: SortNode(NameMap(p), p.heap[u]), p.registry)
  }

  /** Sorting keeps every object, reference and attribute: each object's
      lists hold the same members, and every other attribute is unchanged. */
  lemma SortKeeps(p: Project, u: Uuid, key: string)
    requires u in p.heap
    ensures Targets(Sort(p).heap[u]) == Targets(p.heap[u])
    ensures Keys(Sort(p).heap[u].attrs) == Keys(p.heap[u].attrs)
    ensures UniqueKeys(p.heap[u].attrs) ==> UniqueKeys(Sort(p).heap[u].attrs)
    ensures key !in SortedAttrs(p.heap[u].kind) ==> Get(Sort(p).heap[u].attrs, key) == Get(p.heap[u].attrs, key)
    ensures Get(p.heap[u].attrs, key).Some? && !Get(p.heap[u].attrs, key).value.Refs? ==>
              Get(Sort(p).heap[u].attrs, key) == Get(p.heap[u].attrs, key)
  {
    SortAttrsFacts(NameMap(p), SortedAttrs(p.heap[u].kind), p.heap[u].attrs);
  }

  /** A sorted list comes back ordered by display name and holds the same
      members, each as often as before. */
  lemma SortOrders(p: Project, u: Uuid, key: string)
    requires u in p.heap && key in SortedAttrs(p.heap[u].kind)
    ensures SortedBy(NameMap(p), RefList(Sort(p).heap[u], key))
    ensures multiset(RefList(Sort(p).heap[u], key)) == multiset(RefList(p.heap[u], key))
    ensures ListSlot(p.heap[u], key) ==> ListSlot(Sort(p).heap[u], key)
  {
    var n := p.heap[u];
    SortedSlot(NameMap(p), SortedAttrs(n.kind), n, key);
  }

  lemma SortedSlot(k: Names, sorted: seq<string>, n: Node, key: string)
    requires key in sorted
    ensures SortedBy(k, RefList(Node(n.kind, SortAttrs(k, sorted, n.attrs)), key))
    ensures multiset(RefList(Node(n.kind, SortAttrs(k, sorted, n.attrs)), key)) == multiset(RefList(n, key))
    ensures ListSlot(n, key) ==> ListSlot(Node(n.kind, SortAttrs(k, sorted, n.attrs)), key)
  {
    SortAttrsFacts(k, sorted, n.attrs);
    assert Get(SortAttrs(k, sorted, n.attrs), key) == SortGet(k, sorted, Get(n.attrs, key), key);
  }

  /** Sorting keeps the project well formed and registers the same objects. */
  lemma SortObjects(p: Project)
    ensures Objects(Sort(p)) == Objects(p)
    ensures Valid(p) ==> Valid(Sort(p))
  {
    var r := Sort(p);
    forall u | u in p.heap
      ensures Targets(r.heap[u]) == Targets(p.heap[u])
      ensures UniqueKeys(p.heap[u].attrs) ==> UniqueKeys(r.heap[u].attrs)
    {
      SortKeeps(p, u, "");
    }
    ReachSameEdges(p.heap, r.heap, p.root);
  }

  /** Sorting changes no display name. */
  lemma SortKeepsNames(p: Project)
    ensures NameMap(Sort(p)) == NameMap(p)
  {
    var r := Sort(p);
    SortKeepsMainGroup(p);
    forall u | u in p.heap ensures DisplayName(r, u) == DisplayName(p, u) {
      SortKeepsName(p, u);
      SameDisplayName(p, r, u);
    }
  }

  lemma SameDisplayName(p: Project, r: Project, u: Uuid)
    requires u in p.heap && u in r.heap
    requires NodeName(r.heap[u]) == NodeName(p.heap[u]) && r.heap[u].kind == p.heap[u].kind
    requires MainGroup(r) == MainGroup(p)
    ensures DisplayName(r, u) == DisplayName(p, u)
  {
  }

  lemma UnsortedKeys(kind: string)
    ensures "name" !in SortedAttrs(kind) && "mainGroup" !in SortedAttrs(kind)
  {
  }

  lemma SortKeepsName(p: Project, u: Uuid)
    requires u in p.heap
    ensures NodeName(Sort(p).heap[u]) == NodeName(p.heap[u])
  {
    UnsortedKeys(p.heap[u].kind);
    SortKeeps(p, u, "name");
  }

  lemma SortKeepsMainGroup(p: Project)
    ensures MainGroup(Sort(p)) == MainGroup(p)
  {
    if p.root in p.heap {
      UnsortedKeys(p.heap[p.root].kind);
      SortKeeps(p, p.root, "mainGroup");
    }
  }

  lemma SortAttrIdempotent(k: Names, sorted: seq<string>, a: Attr)
    ensures SortAttr(k, sorted, SortAttr(k, sorted, a)) == SortAttr(k, sorted, a)
  {
    if a.value.Refs? && a.key in sorted {
      SortRefsIdempotent(k, a.value.targets);
    }
  }

  lemma SortNodeIdempotent(k: Names, n: Node)
    ensures SortNode(k, SortNode(k, n)) == SortNode(k, n)
  {
    var s := SortedAttrs(n.kind);
    var once := SortAttrs(k, s, n.attrs);
    var twice := SortAttrs(k, s, once);
    forall i | 0 <= i < |twice| ensures twice[i] == once[i] {
      SortAttrIdempotent(k, s, n.attrs[i]);
    }
  }

  /** Sorting a sorted project changes nothing. */
  lemma SortIdempotent(p: Project)
    ensures Sort(Sort(p)) == Sort(p)
  {
    var r := Sort(p);
    SortKeepsNames(p);
    forall u | u in r.heap ensures Sort(r).heap[u] == r.heap[u] {
      SortNodeIdempotent(NameMap(p), p.heap[u]);
    }
  }
}

=== FILE: steps.dfy ===
/** Projects built by the same steps.  Two projects correspond when a
    one-to-one renaming of all their objects carries the one onto the other,
    root to root: they differ in nothing but their identifiers.  Adding a
    build configuration to both keeps them corresponding, the new
    configurations corresponding to each other. */
module Steps {
  import opened Wrappers
  import opened Uuids
  import opened Graph
  import opened Schema
  import opened Projects
  import opened Builders
  import opened Renaming

  /** g carries p1 onto p2, root to root. */
  predicate Corresponds(g: Renamer, p1: Project, p2: Project) {
    Renames(g, p1.heap, p2.heap) && p1.root in g && g[p1.root] == p2.root
  }

  /** The renamed list of identifiers. */
  function RenameRefs(g: Renamer, ts: seq<Uuid>): (r: seq<Uuid>)
    ensures |r| == |ts|
    ensures forall i :: 0 <= i < |ts| ==> r[i] == Rn(g, ts[i])
  {
    RenameValue(g, Refs(ts)).targets
  }

  // ---------------------------------------------------------------------
  // Queries agree on corresponding projects

  /** A renamed node points where the node pointed, renamed. */
  lemma RenamedRefOf(g: Renamer, n: Node, key: string)
    ensures RefOf(RenameNode(g, n), key) == if RefOf(n, key).Some? then Some(Rn(g, RefOf(n, key).value)) else None
    ensures RefList(RenameNode(g, n), key) == RenameRefs(g, RefList(n, key))
    ensures ListSlot(n, key) ==> ListSlot(RenameNode(g, n), key)
  {
    GetRename(g, n.attrs, key);
  }

  /** Renaming changes no name. */
  lemma RenamedName(g: Renamer, n: Node)
    ensures NodeName(RenameNode(g, n)) == NodeName(n)
  {
    GetRename(g, n.attrs, "name");
  }

  /** Each object of p1 sits, renamed, under its new name in p2. */
  lemma NodeAt(g: Renamer, p1: Project, p2: Project, u: Uuid)
    requires Corresponds(g, p1, p2) && u in p1.heap
    ensures u in g && g[u] in p2.heap && p2.heap[g[u]] == RenameNode(g, p1.heap[u])
  {
  }

  /** Corresponding projects have corresponding configuration lists, whose
      configurations correspond one by one and carry the same names. */
  lemma CorrespondingConfigurations(g: Renamer, p1: Project, p2: Project)
    requires Valid(p1) && Corresponds(g, p1, p2) && HasConfigurationList(p1)
    ensures ConfigurationList(p2) == Some(g[ConfigurationList(p1).value])
    ensures Configurations(p2) == RenameRefs(g, Configurations(p1))
    ensures HasConfigurationList(p2)
    ensures ConfigurationNames(p2) == ConfigurationNames(p1)
  {
    CorrespondingList(g, p1, p2);
    CorrespondingMembers(g, p1, p2);
    CorrespondingKinds(g, p1, p2);
    CorrespondingNames(g, p1, p2);
  }

  lemma CorrespondingList(g: Renamer, p1: Project, p2: Project)
    requires Valid(p1) && Corresponds(g, p1, p2) && HasConfigurationList(p1)
    ensures ConfigurationList(p1).value in g
    ensures ConfigurationList(p2) == Some(g[ConfigurationList(p1).value])
    ensures g[ConfigurationList(p1).value] in p2.heap
    ensures p2.heap[g[ConfigurationList(p1).value]] == RenameNode(g, p1.heap[ConfigurationList(p1).value])
  {
    var l := ConfigurationList(p1).value;
    NodeAt(g, p1, p2, p1.root);
    RenamedRefOf(g, p1.heap[p1.root], "buildConfigurationList");
    NodeAt(g, p1, p2, l);
  }

  lemma CorrespondingMembers(g: Renamer, p1: Project, p2: Project)
    requires Valid(p1) && Corresponds(g, p1, p2) && HasConfigurationList(p1)
    ensures Configurations(p2) == RenameRefs(g, Configurations(p1))
    ensures forall c :: c in Configurations(p1) ==> c in g
  {
    var l := ConfigurationList(p1).value;
    CorrespondingList(g, p1, p2);
    RenamedRefOf(g, p1.heap[l], "buildConfigurations");
  }

  lemma CorrespondingKinds(g: Renamer, p1: Project, p2: Project)
    requires Valid(p1) && Corresponds(g, p1, p2) && HasConfigurationList(p1)
    ensures HasConfigurationList(p2)
  {
    var l := ConfigurationList(p1).value;
    CorrespondingList(g, p1, p2);
    CorrespondingMembers(g, p1, p2);
    RenamedRefOf(g, p1.heap[l], "buildConfigurations");
    var cs := Configurations(p1);
    forall c | c in Configurations(p2) ensures c in p2.heap && p2.heap[c].kind == BuildConfigurationKind {
      var i :| 0 <= i < |cs| && Configurations(p2)[i] == c;
      assert cs[i] in cs;
      NodeAt(g, p1, p2, cs[i]);
    }
  }

  lemma CorrespondingNames(g: Renamer, p1: Project, p2: Project)
    requires Valid(p1) && Corresponds(g, p1, p2) && HasConfigurationList(p1)
    ensures ConfigurationNames(p2) == ConfigurationNames(p1)
  {
    CorrespondingMembers(g, p1, p2);
    var cs := Configurations(p1);
    forall i | 0 <= i < |cs| ensures NameOf(p2.heap, Configurations(p2)[i]) == NameOf(p1.heap, cs[i]) {
      assert cs[i] in cs;
      NodeAt(g, p1, p2, cs[i]);
      RenamedName(g, p1.heap[cs[i]]);
    }
  }

  /** Searching corresponding lists whose names agree finds the same
      position. */
  lemma {:induction false} FindCorresponding(h1: Heap, h2: Heap, us1: seq<Uuid>, us2: seq<Uuid>, name: string, from: nat)
    requires |us1| == |us2| && from <= |us1|
    requires forall i :: 0 <= i < |us1| ==> NameOf(h2, us2[i]) == NameOf(h1, us1[i])
    ensures FindByName(h2, us2, name, from) == FindByName(h1, us1, name, from)
    decreases |us1| - from
  {
    if from < |us1| {
      FindCorresponding(h1, h2, us1, us2, name, from + 1);
    }
  }

  // ---------------------------------------------------------------------
  // Adding a build configuration

  /** Adding a build configuration of the same name to two corresponding
      projects leaves them corresponding, once the two configurations it
      returns are paired as well. */
  lemma AddConfigurationCorresponds(g: Renamer, p1: Project, p2: Project, name: string)
    requires Valid(p1) && Valid(p2) && Corresponds(g, p1, p2) && HasConfigurationList(p1)
    requires |p1.registry.generated| < Space && |p2.registry.generated| < Space
    ensures HasConfigurationList(p2)
    ensures var r1 := AddBuildConfiguration(p1, name);
            var r2 := AddBuildConfiguration(p2, name);
            Corresponds(g[r1.1 := r2.1], r1.0, r2.0)
  {
    if Some(name) in ConfigurationNames(p1) {
      ExistingCorresponds(g, p1, p2, name);
      var r1 := AddBuildConfiguration(p1, name);
      var r2 := AddBuildConfiguration(p2, name);
      UpdateSame(g, r1.1, r2.1);
    } else {
      NewCorresponds(g, p1, p2, name);
    }
  }

  lemma UpdateSame(g: Renamer, x: Uuid, y: Uuid)
    requires x in g && g[x] == y
    ensures g[x := y] == g
  {
  }

  /** A name already present: both projects stay as they are, and the two
      configurations returned are already paired. */
  lemma ExistingCorresponds(g: Renamer, p1: Project, p2: Project, name: string)
    requires Valid(p1) && Valid(p2) && Corresponds(g, p1, p2) && HasConfigurationList(p1)
    requires |p1.registry.generated| < Space && |p2.registry.generated| < Space
    requires Some(name) in ConfigurationNames(p1)
    ensures HasConfigurationList(p2)
    ensures var r1 := AddBuildConfiguration(p1, name);
            var r2 := AddBuildConfiguration(p2, name);
            r1.0 == p1 && r2.0 == p2 && r1.1 in g && g[r1.1] == r2.1
  {
    CorrespondingConfigurations(g, p1, p2);
    var cs1 := Configurations(p1);
    var cs2 := Configurations(p2);
    forall i | 0 <= i < |cs1| ensures NameOf(p2.heap, cs2[i]) == NameOf(p1.heap, cs1[i]) {
      assert ConfigurationNames(p1)[i] == NameOf(p1.heap, cs1[i]);
      assert ConfigurationNames(p2)[i] == NameOf(p2.heap, cs2[i]);
    }
    FindCorresponding(p1.heap, p2.heap, cs1, cs2, name, 0);
    assert forall c :: c in cs1 ==> c in p1.heap;
  }

  /** A new name: each project gains a configuration of that name, and
      pairing the two extends the correspondence. */
  lemma NewCorresponds(g: Renamer, p1: Project, p2: Project, name: string)
    requires Valid(p1) && Valid(p2) && Corresponds(g, p1, p2) && HasConfigurationList(p1)
    requires |p1.registry.generated| < Space && |p2.registry.generated| < Space
    requires Some(name) !in ConfigurationNames(p1)
    ensures HasConfigurationList(p2)
    ensures var r1 := AddBuildConfiguration(p1, name);
            var r2 := AddBuildConfiguration(p2, name);
            Corresponds(g[r1.1 := r2.1], r1.0, r2.0)
  {
    CorrespondingList(g, p1, p2);
    CorrespondingKinds(g, p1, p2);
    CorrespondingNames(g, p1, p2);
    var key := "buildConfigurations";
    var l1 := ConfigurationList(p1).value;
    var n := NamedNode(BuildConfigurationKind, name);
    var r1 := AddBuildConfiguration(p1, name);
    var r2 := AddBuildConfiguration(p2, name);
    var e := g[r1.1 := r2.1];
    NamedNodeFacts(BuildConfigurationKind, name);
    RenameFixed(e, n.attrs);
    OwnerRenames(g, p1, p2, l1, r1.1, r2.1);
    assert NoDangling(p1.heap);
    ExtendRenames(g, p1.heap, p2.heap, r1.0.heap, r2.0.heap, l1, r1.1, r2.1);
  }

  /** A renaming of h1 onto h2 extends to one new node on each side, when
      the node of one owner and of its counterpart change in step and
      nothing else changes. */
  lemma ExtendRenames(g: Renamer, h1: Heap, h2: Heap, k1: Heap, k2: Heap, l1: Uuid, c1: Uuid, c2: Uuid)
    requires Renames(g, h1, h2) && NoDangling(h1)
    requires l1 in h1 && c1 !in h1 && c2 !in h2
    requires k1.Keys == h1.Keys + {c1} && k2.Keys == h2.Keys + {c2}
    requires k2[c2] == RenameNode(g[c1 := c2], k1[c1])
    requires k2[g[l1]] == RenameNode(g[c1 := c2], k1[l1])
    requires forall u :: u in h1 && u != l1 ==> k1[u] == h1[u]
    requires forall u :: u in h2 && u != g[l1] ==> k2[u] == h2[u]
    ensures Renames(g[c1 := c2], k1, k2)
  {
    ExtendInjective(g, c1, c2);
    ExtendNodes(g, h1, h2, k1, k2, l1, c1, c2);
  }

  lemma ExtendNodes(g: Renamer, h1: Heap, h2: Heap, k1: Heap, k2: Heap, l1: Uuid, c1: Uuid, c2: Uuid)
    requires Renames(g, h1, h2) && NoDangling(h1)
    requires l1 in h1 && c1 !in h1 && c2 !in h2
    requires k1.Keys == h1.Keys + {c1} && k2.Keys == h2.Keys + {c2}
    requires k2[c2] == RenameNode(g[c1 := c2], k1[c1])
    requires k2[g[l1]] == RenameNode(g[c1 := c2], k1[l1])
    requires forall u :: u in h1 && u != l1 ==> k1[u] == h1[u]
    requires forall u :: u in h2 && u != g[l1] ==> k2[u] == h2[u]
    ensures forall u :: u in k1 ==> k2[g[c1 := c2][u]] == RenameNode(g[c1 := c2], k1[u])
  {
    forall u | u in k1 ensures k2[g[c1 := c2][u]] == RenameNode(g[c1 := c2], k1[u]) {
      NodeRenames(g, h1, h2, k1, k2, l1, c1, c2, u);
    }
  }

  lemma NodeRenames(g: Renamer, h1: Heap, h2: Heap, k1: Heap, k2: Heap, l1: Uuid, c1: Uuid, c2: Uuid, u: Uuid)
    requires Renames(g, h1, h2) && NoDangling(h1)
    requires l1 in h1 && c1 !in h1 && c2 !in h2 && u in k1
    requires k1.Keys == h1.Keys + {c1} && k2.Keys == h2.Keys + {c2}
    requires k2[c2] == RenameNode(g[c1 := c2], k1[c1])
    requires k2[g[l1]] == RenameNode(g[c1 := c2], k1[l1])
    requires forall v :: v in h1 && v != l1 ==> k1[v] == h1[v]
    requires forall v :: v in h2 && v != g[l1] ==> k2[v] == h2[v]
    ensures k2[g[c1 := c2][u]] == RenameNode(g[c1 := c2], k1[u])
  {
    if u != c1 && u != l1 {
      OtherRenames(g, h1, h2, k1, k2, l1, c1, c2, u);
    }
  }

  lemma ExtendInjective(g: Renamer, c1: Uuid, c2: Uuid)
    requires Injective(g) && c1 !in g && c2 !in g.Values
    ensures Injective(g[c1 := c2])
    ensures g[c1 := c2].Keys == g.Keys + {c1}
    ensures g[c1 := c2].Values == g.Values + {c2}
  {
  }

  lemma OtherRenames(g: Renamer, h1: Heap, h2: Heap, k1: Heap, k2: Heap, l1: Uuid, c1: Uuid, c2: Uuid, u: Uuid)
    requires Renames(g, h1, h2) && NoDangling(h1)
    requires l1 in h1 && c1 !in h1 && u in h1 && u != l1
    requires k2.Keys == h2.Keys + {c2}
    requires k1.Keys == h1.Keys + {c1} && k1[u] == h1[u]
    requires forall v :: v in h2 && v != g[l1] ==> k2[v] == h2[v]
    ensures k2[g[u]] == RenameNode(g[c1 := c2], k1[u])
  {
    assert g[u] != g[l1];
    RenameExtend(g, c1, c2, h1[u]);
  }

  /** The owner of the appended list, renamed, is the other owner with the
      other new node appended. */
  lemma OwnerRenames(g: Renamer, p1: Project, p2: Project, l1: Uuid, c1: Uuid, c2: Uuid)
    requires Valid(p1) && Corresponds(g, p1, p2)
    requires l1 in p1.heap && ListSlot(p1.heap[l1], "buildConfigurations") && c1 !in p1.heap
    requires g[l1] in p2.heap && ListSlot(p2.heap[g[l1]], "buildConfigurations")
    ensures RenameNode(g[c1 := c2], AppendRef(p1, l1, "buildConfigurations", c1).heap[l1])
         == AppendRef(p2, g[l1], "buildConfigurations", c2).heap[g[l1]]
  {
    var key := "buildConfigurations";
    var n1 := p1.heap[l1];
    var e := g[c1 := c2];
    var ts := RefList(n1, key);
    RenameExtend(g, c1, c2, n1);
    RenamedRefOf(g, n1, key);
    RenamedRefOf(e, n1, key);
    PutRename(e, n1.attrs, key, Refs(ts + [c1]));
    AppendRename(e, ts, c1);
    ExtendFixesList(g, c1, c2, n1, key);
  }

  lemma ExtendFixesList(g: Renamer, c1: Uuid, c2: Uuid, n: Node, key: string)
    requires c1 !in Targets(n) && c1 !in g
    ensures RenameRefs(g[c1 := c2], RefList(n, key)) == RenameRefs(g, RefList(n, key))
  {
    var ts := RefList(n, key);
    GetTargets(n.attrs, key);
    assert forall i :: 0 <= i < |ts| ==> ts[i] != c1;
  }
}

=== FILE: uuids.dfy ===
/** The identity registry: 24-character upper-case hexadecimal identifiers and
    the set of every identifier a project instance has ever handed out.

    Random generation is replaced by a deterministic choice: the candidate
    identifiers are the hexadecimal renderings of 0, 1, 2, ... and a request
    takes the first one not yet recorded.  This keeps the property that
    matters (the result collides with nothing already known) without a source
    of randomness. */
module Uuids {
  import Counting
  import opened Seqs

  const UuidLength: nat := 24
  const HexDigits: string := "0123456789ABCDEF"

  predicate IsHexDigit(c: char) {
    ('0' <= c <= '9') || ('A' <= c <= 'F')
  }

  predicate IsUuid(s: string) {
    |s| == UuidLength && forall i :: 0 <= i < |s| ==> IsHexDigit(s[i])
  }

  function HexValue(c: char): (d: nat)
    requires IsHexDigit(c)
    ensures d < 16
    ensures HexDigits[d] == c
  {
    if c <= '9' then c as int - 48 else c as int - 55
  }

  function Pow16(n: nat): (r: nat)
    ensures r >= 1
  {
    if n == 0 then 1 else 16 * Pow16(n - 1)
  }

  /** Number of distinct identifiers the generator can produce: 16^24. */
  const Space: nat := 0x1_0000_0000_0000_0000_0000_0000

  lemma SpaceIsPow16()
    ensures Pow16(UuidLength) == Space
  {
    assert Pow16(4) == 0x1_0000;
    assert Pow16(8) == 0x1_0000_0000 by { Pow16Add(4, 4); }
    assert Pow16(16) == 0x1_0000_0000_0000_0000 by { Pow16Add(8, 8); }
    Pow16Add(16, 8);
  }

  lemma {:induction false} Pow16Add(a: nat, b: nat)
    ensures Pow16(a + b) == Pow16(a) * Pow16(b)
  {
    if b > 0 {
      Pow16Add(a, b - 1);
      assert Pow16(a + b) == 16 * Pow16(a + b - 1);
    }
  }

  /** k rendered as exactly `width` hexadecimal digits (most significant first). */
  function Hex(k: nat, width: nat): (s: string)
    ensures |s| == width
    ensures forall i :: 0 <= i < |s| ==> IsHexDigit(s[i])
  {
    if width == 0 then [] else Hex(k / 16, width - 1) + [HexDigits[k % 16]]
  }

  function Unhex(s: string): nat
    requires forall i :: 0 <= i < |s| ==> IsHexDigit(s[i])
  {
    if s == [] then 0 else Unhex(s[..|s| - 1]) * 16 + HexValue(s[|s| - 1])
  }

  /** Hex is a faithful encoding of every number that fits in the width. */
  lemma {:induction false} UnhexHex(k: nat, width: nat)
    requires k < Pow16(width)
    ensures Unhex(Hex(k, width)) == k
  {
    if width > 0 {
      var s := Hex(k, width);
      var q, d := k / 16, k % 16;
      assert k == q * 16 + d;
      assert s == Hex(q, width - 1) + [HexDigits[d]];
      assert s[..|s| - 1] == Hex(q, width - 1);
      assert Pow16(width) == Pow16(width - 1) * 16;
      assert q < Pow16(width - 1);
      UnhexHex(q, width - 1);
      assert HexValue(s[|s| - 1]) == d;
      assert Unhex(s) == q * 16 + d;
    }
  }

  /** The k-th candidate identifier. */
  function Candidate(k: nat): (u: string)
    ensures IsUuid(u)
  {
    Hex(k, UuidLength)
  }

  lemma CandidateInjective(i: nat, j: nat)
    requires i < Space && j < Space
    requires Candidate(i) == Candidate(j)
    ensures i == j
  {
    SpaceIsPow16();
    UnhexHex(i, UuidLength);
    UnhexHex(j, UuidLength);
  }

  /** When every one of the first n candidates is taken, at least n identifiers are known. */
  lemma TakenCandidatesCount(known: set<string>, n: nat)
    requires n <= Space
    requires forall j: nat :: j < n ==> Candidate(j) in known
    ensures n <= |known|
  {
    forall i: nat, j: nat | i < n && j < n && Candidate(i) == Candidate(j)
      ensures i == j
    {
      CandidateInjective(i, j);
    }
    Counting.Pigeonhole(Candidate, n, known);
  }

  /** Index of the first candidate at or after k that is not in known. */
  function FirstFree(known: set<string>, k: nat): (r: nat)
    requires |known| < Space
    requires k <= Space
    requires forall j: nat :: j < k ==> Candidate(j) in known
    ensures k <= r < Space
    ensures Candidate(r) !in known
    ensures forall j: nat :: j < r ==> Candidate(j) in known
    decreases Space - k
  {
    TakenCandidatesCount(known, k);
    if Candidate(k) !in known then k else FirstFree(known, k + 1)
  }

  /** Every identifier ever generated or loaded by one project instance. */
  datatype Registry = Registry(generated: set<string>)

  /** Hands out a new identifier and records it.  The source retries a random
      draw until it misses every known identifier; that loop ends only while
      some identifier is still free, which is the precondition here. */
  function GenerateUuid(reg: Registry): (r: (string, Registry))
    requires |reg.generated| < Space
    ensures IsUuid(r.0)
    ensures r.0 !in reg.generated
    ensures r.1.generated == reg.generated + {r.0}
  {
    var u := Candidate(FirstFree(reg.generated, 0));
    (u, Registry(reg.generated + {u}))
  }

  predicate Distinct(us: seq<string>) {
    forall i, j :: 0 <= i < j < |us| ==> us[i] != us[j]
  }

  /** Generates n identifiers at once: pairwise distinct, new to the registry,
      and all recorded, so the registry grows by exactly n. */
  function GenerateBatch(reg: Registry, n: nat): (r: (seq<string>, Registry))
    requires |reg.generated| + n <= Space
    ensures |r.0| == n
    ensures Distinct(r.0)
    ensures forall u :: u in r.0 ==> IsUuid(u) && u !in reg.generated
    ensures r.1.generated == reg.generated + Members(r.0)
    ensures |r.1.generated| == |reg.generated| + n
    decreases n
  {
    if n == 0 then ([], reg)
    else
      var first := GenerateUuid(reg);
      var rest := GenerateBatch(first.1, n - 1);
      BatchCons(reg, first.0, first.1, rest.0, rest.1);
      ([first.0] + rest.0, rest.1)
  }

  /** One step of the batch: a fresh identifier in front of a batch drawn
      from the registry that already records it. */
  lemma BatchCons(reg: Registry, u: string, reg1: Registry, us: seq<string>, reg2: Registry)
    requires IsUuid(u) && u !in reg.generated && reg1.generated == reg.generated + {u}
    requires Distinct(us)
    requires forall v :: v in us ==> IsUuid(v) && v !in reg1.generated
    requires reg2.generated == reg1.generated + Members(us)
    requires |reg2.generated| == |reg1.generated| + |us|
    ensures Distinct([u] + us)
    ensures forall v :: v in [u] + us ==> IsUuid(v) && v !in reg.generated
    ensures reg2.generated == reg.generated + Members([u] + us)
    ensures |reg2.generated| == |reg.generated| + |[u] + us|
  {
    ConsDistinct(u, us);
    assert Members([u] + us) == {u} + Members(us) by { ConsMembers(u, us); }
  }

  lemma ConsDistinct(u: string, us: seq<string>)
    requires Distinct(us)
    requires u !in us
    ensures Distinct([u] + us)
  {
    var all := [u] + us;
    assert forall i :: 1 <= i < |all| ==> all[i] == us[i - 1];
  }

  lemma ConsMembers(u: string, us: seq<string>)
    ensures Members([u] + us) == {u} + Members(us)
  {
  }
}

=== FILE: wrappers.dfy ===
/** The optional value shared by the whole model: a lookup, a search or a
    comparison that may have nothing to report. */
module Wrappers {

  datatype Option<+T> = None | Some(value: T)
}
